=== FILE: README.md ===
# webcore-go: a verified model of its startup and request-gating core

webcore-go is a Go web framework built on Fiber. At startup it registers
application modules and initialises them in dependency order. It also keeps
a cache of infrastructure libraries (databases, Redis, Pub/Sub, auth stores),
built by named loaders. Each request then passes through a chain of
middleware:

- a fixed-window rate limiter;
- an authentication library that validates a credential from the headers;
- a look-up of the user in an auth store;
- role-based authorisation of the request's method and path.

This project models that core in Dafny. Each Go source file becomes one
Dafny module:

- Objects whose fields Go updates in place become classes:
  - the module manager, the library manager and the store wrapper;
  - the authenticator, the authoriser and the AuthN library;
  - the rate limiter and the event bus;
  - the SQL and Mongo database objects;
  - the configuration registries.
- Pure helpers become functions:
  - the string helpers, pagination and response constructors;
  - the DSN pieces and config-key rules.
- Go loops become `while` loops with invariants, each proved against a
  specification function. Examples: de-duplication, the dependency-order
  depth-first search, the rate-limiter cleanup, the config key scan and the
  retry loop.
- Go's map iteration order is unspecified. Where the result depends on it, a
  loop picks an arbitrary remaining key, and a ghost out-parameter records
  the order it used.

Each file's main results:

- `module_graph.dfy`:
  - When the three-colour depth-first search succeeds, its output is an
    initialisation order: every module exactly once, each after all of its
    dependencies.
  - When it fails, a ghost witness shows a dangling dependency or a cycle.
  - A graph has such an order only if it is closed and acyclic.
- `module_manager.dfy`:
  - Registration skips disabled modules and rejects an empty name or version.
  - Dependencies are stored de-duplicated.
  - Initialisation calls `Init` in exactly the computed order and stops at
    the first failure.
  - When the graph is broken, no `Init` is called.
- `library_manager.dfy`:
  - The two-level cache (loader name, then instance key) is written only on
    a cache miss with a successful `Init`.
  - Unloading removes an entry only after a clean teardown, and drops inner
    maps once they are empty.
  - `Destroy` leaves exactly the instances whose teardown failed.
- `auth_*.dfy`, `yaml_store.dfy`, `authn.dfy`:
  - Each validator extracts its credential as its header scheme prescribes:
    - Basic: section 2 of RFC 7617, split at the first colon;
    - Bearer: section 2.1 of RFC 6750.
  - The YAML store answers the first user in file order that verifies
    cleanly, and the first resource guarding the request.
  - The handler of the AuthN library runs validate → authenticate →
    authorise and answers 401 at the first failure.
- `rate_limit.dfy`:
  - Every stored count stays between 1 and the limit.
  - A client that was unseen gets at most `limit` requests through in the
    window its first request opens.
  - `Cleanup` removes exactly the expired entries.

The remaining files model the helpers:

- strings, slices, pagination, logging, the event bus and the retry loop;
- the response constructors;
- the SQL DSN and Mongo connection-string builders;
- the two configuration loaders' key-prefix and precedence rules;
- the conditional library start of the application context.

`wrappers.dfy` (Option, Result, Outcome), `text.dfy` (the `strings` package
functions used) and `http.dfy` (a request's headers) are shared support.
`settings.dfy` holds the configuration records.

## Model

| member | source | states |
|---|---|---|
| ModuleManagement.ModuleManager.constructor | app/core/module.go:76-95 | a new manager has no modules, no loaded modules, is not initialised, and keeps the disabled list |
| ModuleManagement.ModuleManager.IsModuleDisabled | app/core/module.go:411-418 | true exactly when the name is in the disabled list |
| ModuleManagement.ValidateModule | app/core/module.go:421-443 | passes exactly when the name and the version are both non-empty |
| ModuleManagement.ExtractDependencies | app/core/module.go:506-533 | the result lists every declared dependency exactly once, with no other names, and is no longer than the input |
| ModuleManagement.ModuleManager.Register | app/core/module.go:445-474 | a disabled module passes and changes nothing; an invalid one fails with "module validation failed: …" and changes nothing; otherwise both maps store the module under its name, its DependsOn de-duplicated, and no other entry changes |
| ModuleManagement.ModuleManager.GetModule | app/core/module.go:134-144 | succeeds exactly for a registered name, with that module; otherwise fails with "module '<name>' not found" |
| ModuleManagement.ModuleManager.BuildDependencyGraph | app/core/module.go:570-581 | succeeds exactly when no loaded module lists itself, and then returns each module's DependsOn; a failure names a self-dependent module |
| ModuleGraph.Visit | app/core/module.go:589-619 | the depth-first visit keeps the colour invariant: on success the result grows by finished modules in dependencies-first order; an error is backed by a missing module or a cycle on the stack |
| ModuleGraph.CycleOnStack | app/core/module.go:595-598 | meeting a module that is still being visited closes a dependency cycle from its place on the stack back to it |
| ModuleGraph.FinishVisit | app/core/module.go:615-617 | marking a module done and appending it once all its dependencies are in the result keeps the traversal state valid and takes it off the stack |
| ModuleGraph.BuildDependencyOrder | app/core/module.go:583-631 | on success the order holds every graph node exactly once, each after all its dependencies; on failure the graph has a dangling dependency or a cycle |
| ModuleGraph.EdgeGoesBack | app/core/module.go:609-617 | in an initialisation order a dependency sits strictly before its dependant |
| ModuleGraph.PathDescends | app/core/module.go:609-617 | along a dependency path of length k the positions in the order drop by at least k |
| ModuleGraph.InitOrderOnlyForClosedAcyclic | app/core/module.go:583-631 | a graph that has an initialisation order is closed and has no cycle |
| ModuleGraph.JustifiedMeansBroken | app/core/module.go:590-598 | a failure of the traversal only occurs for a graph with a dangling dependency or a cycle |
| ModuleManagement.ModuleManager.InitializeInOrder | app/core/module.go:187-197 | Init runs along the given order and stops at the first error: the modules called form a prefix of it, every call but the last succeeded, success means all ran, and a failure names the last module with its Init error |
| ModuleManagement.ModuleManager.InitializeModulesWithDependencies | app/core/module.go:175-200 | a self-reference, a dangling dependency or a cycle fails before any Init, and only those do; otherwise Init runs along an initialisation order, all earlier calls succeeded, success means the whole order ran, and a failure names the last module called with its Init error |
| ModuleManagement.Qualify | app/core/module.go:216-231 | every (module, key) pair appears as "module.key", and every output key comes from such a pair with its value |
| ModuleManagement.ModuleManager.GetServices | app/core/module.go:216-231 | every service of every module appears under moduleName + "." + key, and nothing else does |
| ModuleManagement.ModuleManager.GetRepositories | app/core/module.go:234-249 | every repository of every module appears under moduleName + "." + key, and nothing else does |
| ModuleManagement.ModuleManager.UnloadModule | app/core/module.go:388-408 | an unknown name fails with "module '<name>' is not loaded" and changes nothing; otherwise only that loadedModules entry is removed |
| ModuleManagement.ModuleManager.Destroy | app/core/module.go:97-110 | returns nil, empties modules, clears loaded, keeps loadedModules; every module's Destroy error is warned about and every warning is some module's Destroy error |
| ModuleManagement.GetRepoName | app/core/module.go:540-547 | the result is a suffix of the URL without '/', preceded by '/' unless it is the whole URL |
| ModuleManagement.JoinLast | app/core/module.go:542-544 | the last piece of a '/'-join is its suffix after the last separator |
| ModuleManagement.CheckSingleLoaderAsWritten | app/core/module.go:549-567 | returns every loader unchanged, duplicates included |
| ModuleManagement.CheckSingleLoader | app/core/module.go:549-567 | succeeds exactly when the loaders' type names are pairwise different, returning the loaders unchanged |
| ModuleManagement.DuplicateTypeSlipsThrough | app/core/module.go:559-561 | two loaders of one type have a repeated type name, so the corrected check rejects them |
| Libraries.Stored | webcore/app/core/library.go:92-103 | storing at (name, key) sets that slot and leaves every other name's inner map unchanged |
| Libraries.Removed | webcore/app/core/library.go:281-305 | removing (name, key) clears that slot only and drops an inner map that becomes empty |
| Libraries.LibraryManager.constructor | webcore/app/core/library.go:22-32 | every loader is stored under its key with its name set to that key; the cache is empty |
| Libraries.LibraryManager.GetLoader | webcore/app/core/library.go:46-49 | the loader of that name when present, whose name is the name |
| Libraries.LibraryManager.GetLibrary | webcore/app/core/library.go:60-78 | a pure lookup at (name, "default") for singletons and (name, key) otherwise |
| Libraries.LibraryManager.LoadFromLoader | webcore/app/core/library.go:80-139 | a cached instance is returned without calling Init and nothing changes; on a miss Init runs, a failure leaves the cache unchanged, a success is stored at (name, key) only |
| Libraries.LibraryManager.LoadSingletonFromLoader | webcore/app/core/library.go:141-143 | LoadFromLoader under the loader's own name and key "default" |
| Libraries.LibraryManager.LoadLibrary | webcore/app/core/library.go:166-246 | a keyed load of a registered type name with a nil key panics (nil dereference) and changes nothing; cache hit returns the instance; a type without a Library instance fails with "type *pkg.Name does not implement Library interface"; otherwise Install runs, Connect runs only for a connector that is the first instance of its type name, and only a clean Install (and Connect) stores the instance |
| Libraries.LibraryManager.Unload | webcore/app/core/library.go:281-305 | a failing Disconnect (connectors) or Uninstall returns the error and keeps the entry; otherwise the entry is removed as Removed says |
| Libraries.LibraryManager.UnloadLibrary | webcore/app/core/library.go:248-279 | an unknown type name, a keyed call with a nil key, or a missing key fails with its message and changes nothing; a present slot is unloaded: a failing Disconnect (connectors) or Uninstall returns "failed to close connector: …" or "failed to destroy library: …" and keeps it, a clean teardown removes it (and an emptied type) and returns it |
| Libraries.LibraryManager.TeardownType | webcore/app/core/library.go:36-42 | tearing down every instance of one library type leaves exactly its failures and no other type's instances changed |
| Libraries.LibraryManager.Destroy | webcore/app/core/library.go:34-44 | returns nil and leaves exactly the instances whose teardown failed, emptied inner maps dropped |
| Libraries.PendingStep | webcore/app/core/library.go:36-42 | tearing down one key removes it from the pending instances exactly when its teardown succeeds |
| Libraries.SlotsDetermine | webcore/app/core/library.go:281-305 | two caches without empty inner maps are equal when every slot is |
| AuthInfo.UserControlType | app/loader/auth/authn.go:62-97 | RBAC records report "RBAC", ABAC records "ABAC", other stores' records their own tag |
| AuthInfo.ResourceControlType | app/loader/auth/authz.go:63-114 | "RBAC" exactly for RBAC resources and "ABAC" exactly for ABAC resources |
| AuthInfo.HasPermittedRole | app/loader/auth/authz.go:93-99 | true exactly when some role of the user is a permitted role |
| AuthInfo.IsUserPermitted | app/loader/auth/authz.go:79-151 | a non-RBAC user is refused with the wrong-type message; an RBAC resource permits exactly a user holding a permitted role and otherwise says "User access denied"; an ABAC resource never permits |
| AuthCheck.UserAnswer | app/loader/auth/store.go:39-48 | for the YAML store the answer succeeds exactly when the YAML lookup does, with its user |
| AuthCheck.StoreWrapper.constructor | app/loader/auth/store.go:33-37 | a new wrapper holds the store, with no user and no resource |
| AuthCheck.StoreWrapper.CheckUser | app/loader/auth/store.go:39-48 | a store error becomes "User not found: <key>" with the user unchanged; otherwise the user is the store's answer |
| AuthCheck.StoreWrapper.CheckResource | app/loader/auth/store.go:50-59 | a store error gives (false, err) with the resource unchanged; otherwise (true, nil) and the resource is the answer, nil included |
| AuthCheck.StoreWrapper.GetLoadedUser | app/loader/auth/store.go:62-64 | the user the wrapper holds: the answer of the last clean CheckUser, None before any |
| AuthCheck.StoreWrapper.GetLoadedResource | app/loader/auth/store.go:66-68 | the resource the wrapper holds: the answer of the last clean CheckResource, None before any |
| AuthCheck.Decision | app/loader/auth/authz.go:31-46 | no matching resource allows; a lookup error is returned unchanged; a matching resource answers its IsUserPermitted |
| AuthCheck.Authenticator.constructor | app/loader/auth/authn.go:25-30 | holds the given validator and wrapper |
| AuthCheck.Authenticator.Check | app/loader/auth/authn.go:32-45 | propagates the CheckUser error; a nil user after it fails; a pass leaves a user in the wrapper |
| AuthCheck.Authorization.constructor | app/loader/auth/authz.go:25-29 | holds the given wrapper |
| AuthCheck.Authorization.Check | app/loader/auth/authz.go:31-46 | the result is the Decision for the user and request, and the wrapper records the looked-up resource |
| YamlStore.GetUserAuthInfo | libraries/authstore/yaml/loader.go:97-121 | the loop's answer is UserLookup of the validator's current key |
| YamlStore.UserLookupMeaning | libraries/authstore/yaml/loader.go:104-120 | a loaded store answers the first user in file order that verifies with (true, nil); without one, the last error of a (true, err) match, else "Invalid or expired token" |
| YamlStore.ScanFindsFirstClean | libraries/authstore/yaml/loader.go:104-110 | the scan stops at the first clean match |
| YamlStore.ScanWithoutClean | libraries/authstore/yaml/loader.go:104-120 | without a clean match the scan answers the last soft error, or the expired-token error |
| YamlStore.LastSoftSplit | libraries/authstore/yaml/loader.go:111-117 | the last soft error of a list is the tail's, or else the head's |
| YamlStore.CleanPath | libraries/authstore/yaml/loader.go:123-135 | the result is a prefix of the path with neither "/:" nor "?" in it; a path with neither is unchanged |
| YamlStore.CleanPathIdempotent | libraries/authstore/yaml/loader.go:123-135 | cleaning twice is cleaning once |
| YamlStore.FirstSetFrom | libraries/authstore/yaml/loader.go:142-149 | the index of the first set flag at or after k (or the length when none), with no set flag before it |
| YamlStore.FirstGuard | libraries/authstore/yaml/loader.go:142-151 | none exactly when no resource guards the request; otherwise the first one that does |
| YamlStore.GetResourceInfo | libraries/authstore/yaml/loader.go:137-152 | the loop's answer is ResourceLookup: not-loaded error, first guarding resource, or nil |
| ApiKeyAuth.ApiKeyValidator.constructor | libraries/authn/apikey/loader.go:98-103 | header and prefix come from the configuration, the key is empty |
| ApiKeyAuth.ApiKeyValidator.ExtractKey | libraries/authn/apikey/loader.go:48-74 | a non-empty configured header is the raw key; else Authorization must carry "APIKey "; a configured prefix must be present and is stripped; each failure has its message |
| ApiKeyAuth.ApiKeyValidator.ValidateKey | libraries/authn/apikey/loader.go:48-74 | on success the stored key is the extracted key; on failure the error is returned and the key kept |
| ApiKeyAuth.ApiKeyValidator.VerifyUser | libraries/authn/apikey/loader.go:80-96 | never an error; matches exactly a non-empty key equal to an RBAC or ABAC record's user id |
| BasicAuth.SplitCredentials | lib/auth/basic/loader.go:79-85 | with a ':' the pair joins back to the text and the user id has no ':'; without one ("", "") |
| BasicAuth.CredentialsRoundTrip | lib/auth/basic/loader.go:79-85 | a user id without ':' and any password split back to themselves |
| BasicAuth.BasicAuthValidator.constructor | lib/auth/basic/loader.go:27-37 | the key starts empty |
| BasicAuth.BasicAuthValidator.ExtractKey | lib/auth/basic/loader.go:49-67 | succeeds exactly when Authorization starts with "Basic ", with the rest; an empty header has its own message |
| BasicAuth.BasicAuthValidator.ValidateKey | lib/auth/basic/loader.go:49-67 | on success the stored key is the extracted key; on failure the error is returned and the key kept |
| BasicAuth.BasicAuthValidator.GetUserPassword | lib/auth/basic/loader.go:73-86 | the decoded key split at its first ':': the name has no ':' and name + ":" + password is the text; ("", "") when the text has no ':' |
| BasicAuth.BasicAuthValidator.VerifyUser | lib/auth/basic/loader.go:88-125 | never an error; matches exactly a non-empty key whose decoded name and password are non-empty and agree with the record's set fields (nil fields match anything) |
| JwtAuth.JwtAuthValidator.constructor | libraries/authn/jwt/loader.go:27-38 | the secret comes from the configuration, the key is empty |
| JwtAuth.JwtAuthValidator.ExtractKey | libraries/authn/jwt/loader.go:51-69 | succeeds exactly when Authorization starts with "Bearer ", with the rest; an empty header has its own message |
| JwtAuth.JwtAuthValidator.ValidateKey | libraries/authn/jwt/loader.go:51-69 | on success the stored key is the token; on failure the error is returned and the key kept |
| JwtAuth.JwtAuthValidator.VerifyUser | libraries/authn/jwt/loader.go:75-115 | an empty token gives (false, nil); a token that does not parse or is invalid gives an error; a valid one is compared with the record |
| Validators.Validator.Name | libraries/authn/jwt/loader.go:47-49 | the API-key validator is "apikey"; the Basic and the JWT validator are both "basic" |
| Validators.Validator.VerifyUser | app/loader/auth/authn.go:13-18 | an empty key never matches, and only the JWT validator can give an error |
| Validators.Validator.ValidateKey | app/loader/auth/authn.go:13-18 | on success GetValue is the extracted key; on failure the error is returned and GetValue kept |
| AuthN.Unauthorized | lib/auth/authn/authn.go:83-91 | every failure reply is status 401 with error code 2, name "UNAUTHORIZED" and the failure's message |
| AuthN.AuthN.constructor | lib/auth/authn/authn.go:19-21 | no validator, authenticator or authoriser yet |
| AuthN.AuthN.SetValidator | lib/auth/authn/authn.go:23-25 | the validator is set |
| AuthN.AuthN.Install | lib/auth/authn/authn.go:28-78 | no validator, a type differing from the validator's name, a missing auth-store loader or a failed store load each refuse with their message and leave authenticator and authoriser unset; a non-store library panics; success wires both to one fresh store wrapper around the loaded store; once the loader is found, the library cache ends as a singleton load leaves it (the new instance stored under the loader's name and "default" when Init ran and succeeded, else unchanged) |
| AuthN.AuthN.Handle | lib/auth/authn/authn.go:80-96 | key extraction, then the user lookup, then the Decision on the user just loaded; the first failure answers 401 with its message, and passing all three calls the next handler |
| AppCore.GetDefaultName | webcore/app/core/core.go:115-125 | "database", "authstorage" and "authentication" gain the configured driver, store and type; any other name is unchanged |
| AppCore.GetLibraryLoader | webcore/app/core/core.go:78-85 | the loader of that name, or the not-found error exactly when it is missing |
| AppCore.GetDefaultLibraryLoader | webcore/app/core/core.go:87-89 | GetLibraryLoader of the defaulted name |
| AppCore.PlanMeaning | webcore/app/core/core.go:25-63 | database is loaded exactly when its host is set, Redis exactly when its host is set and with the database configuration, Pub/Sub exactly when project and topic are set |
| AppCore.KeepsTransitive | webcore/app/core/core.go:25-63 | keeping every cached instance composes across steps |
| AppCore.StartOne | webcore/app/core/core.go:25-37 | one guarded block: skipped when its condition is false; a missing loader stops with the not-found error; otherwise the load is requested and succeeds exactly when the singleton is cached, failing with Init's error; no cached instance is lost |
| AppCore.StopAfter | webcore/app/core/core.go:25-63 | when Start stops after a failed block or after the last one, that block's outcome is Start's: the requested loads are a prefix of the plan and a failure is the next loader missing or the last load's error |
| AppCore.Start | webcore/app/core/core.go:21-66 | the steps run are a prefix of the plan; success exactly when the whole plan ran and every singleton is cached; the first missing loader or load error is returned; no cached instance is lost |
| RateLimit.AllowStepKeepsBounded | app/middleware/rate_limit.go:105-120 | one decision keeps every count between 1 and the limit and touches only the client's own entry |
| RateLimit.WithinWindowBound | app/middleware/rate_limit.go:91-121 | within an unexpired window a client gets at most limit minus its count through |
| RateLimit.AtMostLimitPerWindow | app/middleware/rate_limit.go:91-121 | a client unseen so far gets at most limit requests through in the window its first request opens |
| RateLimit.ClientId | app/middleware/rate_limit.go:43-51 | X-API-Key when set, else the Bearer token, else the remote IP |
| RateLimit.Remaining | app/middleware/rate_limit.go:78-81 | max(0, limit - count) |
| RateLimit.RateLimiter.constructor | app/middleware/rate_limit.go:32-37 | an empty table with the configured window and limit |
| RateLimit.RateLimiter.Allow | app/middleware/rate_limit.go:91-121 | limit 0 denies and changes nothing; a new or expired client restarts at count 1 and passes; a full window denies and changes nothing; otherwise the count goes up by one; the table invariant is kept |
| RateLimit.RateLimiter.ClientCount | app/middleware/rate_limit.go:126-134 | the client's count, or 0 when unknown |
| RateLimit.RateLimiter.Reset | app/middleware/rate_limit.go:137-141 | the table is empty |
| RateLimit.RateLimiter.Cleanup | app/middleware/rate_limit.go:144-154 | exactly the expired entries are removed, the others kept unchanged |
| RateLimit.RateLimiter.Middleware | app/middleware/rate_limit.go:40-88 | a denial answers 429 with the reset time; a pass reports the remaining count below the limit; the table is Allow's |
| AccessGate.GetAuthType | webcore/app/middleware/auth.go:165-171 | "unknown" when unset, else the stored type |
| AccessGate.GetAPIKey | webcore/app/middleware/auth.go:189-195 | "" when unset, else the stored key |
| AccessGate.RoleRequired | webcore/app/middleware/auth.go:198-234 | API-key requests pass; a missing role gives 401; an allowed role passes; any other role gets status 403 with a body saying 401 |
| AccessGate.PermissionRequired | webcore/app/middleware/auth.go:237-273 | API-key requests pass; missing permissions give 401; holding the permission passes; otherwise status 403 with a body saying 401 |
| Logging.RemoveTrailingSlash | app/middleware/logging.go:40-48 | a 301 redirect exactly for a path other than "/" ending in '/', to that path less one slash |
| Logging.RootStays | app/middleware/logging.go:42-46 | "/" is never redirected and no path is redirected to itself |
| Logging.RequestId | app/middleware/logging.go:51-68 | a non-empty incoming X-Request-ID is reused, else "req-" and the stamp; the header and the local agree |
| Events.EventBus.constructor | app/core/eventbus.go:11-15 | no subscribers |
| Events.EventBus.Subscribe | app/core/eventbus.go:18-20 | the handler is appended to its event's list; other events are unchanged |
| Events.EventBus.Publish | app/core/eventbus.go:23-29 | each handler of the event is called once with the data, in subscription order |
| Events.EventBus.GetSubscribers | app/core/eventbus.go:32-34 | the number of Subscribe calls for the event |
| Events.OtherEventsKeepCount | app/core/eventbus.go:18-20 | subscribing to one event adds one to its count and leaves every other event's list unchanged |
| Pagination.GoDiv | webcore/app/helper/api.go:53 | Go's truncating division agrees with Dafny's for a non-negative dividend and positive divisor |
| Pagination.Start | webcore/app/helper/api.go:64-68 | the start index never exceeds the length |
| Pagination.End | webcore/app/helper/api.go:69-72 | the end index lies between the start and the length |
| Pagination.Paginate | webcore/app/helper/api.go:41-86 | a non-slice is returned with no pagination; an empty slice gives an empty one; otherwise the items from start to end, at most pageSize of them, with the input length, the clamped page and size, and the page count |
| Pagination.TotalPagesIsCeiling | webcore/app/helper/api.go:53 | for a positive size the page count is the rounded-up quotient |
| Pagination.FirstPagesArePrefix | webcore/app/helper/api.go:64-78 | pages 1 to k read one after another are the first k × size items |
| Pagination.PagesCoverData | webcore/app/helper/api.go:41-86 | pages 1 to TotalPages read one after another give back the whole slice |
| StringHelper.Truncate | app/helper/string.go:61-66 | a string that fits is unchanged; otherwise its first `length` characters and "..." |
| StringHelper.Capitalize | app/helper/string.go:69-74 | same length, the first character upper-cased, the rest kept |
| StringHelper.ToCamelCase | app/helper/string.go:87-99 | the first word, the text before the first '_' (all of the input without one), is kept unchanged at the head of the result |
| StringHelper.CamelCaseMeaning | app/helper/string.go:87-99 | ToCamelCase equals a character-by-character reference: every '_' is dropped, the character after a '_' is upper-cased, every other character is kept |
| StringHelper.SplitRef | app/helper/string.go:88-96 | read by the reference, the split's first word comes out whole and every later word capitalised, as the `result +=` loop builds it |
| StringHelper.WordThen | app/helper/string.go:93-95 | a word without '_' comes out whole, or capitalised right after a '_' |
| StringHelper.CamelCaseShape | app/helper/string.go:87-99 | the result has no '_', is shorter than the input by its number of underscores, and input without '_' comes back unchanged |
| StringHelper.CapitalizeAllShape | app/helper/string.go:93-96 | capitalising words without '_' adds none and keeps their total length |
| StringHelper.IsValidUUID | app/helper/string.go:49-58 | true exactly for 36 characters with '-' at 8, 13, 18 and 23 and hex digits elsewhere |
| StringHelper.SanitizeString | app/helper/string.go:142-146 | no '<', '>', quote, double quote or '&' remains, and the result is no longer |
| StringHelper.SanitizeConcat | app/helper/string.go:142-146 | sanitising distributes over concatenation, so every other character is kept in order |
| StringHelper.SanitizeKeepsClean | app/helper/string.go:142-146 | a string without those characters is unchanged |
| StringHelper.FirstItem | app/helper/string.go:32-35 | the text before the first ',', or all of it |
| StringHelper.GetClientIP | app/helper/string.go:28-46 | the trimmed first X-Forwarded-For item, else X-Real-IP, else the remote address |
| StringHelper.ValidatePhone | app/helper/string.go:136-139 | true exactly for an optional '+', a digit 1-9, then at most fifteen digits |
| Utils.ContainsFrom | app/helper/utils.go:120-126 | true exactly when the item occurs at or after the index |
| Utils.Contains | app/helper/utils.go:114-127 | false for a non-slice; for a slice, true exactly when the item is an element |
| Utils.DistinctMeaning | app/helper/utils.go:130-148 | the de-duplicated sequence has no repeats and exactly the input's values, and is no longer |
| Utils.DistinctKeepsOrder | app/helper/utils.go:139-145 | first occurrences keep their relative order |
| Utils.RemoveDuplicates | app/helper/utils.go:130-148 | a non-slice is returned unchanged; a slice gives its distinct values in first-occurrence order |
| Out.NewResponse | webcore/app/out/app.go:25-35 | a zero status becomes 200, any other is kept; the stack trace is set only for an error code, an error name and the development environment; nothing else changes |
| Out.ErrorText | webcore/app/out/app.go:38-40 | the error text is the message |
| Out.SuccessData | webcore/app/out/app.go:43-47 | status 0 and the data |
| Out.SuccessMessage | webcore/app/out/app.go:49-53 | status 0 and the message |
| Out.SuccessDataMessage | webcore/app/out/app.go:56-61 | status 0, the data and the message |
| Out.Error | webcore/app/out/app.go:63-70 | the given code (0 becomes 200), error code, name and message, no details; the stack trace is attached exactly for a real error (code and name set) in development, and is empty otherwise |
| Out.ErrorDetail | webcore/app/out/app.go:72-86 | Error with the details set to the detail |
| Sql.SqlDatabase.constructor | libraries/db/sql/sql.go:20-25 | holds the configuration and the dialect |
| Sql.SqlDatabase.SetDialect | libraries/db/sql/sql.go:27-29 | the dialect is set |
| Sql.SqlDatabase.Install | libraries/db/sql/sql.go:32-45 | the configuration is stored; a missing dialect or a driver other than the dialect's name fails with its message; passes exactly when they agree |
| Sql.MysqlDefaults | libraries/db/sql/sql.go:266-276 | charset, parseTime and loc are added only when absent, with utf8mb4, True and Local; existing values are kept |
| Sql.MysqlDSNAsWritten | libraries/db/sql/sql.go:262-283 | a configuration without attributes (nil map) panics on writing the first default, and only then; otherwise the caller's map ends defaulted and the DSN is user:password@tcp(host:port)/name, "?" and the defaulted attributes as key=escaped value joined with '&' |
| Sql.MysqlDSN | libraries/db/sql/sql.go:262-283 | the same DSN with a nil map read as empty, so it always carries at least charset, parseTime and loc; a configured map ends defaulted, a nil one stays nil |
| Sql.MysqlDefaultsOfNil | libraries/db/sql/sql.go:266-275 | on a configured map the corrected defaulting is the written one; on a nil map it yields exactly charset=utf8mb4, parseTime=True, loc=Local |
| Sql.SqliteDSN | libraries/db/sql/sql.go:284-294 | the database name, with "?" and the pieces only when there are attributes (a nil map has none) |
| Sql.BuildDSN | libraries/db/sql/sql.go:247-298 | the postgres keyword form with the encoded attributes, the (corrected) MySQL form, the SQLite form, or "" for any other driver; only MySQL changes the attributes, and only a configured map |
| Sql.OrderTerm | libraries/db/sql/sql.go:141-147 | a positive direction sorts ASC, anything else DESC |
| Mongo.HostPart | libraries/db/mongo/mongo.go:73-78 | the host alone for a host list or port 0, else host:port |
| Mongo.ConnectionString | libraries/db/mongo/mongo.go:80-103 | driver://[user:password@]host/ and, only when there are attributes, "?" and the key=escaped value pieces joined with '&' |
| Mongo.MongoDatabase.constructor | libraries/db/mongo/mongo.go:44-57 | no client and no cached collections |
| Mongo.MongoDatabase.Install | libraries/db/mongo/mongo.go:44-57 | always passes, stores the configuration, wraps a given client and starts with no cached collections |
| Mongo.MongoDatabase.Connect | libraries/db/mongo/mongo.go:59-132 | a set client makes it a no-op; a failed connect returns nil and leaves no client; a failed ping returns its error; otherwise the client is set |
| Mongo.MongoDatabase.GetCollection | libraries/db/mongo/mongo.go:378-384 | the cached handle, else one from the client; the cache is never written |
| Mongo.SortOrder | libraries/db/mongo/mongo.go:225-235 | exactly 1 stays 1, everything else becomes -1 |
| Mongo.SortDocument | libraries/db/mongo/mongo.go:281-291 | the same fields, each direction normalised |
| DbQuery.Pairs | libraries/db/sql/sql.go:277-280 | one key=escaped value piece per key, in the visiting order |
| DbQuery.QueryPairs | libraries/db/mongo/mongo.go:96-99 | the range loop visits every attribute exactly once and yields its piece |
| ConfigScan.Engine.constructor | app/config/interface.go:47-76 | the engine's stored values, no defaults yet |
| ConfigScan.Engine.Get | app/config/interface.go:124 | a stored value beats a default; neither gives nil |
| ConfigScan.Lookup | app/config/interface.go:124 | a stored value beats a default; neither gives nil |
| ConfigScan.EnvFileKey | app/config/interface.go:125 | every '.' becomes '_', length kept |
| ConfigScan.KeyCut | app/config/interface.go:127-132 | a key is cut exactly when a prefix is in force and the key starts with it, and prefix + cut is the key |
| ConfigScan.NilKeyPrecedence | app/config/interface.go:134-151 | for a nil key, the env-file value wins over the declared default, for the key and its cut |
| ConfigScan.SetKeyKept | app/config/interface.go:152-158 | a key with a value keeps it, and its cut key receives it |
| ConfigScan.ScanKeys | app/config/interface.go:118-160 | the loop's defaults are the Scan of the keys in order |
| AppConfig.GetKeyPrefix | app/config/interface.go:91-100 | "" stays ""; module mode gives "module.p."; otherwise p |
| AppConfig.NormalizePrefix | app/config/interface.go:43-45 | a non-empty prefix ends in '.', adding one only when missing |
| AppConfig.NormalizePrefixIdempotent | app/config/interface.go:43-45 | normalising twice is normalising once |
| AppConfig.Holder.constructor | app/config/interface.go:72-75 | a new holder around the engine with no processed keys |
| AppConfig.SetPriorityDefaults | app/config/interface.go:102-168 | the defaults are the Scan skipping processed keys, and the binding keys are then marked processed |
| AppConfig.ProcessedKeysSkipped | app/config/interface.go:118-122 | a processed key leaves the defaults unchanged |
| AppConfig.Registry.constructor | app/config/interface.go:47 | no holders yet |
| AppConfig.Registry.LoadConfig | app/config/interface.go:37-89 | one holder per file.ext, created on first use and reused; a read error other than not-found fails before anything is stored; then the scan and the decode outcome |
| WebcoreConfig.ModPrefix | webcore/app/config/interface.go:73-80 | "" for no prefix, "module.p." in module mode, else "p." |
| WebcoreConfig.CutPrefix | webcore/app/config/interface.go:95-100 | a cut prefix is in force exactly when a prefix is given, and it is the non-empty modPrefix |
| WebcoreConfig.SetPriorityDefaults | webcore/app/config/interface.go:72-129 | the defaults are the Scan of every key with the modPrefix cut |
| WebcoreConfig.Registry.constructor | webcore/app/config/interface.go:30 | no engines yet |
| WebcoreConfig.Registry.LoadConfig | webcore/app/config/interface.go:25-70 | one engine per file.ext, created on first use and reused; a read error other than not-found fails before anything is stored; then the scan and the decode outcome |
| LogHelper.ErrToString | app/helper/log.go:10-15 | "nil" for no error, else its message |
| LogHelper.FiberLoggerOutput | app/helper/log.go:17-32 | standard error exactly for "stderr" in any letter case, else standard output |
| LogHelper.OutputIgnoresCase | app/helper/log.go:19-22 | the letter case of the name does not change the choice |
| Task.Backoff | app/helper/task.go:15-18 | the k-th delay is initialDelay × 2^k |
| Task.Retry | app/helper/task.go:6-22 | at most maxRetries calls, none for maxRetries ≤ 0; every call before the last failed; nil right after the first success; all failing returns the last error; sleeps only between calls, doubling from initialDelay |

## Left out

- Concurrency: HTTP requests and every other call are modelled one at a time. The module manager and the rate limiter guard their state with a `sync.RWMutex` (app/core/module.go:57, app/middleware/rate_limit.go:23), and each of their locked methods is one step here. The event bus has no lock; it is modelled as called from one goroutine.
- Utils.RemoveDuplicates: elements are assumed hashable. Go records seen values in a `map[any]bool` (app/helper/utils.go:137-141), so a slice of slices, maps or funcs panics with "hash of unhashable type"; the model returns their distinct values instead.
- AuthN.AuthN.Handle: its contract holds only for requests handled one at a time. The handler shares one validator (with the key it extracted) and one StoreWrapper (with its User and Resource, app/loader/auth/store.go:46) across all requests, without a lock. Under concurrent requests, Authorizer.Check can read the user another request loaded; that interleaving is not modelled.
- RateLimit.RateLimiter.Middleware: Go reads the count behind X-RateLimit-Remaining in a second critical section after Allow (app/middleware/rate_limit.go:74-76). The model reads it in the same step, so a request that slips in between is not modelled.
- Dynamic plugin loading, loading from disk, git or a package path, and the auto-load helpers: these depend on the operating system.
- The reflective method check of validateModule: in the model every module has the Module methods by typing.
- The wall clock: timestamps of loaded modules are left out, and the rate limiter's `now`, the RequestID stamp and the retry delays are parameters (sleeps are returned, not slept).
- Logging (`logger.*`, `log.Println` and the config scan's text): no effect on results.
- Fiber specifics: `ctx.Locals` writes, response headers other than those named, and header-name case folding. Headers are an exact-name map.
- Go strings are byte strings; a Dafny `char` stands for one byte, so `strings.ToUpper` and `strings.TrimSpace` are modelled on ASCII.
- int64 overflow in the rate limiter counts, the pagination arithmetic and the retry delays: integers are unbounded.
- Foreign code is given as parameters:
  - JWT parsing and signature checks, and base64 decoding;
  - a loader's Init, a library's Install, Connect, Disconnect and Uninstall;
  - a module's Init and Destroy;
  - `url.QueryEscape`, `url.Values.Encode`, the MongoDB dial and ping.
- Viper is an abstract key→value engine:
  - file reading is a parameter (`Source`);
  - `BindEnv` is folded into the stored values;
  - `AllKeys` is a parameter;
  - `Unmarshal` is an outcome parameter.
- The per-driver loaders, the CRUD methods of the SQL and Mongo databases, Kafka, Redis and Pub/Sub clients: network clients.
- Type-assertion panics other than the auth-store one in AuthN.Install are outside the model: arguments have their expected types.
- The ABAC `IsAccessGranted` stub: it calls `logger.Fatal`, and as written no user reaches it.
- `authSource` in Mongo's Connect is computed but never used, so it is not modelled.
- The Allow method's error result is always nil in the source, so it is omitted.
- Helpers that are random, floating point, regular-expression based, reflective or JSON: GenerateID, GenerateUUID, FormatDuration, ToSnakeCase, ValidateEmail, StructToMap, MapToStruct, the JSON helpers.
- StringHelper.Truncate: requires a non-negative length, because Go panics on a negative slice bound.
- Mongo.MongoDatabase.GetCollection: requires a cached handle or a client, because the source dereferences a nil client.
- Pagination.Paginate: requires a non-zero page size for a non-empty slice, because the source divides by it before clamping.
- Libraries.LibraryManager.GetLibrary: requires a key for a non-singleton lookup of a present name, because the source dereferences the nil key.
- Libraries.LibraryManager.LoadFromLoader: requires a key for a non-singleton call on a present name, for the same reason; its two wrappers (webcore/app/core/library.go:141-147) never make such a call.
- Libraries.LibraryManager.LoadLibrary: the nil-key dereference is an outcome (`panicked`, with the runtime's message as the error) rather than an unwinding panic; the model says nothing about what the panic does to the caller.
- ModuleManagement.ModuleManager.constructor: does not model checkSingleLoader on the initial module list; modules enter through Register.
- ModuleManagement.ModuleManager.Destroy: does not model the order of the Destroy calls (Go map order) nor how often one error text repeats among the warnings; it promises that the set of warnings is exactly the set of Destroy errors.
- Sql.BuildDSN: uses the corrected MySQL branch, so it does not panic on a MySQL configuration without attributes as the written code does (see Findings); Sql.MysqlDSNAsWritten gives that panic as a `Failure` with the runtime's message.
- JwtAuth.JwtAuthValidator.VerifyUser: the claims comparison after a valid token is reduced to the outcome of the token check.
- AccessGate.RoleRequired: the userRole local is a string in the model; Go's failed type assertion on a non-string role is not modelled.
- AccessGate.PermissionRequired: the userPermissions local is a list of strings in the model; a local of another type is not modelled.

## Findings

| source | as written | input that shows it | evidently intended | confidence | as-written member | corrected member |
|---|---|---|---|---|---|---|
| app/core/module.go:549-567 | the list of seen type names is never appended to, so `slices.Contains(list, lName)` is always false and duplicates pass | two loaders of the same Go type, `[m, m]` | stop with "Module is registered multiple times" at the first repeated type name | high (not executed) | ModuleManagement.CheckSingleLoaderAsWritten | ModuleManagement.CheckSingleLoader |
| libraries/db/sql/sql.go:265-275 | the MySQL defaults are written into `config.Attributes`, which is nil when no attributes are configured (no default sets it, webcore/app/config/config.go:74 only declares it) | a MySQL database section with no `attributes` key | create the map (or default into a fresh one) before writing, so the DSN carries charset, parseTime and loc | medium (not executed) | Sql.MysqlDSNAsWritten | Sql.MysqlDSN |

=== FILE: access_gate.dfy ===
// The role and permission gates of webcore/app/middleware/auth.go. The
// request locals they read are a record; a local that is unset is None.
module AccessGate {
  import opened Wrappers
  import Utils

  datatype Locals = Locals(
    authType: Option<string>,
    apiKey: Option<string>,
    userRole: Option<string>,
    userPermissions: Option<seq<string>>)

  /** The body of an APIError reply. */
  datatype ApiError = ApiError(httpCode: int, errorCode: int, errorName: string, message: string)

  datatype Gate = Next | Deny(status: int, body: ApiError)

  /** GetAuthType: "unknown" when unset. */
  function GetAuthType(locals: Locals): (t: string)
    ensures locals.authType.None? ==> t == "unknown"
    ensures locals.authType.Some? ==> t == locals.authType.value
  {
    if locals.authType.None? then "unknown" else locals.authType.value
  }

  /** GetAPIKey: "" when unset. */
  function GetAPIKey(locals: Locals): (k: string)
    ensures locals.apiKey.None? ==> k == ""
    ensures locals.apiKey.Some? ==> k == locals.apiKey.value
  {
    if locals.apiKey.None? then "" else locals.apiKey.value
  }

  function Unauthorized(message: string): ApiError {
    ApiError(401, 2, "UNAUTHORIZED", message)
  }

  /** RoleRequired: API-key requests pass; a missing role is 401; a role in
      the allowed list passes; any other role is refused with status 403
      (while the body still says 401). */
  function RoleRequired(allowedRoles: seq<string>, locals: Locals): (g: Gate)
    ensures GetAuthType(locals) == "apikey" ==> g == Next
    ensures GetAuthType(locals) != "apikey" && locals.userRole.None? ==>
      g == Deny(401, Unauthorized("User role not found in context"))
    ensures GetAuthType(locals) != "apikey" && locals.userRole.Some? ==>
      (g == Next <==> locals.userRole.value in allowedRoles) &&
      (g != Next ==> g == Deny(403, Unauthorized("Insufficient permissions")))
  {
    if GetAuthType(locals) == "apikey" then Next
    else if locals.userRole.None? then Deny(401, Unauthorized("User role not found in context"))
    else if Utils.Contains(Utils.List(allowedRoles), locals.userRole.value) then Next
    else Deny(403, Unauthorized("Insufficient permissions"))
  }

  /** PermissionRequired: the same rules, for one required permission in
      the user's permission list. */
  function PermissionRequired(requiredPermission: string, locals: Locals): (g: Gate)
    ensures GetAuthType(locals) == "apikey" ==> g == Next
    ensures GetAuthType(locals) != "apikey" && locals.userPermissions.None? ==>
      g == Deny(401, Unauthorized("User permissions not found in context"))
    ensures GetAuthType(locals) != "apikey" && locals.userPermissions.Some? ==>
      (g == Next <==> requiredPermission in locals.userPermissions.value) &&
      (g != Next ==> g == Deny(403, Unauthorized("Insufficient permissions")))
  {
    if GetAuthType(locals) == "apikey" then Next
    else if locals.userPermissions.None? then Deny(401, Unauthorized("User permissions not found in context"))
    else if Utils.Contains(Utils.List(locals.userPermissions.value), requiredPermission) then Next
    else Deny(403, Unauthorized("Insufficient permissions"))
  }
}

=== FILE: apikey.dfy ===
// The API key validator of libraries/authn/apikey/loader.go.
module ApiKeyAuth {
  import opened Wrappers
  import opened Text
  import opened Http
  import opened AuthInfo
  import Settings

  const RequiredMessage := "Authorization header required"
  const PrefixMissingMessage := "Required prefix in Authorization header is missing"

  class ApiKeyValidator {
    /** The header to read the key from, and the prefix the key must carry. */
    const header: string
    const prefix: string
    /** The key of the last successful ValidateKey (GetValue). */
    var key: string

    /** NewApiKeyValidator: header and prefix from the config, empty key. */
    constructor (cfg: Settings.AuthConfig)
      ensures header == cfg.apiKeyHeader && prefix == cfg.apiKeyPrefix && key == ""
    {
      header := cfg.apiKeyHeader;
      prefix := cfg.apiKeyPrefix;
      key := "";
    }

    /** The key ValidateKey extracts from a request, or its error. The key
        comes from the configured header when that is non-empty, else from
        "Authorization: APIKey ..."; a configured prefix must then follow and
        is removed. */
    function ExtractKey(req: Request): (r: Result<string, string>)
      ensures Header(req, header) != "" ==>
        (r.Success? <==> HasPrefix(Header(req, header), prefix)) &&
        (r.Success? ==> prefix + r.value == Header(req, header))
      ensures Header(req, header) == "" ==>
        (r.Success? <==> HasPrefix(Header(req, "Authorization"), "APIKey " + prefix)) &&
        (r.Success? ==> "APIKey " + prefix + r.value == Header(req, "Authorization"))
      ensures Header(req, header) == "" && Header(req, "Authorization") == "" ==>
        r == Failure(RequiredMessage)
      ensures r.Failure? && (Header(req, header) != "" || Header(req, "Authorization") != "") ==>
        r == Failure(PrefixMissingMessage)
    {
      var auth := Header(req, "Authorization");
      PrefixConcat(auth, "APIKey ", prefix);
      var raw: Result<string, string> :=
        if Header(req, header) != "" then Success(Header(req, header))
        else if auth == "" then Failure(RequiredMessage)
        else if HasPrefix(auth, "APIKey ") then Success(TrimPrefix(auth, "APIKey "))
        else Failure(PrefixMissingMessage);
      if raw.Failure? then raw
      else if prefix != "" then
        if !HasPrefix(raw.value, prefix) then Failure(PrefixMissingMessage)
        else Success(TrimPrefix(raw.value, prefix))
      else
        assert prefix + raw.value == raw.value;
        Success(raw.value)
    }

    /** ValidateKey: stores the extracted key; on error the key is kept. */
    method ValidateKey(req: Request) returns (err: Outcome)
      modifies this`key
      ensures ExtractKey(req).Success? ==> err == Pass && key == ExtractKey(req).value
      ensures ExtractKey(req).Failure? ==> err == Fail(ExtractKey(req).error) && key == old(key)
    {
      var apiKey := Header(req, header);
      if apiKey == "" {
        var authHeader := Header(req, "Authorization");
        if authHeader == "" {
          return Fail(RequiredMessage);
        }
        if HasPrefix(authHeader, "APIKey ") {
          apiKey := TrimPrefix(authHeader, "APIKey ");
        } else {
          return Fail(PrefixMissingMessage);
        }
      }
      if prefix != "" {
        if !HasPrefix(apiKey, prefix) {
          return Fail(PrefixMissingMessage);
        }
        apiKey := TrimPrefix(apiKey, prefix);
      }
      key := apiKey;
      return Pass;
    }

    /** VerifyUser: a non-empty key matches an RBAC or ABAC record with that
        user id; it never reports an error. */
    function VerifyUser(userKey: string, user: User): (v: Verdict)
      ensures v.err == None
      ensures v.ok <==> userKey != "" && !user.OtherUser? && userKey == user.userId
    {
      if userKey == "" then Verdict(false, None)
      else match user
        case RbacUser(id, _, _, _, _) => Verdict(userKey == id, None)
        case AbacUser(id, _, _, _, _) => Verdict(userKey == id, None)
        case OtherUser(_) => Verdict(false, None)
    }
  }
}

=== FILE: app_config.dfy ===
// Configuration loading of app/config/interface.go: the key prefix, and a
// registry of one engine holder per file that remembers which bound keys
// it has already scanned.
module AppConfig {
  import opened Wrappers
  import opened Text
  import opened ConfigScan

  /** getKeyPrefix: empty stays empty; a module prefix becomes
      "module.<p>."; any other prefix is kept. */
  function GetKeyPrefix(prefix: string, isModule: bool): (r: string)
    ensures prefix == "" ==> r == ""
    ensures prefix != "" && isModule ==> r == "module." + prefix + "."
    ensures prefix != "" && !isModule ==> r == prefix
  {
    if prefix != "" then (if isModule then "module." + prefix + "." else prefix) else ""
  }

  /** LoadConfig's prefix: a non-empty prefix ends in '.'. */
  function NormalizePrefix(prefix: string): (r: string)
    ensures prefix == "" ==> r == ""
    ensures prefix != "" ==> HasSuffix(r, ".") && HasPrefix(r, prefix)
    ensures HasSuffix(prefix, ".") ==> r == prefix
    ensures prefix != "" && !HasSuffix(prefix, ".") ==> r == prefix + "."
  {
    if prefix != "" && !HasSuffix(prefix, ".") then prefix + "." else prefix
  }

  lemma NormalizePrefixIdempotent(prefix: string)
    ensures NormalizePrefix(NormalizePrefix(prefix)) == NormalizePrefix(prefix)
  {
    if prefix != "" && !HasSuffix(prefix, ".") {
      var r := prefix + ".";
      assert r[|r| - 1..] == ".";
    }
  }

  /** The cut prefix in force for a normalised prefix. */
  function CutPrefix(prefix: string): Option<string> {
    if prefix != "" then Some(prefix) else None
  }

  class Holder {
    const engine: Engine
    var keyProcessed: set<string>

    constructor (e: Engine)
      ensures engine == e && keyProcessed == {}
    {
      engine := e;
      keyProcessed := {};
    }
  }

  /** setPriorityDefaults: scan the engine's keys, skipping those already
      processed, then mark every bound key processed. */
  method SetPriorityDefaults(holder: Holder, keys: seq<string>, bindings: map<string, string>,
                             declared: map<string, string>, prefix: string)
    modifies holder`keyProcessed, holder.engine`defaults
    ensures holder.engine.defaults ==
      Scan(holder.engine.stored, old(holder.engine.defaults), keys, CutPrefix(prefix), declared, old(holder.keyProcessed))
    ensures holder.keyProcessed == old(holder.keyProcessed) + bindings.Keys
  {
    ScanKeys(holder.engine, keys, CutPrefix(prefix), declared, holder.keyProcessed);
    var pending := bindings.Keys;
    while pending != {}
      invariant pending <= bindings.Keys
      invariant holder.keyProcessed == old(holder.keyProcessed) + (bindings.Keys - pending)
      invariant holder.engine.defaults ==
        Scan(holder.engine.stored, old(holder.engine.defaults), keys, CutPrefix(prefix), declared, old(holder.keyProcessed))
      decreases pending
    {
      var key :| key in pending;
      holder.keyProcessed := holder.keyProcessed + {key};
      pending := pending - {key};
    }
  }

  /** What reading a configuration file gives: a read error (a missing file
      is not one), and the values of its sources. */
  datatype ReadError = NotFound | ReadFailed(message: string)

  datatype Source = Source(readError: Option<ReadError>, stored: map<string, string>)

  /** The InstanceViper registry: one holder per "file.ext". */
  class Registry {
    var instances: map<string, Holder>

    constructor ()
      ensures instances == map[]
    {
      instances := map[];
    }

    /** LoadConfig: create the file's holder on first use (a read error
        other than a missing file aborts and stores nothing), then set the
        defaults with the normalised prefix and unmarshal (outcome
        `unmarshal`). `keys` are the engine's keys. */
    method LoadConfig(prefix: string, file: string, ext: string, source: Source, keys: seq<string>,
                      bindings: map<string, string>, declared: map<string, string>, unmarshal: Outcome)
      returns (err: Outcome)
      modifies this`instances
      modifies if file + "." + ext in instances then {instances[file + "." + ext], instances[file + "." + ext].engine} else {}
      ensures var name := file + "." + ext;
        name !in old(instances) && source.readError.Some? && source.readError.value.ReadFailed? ==>
        err == Fail(source.readError.value.message) && instances == old(instances)
      ensures var name := file + "." + ext;
        name in old(instances) ==>
        instances == old(instances) && err == unmarshal &&
        instances[name].keyProcessed == old(instances[name].keyProcessed) + bindings.Keys &&
        instances[name].engine.defaults ==
          Scan(instances[name].engine.stored, old(instances[name].engine.defaults), keys,
               CutPrefix(NormalizePrefix(prefix)), declared, old(instances[name].keyProcessed))
      ensures var name := file + "." + ext;
        name !in old(instances) && (source.readError.None? || source.readError.value.NotFound?) ==>
        name in instances && instances == old(instances)[name := instances[name]] && err == unmarshal &&
        fresh(instances[name]) && fresh(instances[name].engine) &&
        instances[name].engine.stored == source.stored &&
        instances[name].keyProcessed == bindings.Keys &&
        instances[name].engine.defaults == Scan(source.stored, map[], keys, CutPrefix(NormalizePrefix(prefix)), declared, {})
    {
      var name := file + "." + ext;
      var p := NormalizePrefix(prefix);
      var holder: Holder;
      if name !in instances {
        if source.readError.Some? && source.readError.value.ReadFailed? {
          return Fail(source.readError.value.message);
        }
        var engine := new Engine(source.stored);
        holder := new Holder(engine);
        instances := instances[name := holder];
      } else {
        holder := instances[name];
      }
      SetPriorityDefaults(holder, keys, bindings, declared, p);
      return unmarshal;
    }
  }

  /** A bound key is scanned by the first load only: once processed, a
      later scan leaves its defaults alone. */
  lemma {:induction false} ProcessedKeysSkipped(stored: map<string, string>, defaults: map<string, string>,
                                                key: string, prefix: Option<string>,
                                                declared: map<string, string>, skip: set<string>)
    requires key in skip
    ensures Scan(stored, defaults, [key], prefix, declared, skip) == defaults
  {
    assert [key][..0] == [];
  }
}

=== FILE: app_core.dfy ===
// The application context of webcore/app/core/core.go: library-name
// defaulting, loader lookup, and the conditional start of the configured
// libraries.
module AppCore {
  import opened Wrappers
  import opened Settings
  import opened Libraries

  datatype AppContext = AppContext(config: Config)

  /** getDefaultName: "database", "authstorage" and "authentication" gain the
      configured driver, store or type after a ':'; other names are kept. */
  function GetDefaultName(ctx: AppContext, name: string): (r: string)
    ensures name == "database" ==> r == "database:" + ctx.config.database.driver
    ensures name == "authstorage" ==> r == "authstorage:" + ctx.config.auth.store
    ensures name == "authentication" ==> r == "authentication:" + ctx.config.auth.authType
    ensures name != "database" && name != "authstorage" && name != "authentication" ==> r == name
  {
    if name == "database" then name + ":" + ctx.config.database.driver
    else if name == "authstorage" then name + ":" + ctx.config.auth.store
    else if name == "authentication" then name + ":" + ctx.config.auth.authType
    else name
  }

  function LoaderMissing(name: string): string {
    "LibraryLoader '" + name + "' tidak ditemukan"
  }

  /** GetLibraryLoader: the library manager's loader of that name, or an
      error naming it. */
  function GetLibraryLoader<P>(lm: LibraryManager<P>, name: string): (r: Result<Loader, string>)
    reads lm
    requires lm.Valid()
    ensures r.Success? <==> name in lm.loaders
    ensures r.Success? ==> r.value == lm.loaders[name] && r.value.name == name
    ensures r.Failure? ==> r.error == LoaderMissing(name)
  {
    match lm.GetLoader(name)
    case Some(l) => Success(l)
    case None => Failure(LoaderMissing(name))
  }

  /** GetDefaultLibraryLoader: GetLibraryLoader of the defaulted name. */
  function GetDefaultLibraryLoader<P>(ctx: AppContext, lm: LibraryManager<P>, name: string): (r: Result<Loader, string>)
    reads lm
    requires lm.Valid()
    ensures r.Success? <==> GetDefaultName(ctx, name) in lm.loaders
    ensures r.Success? ==> r.value.name == GetDefaultName(ctx, name)
    ensures r.Failure? ==> r.error == LoaderMissing(GetDefaultName(ctx, name))
  {
    GetLibraryLoader(lm, GetDefaultName(ctx, name))
  }

  /** The configuration a loader's Init receives. */
  datatype LoadArg = DatabaseArg(database: DatabaseConfig) | PubSubArg(pubsub: PubSubConfig)

  /** A LoadSingletonFromLoader request: the loader and its argument. */
  datatype Step = Step(loader: string, arg: LoadArg)

  /** The libraries Start loads, in order: the database when its host is set,
      Redis when its host is set (from loader "redis", with the database
      settings), and PubSub when both its project and topic are set. */
  function DbPiece(ctx: AppContext): seq<Step> {
    if ctx.config.database.host != "" then [Step(GetDefaultName(ctx, "database"), DatabaseArg(ctx.config.database))] else []
  }

  function RedisPiece(ctx: AppContext): seq<Step> {
    if ctx.config.redis.host != "" then [Step("redis", DatabaseArg(ctx.config.database))] else []
  }

  function PubSubPiece(ctx: AppContext): seq<Step> {
    if ctx.config.pubsub.projectId != "" && ctx.config.pubsub.topic != "" then [Step("pubsub", PubSubArg(ctx.config.pubsub))] else []
  }

  function Plan(ctx: AppContext): seq<Step>
  {
    DbPiece(ctx) + RedisPiece(ctx) + PubSubPiece(ctx)
  }

  /** The plan, stated outright. */
  lemma PlanMeaning(ctx: AppContext)
    ensures |Plan(ctx)| <= 3
    ensures ctx.config.database.host != "" <==>
      Step(GetDefaultName(ctx, "database"), DatabaseArg(ctx.config.database)) in Plan(ctx)
    ensures ctx.config.redis.host != "" <==> Step("redis", DatabaseArg(ctx.config.database)) in Plan(ctx)
    ensures ctx.config.pubsub.projectId != "" && ctx.config.pubsub.topic != "" <==>
      Step("pubsub", PubSubArg(ctx.config.pubsub)) in Plan(ctx)
  {
    assert |GetDefaultName(ctx, "database")| >= 9;
  }

  /** Every instance of `before` is still in `after`, unchanged. */
  ghost predicate Keeps<P>(before: map<string, map<string, Library<P>>>, after: map<string, map<string, Library<P>>>) {
    forall n, k :: n in before && k in before[n] ==> n in after && k in after[n] && after[n][k] == before[n][k]
  }

  /** Every requested singleton is in place. */
  ghost predicate AllLoaded<P>(steps: seq<Step>, libs: map<string, map<string, Library<P>>>) {
    forall i :: 0 <= i < |steps| ==> "default" in Slot(libs, steps[i].loader)
  }

  lemma KeepsTransitive<P>(a: map<string, map<string, Library<P>>>, b: map<string, map<string, Library<P>>>,
                           c: map<string, map<string, Library<P>>>)
    requires Keeps(a, b) && Keeps(b, c)
    ensures Keeps(a, c)
  {
  }

  /** What one guarded block of Start leaves behind, given the loads
      `steps0` requested before it: nothing when `piece` is empty; an error
      naming a missing loader; or the load requested, succeeding exactly
      when its singleton is in place and failing with Init's error. */
  ghost predicate BlockOutcome<P>(piece: seq<Step>, loaders: map<string, Loader>,
                                  init: (string, LoadArg) -> Result<Library<P>, string>,
                                  libs: map<string, map<string, Library<P>>>, steps0: seq<Step>,
                                  err: Outcome, steps: seq<Step>)
    requires |piece| <= 1
  {
    (piece == [] ==> err == Pass && steps == steps0) &&
    (piece != [] && piece[0].loader !in loaders ==>
      err == Fail(LoaderMissing(piece[0].loader)) && steps == steps0) &&
    (piece != [] && piece[0].loader in loaders ==>
      steps == steps0 + piece &&
      (err.Pass? <==> AllLoaded(steps, libs)) &&
      (err.Fail? ==> init(piece[0].loader, piece[0].arg) == Failure(err.error)))
  }

  /** What Start leaves behind: a prefix of the plan was requested; success
      exactly when all of it was and every singleton is in place; a failure
      either names the missing loader of the next planned load or is the
      last load's Init error. */
  ghost predicate StartOutcome<P>(plan: seq<Step>, loaders: map<string, Loader>,
                                  init: (string, LoadArg) -> Result<Library<P>, string>,
                                  libs: map<string, map<string, Library<P>>>,
                                  err: Outcome, steps: seq<Step>, missing: bool)
  {
    steps <= plan &&
    (err.Pass? <==> steps == plan && AllLoaded(steps, libs)) &&
    (err.Fail? && missing ==>
      |steps| < |plan| && plan[|steps|].loader !in loaders &&
      err == Fail(LoaderMissing(plan[|steps|].loader))) &&
    (err.Fail? && !missing ==>
      |steps| > 0 && init(steps[|steps| - 1].loader, steps[|steps| - 1].arg) == Failure(err.error))
  }

  /** Start stops after a block that failed, or after the last one: what
      that block left behind is then what Start leaves behind. */
  lemma {:induction false} StopAfter<P>(plan: seq<Step>, done: seq<Step>, piece: seq<Step>, rest: seq<Step>,
                                        loaders: map<string, Loader>,
                                        init: (string, LoadArg) -> Result<Library<P>, string>,
                                        libs: map<string, map<string, Library<P>>>, err: Outcome, steps: seq<Step>)
    requires plan == done + piece + rest
    requires |piece| <= 1
    requires AllLoaded(done, libs)
    requires BlockOutcome(piece, loaders, init, libs, done, err, steps)
    requires err.Fail? || rest == []
    ensures StartOutcome(plan, loaders, init, libs, err, steps, err.Fail? && steps == done)
  {
    if steps == done {
      assert plan == done + (piece + rest);
      if piece != [] {
        assert plan[|steps|] == piece[0];
      }
    } else {
      assert plan == steps + rest;
    }
  }

  /** One guarded block of Start: `piece` is empty when the block's
      condition is false, else the one load it requests; the loader is
      looked up by name and its singleton loaded with the argument. */
  method StartOne<P>(lm: LibraryManager<P>, piece: seq<Step>,
                     init: (string, LoadArg) -> Result<Library<P>, string>, steps0: seq<Step>)
    returns (err: Outcome, steps: seq<Step>)
    requires lm.Valid()
    requires |piece| <= 1
    requires AllLoaded(steps0, lm.libraries)
    modifies lm`libraries
    ensures lm.Valid()
    ensures Keeps(old(lm.libraries), lm.libraries)
    ensures AllLoaded(steps0, lm.libraries)
    ensures BlockOutcome(piece, lm.loaders, init, lm.libraries, steps0, err, steps)
    ensures err.Pass? ==> steps == steps0 + piece
  {
    steps := steps0;
    if piece == [] {
      return Pass, steps;
    }
    var loader := GetLibraryLoader(lm, piece[0].loader);
    if loader.Failure? {
      return Fail(loader.error), steps;
    }
    steps := steps + piece;
    var r, _ := lm.LoadSingletonFromLoader(loader.value, init(loader.value.name, piece[0].arg));
    if r.Failure? {
      assert "default" !in Slot(lm.libraries, steps[|steps| - 1].loader);
      return Fail(r.error), steps;
    }
    return Pass, steps;
  }

  /** Start: one singleton load per planned step, stopping at the first
      missing loader or failed load. `init` gives the outcome of a loader's
      Init for an argument; `steps` are the loads requested. */
  method Start<P>(ctx: AppContext, lm: LibraryManager<P>, init: (string, LoadArg) -> Result<Library<P>, string>)
    returns (err: Outcome, steps: seq<Step>, ghost missing: bool)
    requires lm.Valid()
    modifies lm`libraries
    ensures lm.Valid()
    ensures StartOutcome(Plan(ctx), lm.loaders, init, lm.libraries, err, steps, missing)
    ensures Keeps(old(lm.libraries), lm.libraries)
  {
    ghost var l0 := lm.libraries;
    var p1, p2, p3 := DbPiece(ctx), RedisPiece(ctx), PubSubPiece(ctx);
    // the plan cut after each of its pieces
    assert Plan(ctx) == [] + p1 + (p2 + p3) == p1 + p2 + p3 + [];
    err, steps := StartOne(lm, p1, init, []);
    if err.Fail? {
      missing := steps == [];
      StopAfter(Plan(ctx), [], p1, p2 + p3, lm.loaders, init, lm.libraries, err, steps);
      return;
    }
    assert steps == p1;
    ghost var l1 := lm.libraries;
    err, steps := StartOne(lm, p2, init, steps);
    KeepsTransitive(l0, l1, lm.libraries);
    if err.Fail? {
      missing := steps == p1;
      StopAfter(Plan(ctx), p1, p2, p3, lm.loaders, init, lm.libraries, err, steps);
      return;
    }
    assert steps == p1 + p2;
    ghost var l2 := lm.libraries;
    err, steps := StartOne(lm, p3, init, steps);
    KeepsTransitive(l0, l2, lm.libraries);
    missing := err.Fail? && steps == p1 + p2;
    StopAfter(Plan(ctx), p1 + p2, p3, [], lm.loaders, init, lm.libraries, err, steps);
  }
}

=== FILE: auth_check.dfy ===
// The store wrapper (app/loader/auth/store.go), the authenticator
// (app/loader/auth/authn.go) and the authorizer (app/loader/auth/authz.go):
// objects that consult an auth store and remember what it answered.
module AuthCheck {
  import opened Wrappers
  import opened AuthInfo
  import opened Validators
  import YamlStore

  /** An IStore: the YAML store, or any other implementation, known only by
      the answers it gives. A nil user or resource is None. */
  datatype Store =
    | Yaml(yaml: YamlStore.AuthStoreYaml)
    | Other(userAnswer: Result<Option<User>, string>, resourceAnswer: Result<Option<Resource>, string>)

  /** What the store's GetUserAuthInfo answers when the validator holds `key`. */
  function UserAnswer(store: Store, v: Validator, ext: Externals, key: string): (r: Result<Option<User>, string>)
    ensures store.Yaml? ==> (r.Success? <==> YamlStore.UserLookup(store.yaml, v, ext, key).Success?)
    ensures store.Yaml? && r.Success? ==> r.value == Some(YamlStore.UserLookup(store.yaml, v, ext, key).value)
  {
    match store
    case Yaml(y) =>
      var found := YamlStore.UserLookup(y, v, ext, key);
      if found.Success? then Success(Some(found.value)) else Failure(found.error)
    case Other(answer, _) => answer
  }

  /** What the store's GetResourceInfo answers for a request. */
  function ResourceAnswer(store: Store, httpMethod: string, path: string): Result<Option<Resource>, string> {
    match store
    case Yaml(y) => YamlStore.ResourceLookup(y, httpMethod, path)
    case Other(_, answer) => answer
  }

  class StoreWrapper {
    const store: Store
    /** The last user and resource the store answered; nil at first. */
    var user: Option<User>
    var resource: Option<Resource>

    /** NewStoreWrapper. */
    constructor (s: Store)
      ensures store == s && user == None && resource == None
    {
      store := s;
      user := None;
      resource := None;
    }

    /** CheckUser: on a store error, "User not found: <key>" and the user is
        kept; otherwise the answer, even nil, becomes the loaded user. */
    method CheckUser(v: Validator, ext: Externals) returns (err: Outcome)
      modifies this`user
      ensures var answer := UserAnswer(store, v, ext, v.GetValue());
        answer.Failure? ==> err == Fail("User not found: " + v.GetValue()) && user == old(user)
      ensures var answer := UserAnswer(store, v, ext, v.GetValue());
        answer.Success? ==> err == Pass && user == answer.value
    {
      var userKey := v.GetValue();
      var info: Option<User>;
      match store {
        case Yaml(y) =>
          var found := YamlStore.GetUserAuthInfo(y, v, ext);
          if found.Failure? {
            return Fail("User not found: " + userKey);
          }
          info := Some(found.value);
        case Other(answer, _) =>
          if answer.Failure? {
            return Fail("User not found: " + userKey);
          }
          info := answer.value;
      }
      user := info;
      return Pass;
    }

    /** CheckResource: on a store error, (false, err) and the resource is
        kept; otherwise (true, nil) and the answer, even nil, becomes the
        loaded resource. */
    method CheckResource(httpMethod: string, path: string) returns (ok: bool, err: Option<string>)
      modifies this`resource
      ensures var answer := ResourceAnswer(store, httpMethod, path);
        answer.Failure? ==> !ok && err == Some(answer.error) && resource == old(resource)
      ensures var answer := ResourceAnswer(store, httpMethod, path);
        answer.Success? ==> ok && err == None && resource == answer.value
    {
      var info: Result<Option<Resource>, string>;
      match store {
        case Yaml(y) => info := YamlStore.GetResourceInfo(y, httpMethod, path);
        case Other(_, answer) => info := answer;
      }
      if info.Failure? {
        return false, Some(info.error);
      }
      resource := info.value;
      return true, None;
    }

    /** GetLoadedUser: the user the last clean CheckUser stored, None
        before any. */
    function GetLoadedUser(): (u: Option<User>)
      reads this
      ensures u == user
    {
      user
    }

    /** GetLoadedResource: the resource the last clean CheckResource
        stored, None before any. */
    function GetLoadedResource(): (res: Option<Resource>)
      reads this
      ensures res == resource
    {
      resource
    }
  }

  /** The answer Authorization.Check gives a user for a request: the store's
      error, a pass when no resource guards the request, else the guarding
      resource's own decision. For the YAML store that is the first resource
      of the file guarding the request. */
  function Decision(store: Store, user: User, httpMethod: string, path: string): (r: Outcome)
    ensures ResourceAnswer(store, httpMethod, path) == Success(None) ==> r == Pass
    ensures ResourceAnswer(store, httpMethod, path).Failure? ==> r == Fail(ResourceAnswer(store, httpMethod, path).error)
    ensures store.Yaml? && !store.yaml.loaded ==> r == Fail(YamlStore.NotLoadedMessage)
    ensures store.Yaml? && store.yaml.loaded ==>
      var guard := YamlStore.FirstGuard(store.yaml.resources, httpMethod, path);
      (r == Pass <==> guard.None? || IsUserPermitted(guard.value, user) == Pass)
  {
    match ResourceAnswer(store, httpMethod, path)
    case Failure(e) => Fail(e)
    case Success(found) => if found.None? then Pass else IsUserPermitted(found.value, user)
  }

  class Authenticator {
    const loader: StoreWrapper
    const validator: Validator

    /** NewAuthenticator. */
    constructor (v: Validator, l: StoreWrapper)
      ensures loader == l && validator == v
    {
      loader := l;
      validator := v;
    }

    /** Check: the wrapper's CheckUser error is passed on; a nil user after
        a successful lookup is an error; otherwise the wrapper holds the
        user. */
    method Check(ext: Externals) returns (err: Outcome)
      modifies loader`user
      ensures var answer := UserAnswer(loader.store, validator, ext, validator.GetValue());
        answer.Failure? ==> err == Fail("User not found: " + validator.GetValue()) && loader.user == old(loader.user)
      ensures var answer := UserAnswer(loader.store, validator, ext, validator.GetValue());
        answer == Success(None) ==> err == Fail("User not found: nil") && loader.user == None
      ensures var answer := UserAnswer(loader.store, validator, ext, validator.GetValue());
        answer.Success? && answer.value.Some? ==> err == Pass && loader.user == answer.value
      ensures err == Pass ==> loader.user.Some?
    {
      err := loader.CheckUser(validator, ext);
      if err.Fail? {
        return err;
      }
      var userInfo := loader.GetLoadedUser();
      if userInfo.None? {
        return Fail("User not found: nil");
      }
      return Pass;
    }
  }

  class Authorization {
    const loader: StoreWrapper

    /** NewAuthorization. */
    constructor (l: StoreWrapper)
      ensures loader == l
    {
      loader := l;
    }

    /** Check: the resource lookup's error unchanged; a pass when no
        resource was found; otherwise that resource's IsUserPermitted. */
    method Check(user: User, httpMethod: string, path: string) returns (err: Outcome)
      modifies loader`resource
      ensures err == Decision(loader.store, user, httpMethod, path)
      ensures var answer := ResourceAnswer(loader.store, httpMethod, path);
        if answer.Success? then loader.resource == answer.value else loader.resource == old(loader.resource)
    {
      var ok, e := loader.CheckResource(httpMethod, path);
      if e.Some? {
        return Fail(e.value);
      }
      if ok {
        var resourceInfo := loader.GetLoadedResource();
        if resourceInfo.Some? {
          return IsUserPermitted(resourceInfo.value, user);
        }
      }
      return Pass;
    }
  }
}

=== FILE: auth_info.dfy ===
// The user and resource records of the auth package
// (app/loader/auth/authn.go and app/loader/auth/authz.go) and the
// per-resource permission decision.
module AuthInfo {
  import opened Wrappers

  /** ConditionABAC; the value is kept as text. */
  datatype Condition = Condition(attribute: string, operator: string, value: string)

  /** PolicyABAC: an effect ("Allow"/"Deny"), an action and AND-ed conditions. */
  datatype Policy = Policy(effect: string, action: string, conditions: seq<Condition>)

  /** An IUserAuthInfo: the RBAC record, the ABAC record, or any other
      implementation, known only by the control type it reports. A nil
      username or password is None. */
  datatype User =
    | RbacUser(userId: string, username: Option<string>, password: Option<string>,
               groups: seq<string>, roles: seq<string>)
    | AbacUser(userId: string, username: Option<string>, password: Option<string>,
               groups: seq<string>, policies: seq<Policy>)
    | OtherUser(reportedType: string)

  /** GetControlType of a user record. */
  function UserControlType(u: User): (t: string)
    ensures u.RbacUser? ==> t == "RBAC"
    ensures u.AbacUser? ==> t == "ABAC"
    ensures u.OtherUser? ==> t == u.reportedType
  {
    match u
    case RbacUser(_, _, _, _, _) => "RBAC"
    case AbacUser(_, _, _, _, _) => "ABAC"
    case OtherUser(t) => t
  }

  /** An IResourceInfo: a protected (method, path) with the roles or the
      policies that may use it. */
  datatype Resource =
    | RbacResource(action: string, path: string, httpMethod: string, permittedRoles: seq<string>)
    | AbacResource(action: string, path: string, httpMethod: string, permittedPolicies: seq<Policy>)

  /** GetControlType of a resource: a constant per kind. */
  function ResourceControlType(r: Resource): (t: string)
    ensures r.RbacResource? <==> t == "RBAC"
    ensures r.AbacResource? <==> t == "ABAC"
  {
    if r.RbacResource? then "RBAC" else "ABAC"
  }

  /** The verdict of a validator's VerifyUser: a match flag and an error. */
  datatype Verdict = Verdict(ok: bool, err: Option<string>)

  /** The role loop of ResourceInfoRBAC.IsUserPermitted: scans the user's
      roles in order and stops at the first one that is permitted. */
  function HasPermittedRole(roles: seq<string>, permitted: seq<string>): (b: bool)
    ensures b <==> exists i :: 0 <= i < |roles| && roles[i] in permitted
  {
    if roles == [] then false
    else if roles[0] in permitted then true
    else
      assert forall i :: 1 <= i < |roles| ==> roles[i] == roles[1..][i - 1];
      HasPermittedRole(roles[1..], permitted)
  }

  function WrongTypeMessage(userType: string): string {
    "Load wrong User Access Control Type User (" + userType + ") and Resource (RBAC)"
  }

  /** IsUserPermitted of both resource kinds. Both first demand a user whose
      control type is "RBAC". The RBAC resource then needs the RBAC record
      and a role in common with its permitted roles. The ABAC resource needs
      the ABAC record, whose control type is "ABAC", so it never permits. */
  function IsUserPermitted(r: Resource, u: User): (out: Outcome)
    ensures UserControlType(u) != "RBAC" ==> out == Fail(WrongTypeMessage(UserControlType(u)))
    ensures r.RbacResource? ==>
      (out == Pass <==> u.RbacUser? && exists i :: 0 <= i < |u.roles| && u.roles[i] in r.permittedRoles)
    ensures r.RbacResource? && u.RbacUser? && out != Pass ==> out == Fail("User access denied")
    ensures UserControlType(u) == "RBAC" && !u.RbacUser? ==> out == Fail("RBAC properties not found in user")
    ensures r.AbacResource? ==> out.Fail?
    ensures r.AbacResource? && UserControlType(u) == "RBAC" ==> out == Fail("RBAC properties not found in user")
  {
    if UserControlType(u) != "RBAC" then
      Fail(WrongTypeMessage(UserControlType(u)))
    else
      match r
      case RbacResource(_, _, _, permitted) =>
        if !u.RbacUser? then Fail("RBAC properties not found in user")
        else if HasPermittedRole(u.roles, permitted) then Pass
        else Fail("User access denied")
      case AbacResource(_, _, _, _) =>
        if !u.AbacUser? then Fail("RBAC properties not found in user")
        else assert false; Fail("User access denied")
  }
}

=== FILE: authn.dfy ===
// The authentication library of lib/auth/authn/authn.go: installation
// against the library manager, and the request handler that validates,
// authenticates and authorises.
module AuthN {
  import opened Wrappers
  import opened Http
  import opened Settings
  import opened Libraries
  import opened AuthInfo
  import opened Validators
  import opened AuthCheck
  import AppCore
  import Out

  /** What a library instance offers here: an auth store, or anything else. */
  datatype Payload = AuthStore(store: Store) | OtherLibrary

  /** The three ways Install ends; a library that is not an auth store makes
      the type assertion panic. */
  datatype InstallOutcome = Installed | Refused(error: string) | Panic

  const NoValidatorMessage := "Authentication validator is not set"

  function TypeMismatchMessage(configType: string, name: string): string {
    "Type in Config(" + configType + ") and Validator Name(" + name + ") does not match"
  }

  function StoreMissingMessage(e: string): string {
    "Library AuthStore tidak ditemukan " + e
  }

  /** What the handler answers: pass to the next handler, or reply with a
      status and a body. */
  datatype HandlerReply = Next | Reply(status: int, body: Out.Response)

  /** The 401 reply every failing stage sends. */
  function Unauthorized(message: string, environment: string, stack: seq<string>): (r: HandlerReply)
    ensures r.Reply? && r.status == 401
    ensures r.body.httpCode == 401 && r.body.errorCode == 2 && r.body.errorName == "UNAUTHORIZED"
    ensures r.body.message == message
  {
    Reply(401, Out.Error(401, 2, "UNAUTHORIZED", message, environment, stack))
  }

  /** The singleton a loader yields: the cached "default" instance, else the
      outcome of its Init. */
  function SingletonOutcome(libs: map<string, map<string, Library<Payload>>>, name: string,
                            init: Result<Library<Payload>, string>): Result<Library<Payload>, string>
  {
    if "default" in Slot(libs, name) then Success(libs[name]["default"]) else init
  }

  /** The cache after a singleton load: unchanged on a hit or a failed Init,
      else the new instance stored under (name, "default"). */
  function SingletonCache(libs: map<string, map<string, Library<Payload>>>, name: string,
                          init: Result<Library<Payload>, string>): map<string, map<string, Library<Payload>>>
  {
    if "default" !in Slot(libs, name) && init.Success? then Stored(libs, name, "default", init.value) else libs
  }

  class AuthN {
    var validator: Option<Validator>
    var authenticator: Option<Authenticator>
    var authorizer: Option<Authorization>

    /** NewAuthN: nothing set. */
    constructor ()
      ensures validator == None && authenticator == None && authorizer == None
    {
      validator := None;
      authenticator := None;
      authorizer := None;
    }

    method SetValidator(v: Validator)
      modifies this`validator
      ensures validator == Some(v)
    {
      validator := Some(v);
    }

    /** Install: refuses without a validator, or when the configured type is
        not the validator's name, or without an auth-store loader (named
        after the application's configured store), or when the store fails
        to load; otherwise the authenticator and the authorizer are wired to
        one fresh store wrapper around the loaded store. `init` is the
        outcome of a loader's Init. */
    method Install(ctx: AppCore.AppContext, cfg: AuthConfig, lm: LibraryManager<Payload>,
                   init: string -> Result<Library<Payload>, string>)
      returns (out: InstallOutcome)
      requires lm.Valid()
      modifies this`authenticator, this`authorizer, lm`libraries
      ensures lm.Valid()
      ensures validator.None? ==> out == Refused(NoValidatorMessage)
      ensures validator.Some? && cfg.authType != validator.value.Name() ==>
        out == Refused(TypeMismatchMessage(cfg.authType, validator.value.Name()))
      ensures var loader := old(AppCore.GetDefaultLibraryLoader(ctx, lm, "authstorage"));
        validator.Some? && cfg.authType == validator.value.Name() && loader.Failure? ==>
        out == Refused(loader.error)
      ensures var loader := old(AppCore.GetDefaultLibraryLoader(ctx, lm, "authstorage"));
        validator.Some? && cfg.authType == validator.value.Name() && loader.Success? ==>
        var loaded := SingletonOutcome(old(lm.libraries), loader.value.name, init(loader.value.name));
        (loaded.Failure? ==> out == Refused(StoreMissingMessage(loaded.error))) &&
        (loaded.Success? && loaded.value.payload.OtherLibrary? ==> out == Panic) &&
        (loaded.Success? && loaded.value.payload.AuthStore? ==>
           out == Installed && authenticator.Some? && authenticator.value.loader.store == loaded.value.payload.store) &&
        lm.libraries == SingletonCache(old(lm.libraries), loader.value.name, init(loader.value.name))
      ensures out.Refused? && (validator.None? || cfg.authType != validator.value.Name() ||
                               old(AppCore.GetDefaultLibraryLoader(ctx, lm, "authstorage")).Failure?) ==>
        lm.libraries == old(lm.libraries)
      ensures !out.Installed? ==> authenticator == old(authenticator) && authorizer == old(authorizer)
      ensures out.Installed? ==>
        authenticator.Some? && authorizer.Some? &&
        authenticator.value.validator == validator.value &&
        authenticator.value.loader == authorizer.value.loader &&
        fresh(authenticator.value.loader) &&
        authenticator.value.loader.user == None && authenticator.value.loader.resource == None
    {
      if validator.None? {
        return Refused(NoValidatorMessage);
      }
      var v := validator.value;
      if cfg.authType != v.Name() {
        return Refused(TypeMismatchMessage(cfg.authType, v.Name()));
      }
      var loader := AppCore.GetDefaultLibraryLoader(ctx, lm, "authstorage");
      if loader.Failure? {
        return Refused(loader.error);
      }
      var library, _ := lm.LoadSingletonFromLoader(loader.value, init(loader.value.name));
      if library.Failure? {
        return Refused(StoreMissingMessage(library.error));
      }
      if library.value.payload.OtherLibrary? {
        return Panic;
      }
      var wrapper := new StoreWrapper(library.value.payload.store);
      var a := new Authenticator(v, wrapper);
      authenticator := Some(a);
      var z := new Authorization(wrapper);
      authorizer := Some(z);
      return Installed;
    }

    /** The handler of GetAuthenticatonHandler: ValidateKey, then the
        authenticator's Check, then the authorizer's Check of the user that
        check loaded, each failure answered with 401; `environment` and
        `stack` are what the error response reads. */
    method Handle(req: Request, ext: Externals, environment: string, stack: seq<string>)
      returns (reply: HandlerReply)
      requires validator.Some? && authenticator.Some? && authorizer.Some?
      modifies validator.value.Obj(), authenticator.value.loader, authorizer.value.loader
      ensures var extracted := validator.value.ExtractKey(req);
        extracted.Failure? ==> reply == Unauthorized(extracted.error, environment, stack)
      ensures var extracted := validator.value.ExtractKey(req);
        extracted.Success? ==> validator.value.GetValue() == extracted.value
      ensures var a := authenticator.value;
        var answer := UserAnswer(a.loader.store, a.validator, ext, a.validator.GetValue());
        validator.value.ExtractKey(req).Success? && answer.Failure? ==>
        reply == Unauthorized("User not found: " + a.validator.GetValue(), environment, stack)
      ensures var a := authenticator.value;
        var answer := UserAnswer(a.loader.store, a.validator, ext, a.validator.GetValue());
        validator.value.ExtractKey(req).Success? && answer == Success(None) ==>
        reply == Unauthorized("User not found: nil", environment, stack)
      ensures var a := authenticator.value;
        var answer := UserAnswer(a.loader.store, a.validator, ext, a.validator.GetValue());
        validator.value.ExtractKey(req).Success? && answer.Success? && answer.value.Some? ==>
        var decision := Decision(authorizer.value.loader.store, answer.value.value, req.httpMethod, req.path);
        (decision == Pass ==> reply == Next) &&
        (decision.Fail? ==> reply == Unauthorized(decision.error, environment, stack))
      ensures reply.Next? ==> authenticator.value.loader.user.Some?
      ensures reply.Reply? ==> reply.status == 401
    {
      var v := validator.value;
      var a := authenticator.value;
      var z := authorizer.value;
      var err := v.ValidateKey(req);
      if err.Fail? {
        return Unauthorized(err.error, environment, stack);
      }
      ghost var key := v.GetValue();
      ghost var akey := a.validator.GetValue();
      err := a.Check(ext);
      assert v.GetValue() == key && a.validator.GetValue() == akey;
      if err.Fail? {
        return Unauthorized(err.error, environment, stack);
      }
      var user := a.loader.GetLoadedUser();
      err := z.Check(user.value, req.httpMethod, req.path);
      assert v.GetValue() == key && a.validator.GetValue() == akey;
      if err.Fail? {
        return Unauthorized(err.error, environment, stack);
      }
      return Next;
    }
  }
}

=== FILE: basic_auth.dfy ===
// The HTTP Basic validator of lib/auth/basic/loader.go (the scheme of
// section 2 of RFC 7617).
module BasicAuth {
  import opened Wrappers
  import opened Text
  import opened Http
  import opened AuthInfo

  /** Go's strings.SplitN(credentials, ":", 2) read as a user-id/password
      pair: split at the first ':', so the password may hold ':'; without a
      ':' both parts are empty. */
  function SplitCredentials(credentials: string): (pair: (string, string))
    ensures ':' in credentials ==> pair.0 + ":" + pair.1 == credentials && ':' !in pair.0
    ensures ':' !in credentials ==> pair == ("", "")
  {
    if ':' in credentials then
      var i := CharIndex(credentials, ':');
      assert credentials == credentials[..i] + ":" + credentials[i + 1..];
      (credentials[..i], credentials[i + 1..])
    else ("", "")
  }

  /** Joining a user-id without ':' to any password and splitting again gives
      the pair back. */
  lemma CredentialsRoundTrip(userId: string, password: string)
    requires ':' !in userId
    ensures SplitCredentials(userId + ":" + password) == (userId, password)
  {
    var c := userId + ":" + password;
    assert c[|userId|] == ':';
    assert c[..|userId|] == userId;
  }

  /** A stored name or password that is nil matches anything. */
  predicate Matches(stored: Option<string>, given: string) {
    stored.None? || stored.value == given
  }

  class BasicAuthValidator {
    var key: string

    constructor ()
      ensures key == ""
    {
      key := "";
    }

    /** The key ValidateKey extracts: the Authorization header after
        "Basic ". */
    function ExtractKey(req: Request): (r: Result<string, string>)
      ensures r.Success? <==> HasPrefix(Header(req, "Authorization"), "Basic ")
      ensures r.Success? ==> "Basic " + r.value == Header(req, "Authorization")
      ensures Header(req, "Authorization") == "" ==> r == Failure("Authorization header required")
      ensures r.Failure? && Header(req, "Authorization") != "" ==>
        r == Failure("Required prefix in Authorization header is missing")
    {
      var auth := Header(req, "Authorization");
      if auth == "" then Failure("Authorization header required")
      else if HasPrefix(auth, "Basic ") then Success(TrimPrefix(auth, "Basic "))
      else Failure("Required prefix in Authorization header is missing")
    }

    /** ValidateKey: stores the extracted key; on error the key is kept. */
    method ValidateKey(req: Request) returns (err: Outcome)
      modifies this`key
      ensures ExtractKey(req).Success? ==> err == Pass && key == ExtractKey(req).value
      ensures ExtractKey(req).Failure? ==> err == Fail(ExtractKey(req).error) && key == old(key)
    {
      var authHeader := Header(req, "Authorization");
      if authHeader == "" {
        return Fail("Authorization header required");
      }
      var apiKey: string;
      if HasPrefix(authHeader, "Basic ") {
        apiKey := TrimPrefix(authHeader, "Basic ");
      } else {
        return Fail("Required prefix in Authorization header is missing");
      }
      key := apiKey;
      return Pass;
    }

    /** GetUserPassword: decodes the key (base64 decoding is `decode`) and
        splits the text at the first ':'. */
    function GetUserPassword(userKey: string, decode: string -> string): (pair: (string, string))
      ensures var text := decode(userKey);
        (':' in text ==> pair.0 + ":" + pair.1 == text && ':' !in pair.0) &&
        (':' !in text ==> pair == ("", ""))
    {
      SplitCredentials(decode(userKey))
    }

    /** VerifyUser: the decoded name and password must both be non-empty and
        agree with the RBAC or ABAC record, where a nil field matches
        anything; it never reports an error. */
    function VerifyUser(userKey: string, user: User, decode: string -> string): (v: Verdict)
      ensures v.err == None
      ensures v.ok <==>
        var (name, password) := SplitCredentials(decode(userKey));
        userKey != "" && name != "" && password != "" && !user.OtherUser? &&
        Matches(user.username, name) && Matches(user.password, password)
    {
      if userKey == "" then Verdict(false, None)
      else
        var (name, password) := GetUserPassword(userKey, decode);
        if name == "" || password == "" then Verdict(false, None)
        else match user
          case RbacUser(_, n, p, _, _) =>
            if n.Some? && n.value != name then Verdict(false, None)
            else if p.Some? && p.value != password then Verdict(false, None)
            else Verdict(true, None)
          case AbacUser(_, n, p, _, _) =>
            if n.Some? && n.value != name then Verdict(false, None)
            else if p.Some? && p.value != password then Verdict(false, None)
            else Verdict(true, None)
          case OtherUser(_) => Verdict(false, None)
    }
  }
}

=== FILE: config_scan.dfy ===
// The configuration engine (a viper instance) as the modelled code uses
// it, and the per-key step of setPriorityDefaults that
// app/config/interface.go and webcore/app/config/interface.go both run.
module ConfigScan {
  import opened Wrappers
  import opened Text

  /** An engine: the values its sources (file, environment, bound
      variables) give, and the defaults set on it. Get prefers the former;
      a key neither has is nil. */
  class Engine {
    const stored: map<string, string>
    var defaults: map<string, string>

    constructor (stored: map<string, string>)
      ensures this.stored == stored && defaults == map[]
    {
      this.stored := stored;
      defaults := map[];
    }

    function Get(key: string): (v: Option<string>)
      reads this
      ensures v == Lookup(stored, defaults, key)
    {
      Lookup(stored, defaults, key)
    }
  }

  function Lookup(stored: map<string, string>, defaults: map<string, string>, key: string): (v: Option<string>)
    ensures key in stored ==> v == Some(stored[key])
    ensures key !in stored && key in defaults ==> v == Some(defaults[key])
    ensures key !in stored && key !in defaults ==> v == None
  {
    if key in stored then Some(stored[key]) else if key in defaults then Some(defaults[key]) else None
  }

  /** The env-file key: every '.' replaced by '_'. */
  function EnvFileKey(key: string): (r: string)
    ensures |r| == |key| && '.' !in r
    ensures '.' !in key ==> r == key
  {
    var r := ReplaceChar(key, '.', '_');
    assert forall i :: 0 <= i < |r| ==> r[i] != '.';
    if '.' !in key then
      assert forall i :: 0 <= i < |key| ==> r[i] == key[i];
      r
    else r
  }

  /** The key with the module prefix cut off, when a prefix is in force and
      the key starts with it. */
  function KeyCut(key: string, prefix: Option<string>): (r: Option<string>)
    ensures r.Some? <==> prefix.Some? && HasPrefix(key, prefix.value)
    ensures r.Some? ==> prefix.value + r.value == key
  {
    if prefix.Some? && HasPrefix(key, prefix.value) then Some(TrimPrefix(key, prefix.value)) else None
  }

  /** Set a default for the key and, when cut, for the cut key too. */
  function SetBoth(defaults: map<string, string>, key: string, cut: Option<string>, value: string): map<string, string> {
    var d := defaults[key := value];
    if cut.Some? then d[cut.value := value] else d
  }

  /** One key of the scan: keys without a '.' are left alone; a nil key
      takes the env-file key's value, else its declared default; a set key
      keeps its value and hands it to the cut key. */
  function Step(stored: map<string, string>, defaults: map<string, string>, key: string,
                prefix: Option<string>, declared: map<string, string>): map<string, string>
  {
    var envKey := EnvFileKey(key);
    var cut := KeyCut(key, prefix);
    if key == envKey then defaults
    else if Lookup(stored, defaults, key).None? then
      if Lookup(stored, defaults, envKey).Some? then SetBoth(defaults, key, cut, Lookup(stored, defaults, envKey).value)
      else if key in declared then SetBoth(defaults, key, cut, declared[key])
      else defaults
    else if cut.Some? then defaults[cut.value := Lookup(stored, defaults, key).value]
    else defaults
  }

  /** The scan over `keys` in order, skipping the keys in `skip`. */
  function Scan(stored: map<string, string>, defaults: map<string, string>, keys: seq<string>,
                prefix: Option<string>, declared: map<string, string>, skip: set<string>): map<string, string>
    decreases |keys|
  {
    if keys == [] then defaults
    else
      var before := Scan(stored, defaults, keys[..|keys| - 1], prefix, declared, skip);
      var key := keys[|keys| - 1];
      if key in skip then before else Step(stored, before, key, prefix, declared)
  }

  /** Precedence for a nil key: the env-file key's value wins over the
      declared default, which wins over nothing; the cut key gets the same
      value. */
  lemma NilKeyPrecedence(stored: map<string, string>, defaults: map<string, string>, key: string,
                         prefix: Option<string>, declared: map<string, string>)
    requires '.' in key && Lookup(stored, defaults, key).None?
    ensures var after := Step(stored, defaults, key, prefix, declared);
      var env := Lookup(stored, defaults, EnvFileKey(key));
      (env.Some? ==> Lookup(stored, after, key) == env) &&
      (env.None? && key in declared ==> Lookup(stored, after, key) == Some(declared[key])) &&
      (env.None? && key !in declared ==> after == defaults) &&
      (KeyCut(key, prefix).Some? && (env.Some? || key in declared) ==>
        key in after && KeyCut(key, prefix).value in after && after[KeyCut(key, prefix).value] == after[key])
  {
    assert key != EnvFileKey(key);
  }

  /** A key that has a value keeps it, and with a non-empty prefix the cut
      key takes it as its default. */
  lemma SetKeyKept(stored: map<string, string>, defaults: map<string, string>, key: string,
                   prefix: Option<string>, declared: map<string, string>)
    requires prefix.Some? ==> prefix.value != ""
    requires Lookup(stored, defaults, key).Some?
    ensures var after := Step(stored, defaults, key, prefix, declared);
      Lookup(stored, after, key) == Lookup(stored, defaults, key) &&
      ('.' in key && KeyCut(key, prefix).Some? ==> after[KeyCut(key, prefix).value] == Lookup(stored, defaults, key).value)
  {
    var cut := KeyCut(key, prefix);
    if cut.Some? {
      assert |cut.value| < |key|;
    }
    if '.' in key {
      assert key != EnvFileKey(key);
    }
  }

  /** setPriorityDefaults's loop over the engine's keys: the engine's
      defaults become the scan's. */
  method ScanKeys(engine: Engine, keys: seq<string>, prefix: Option<string>, declared: map<string, string>,
                  skip: set<string>)
    modifies engine`defaults
    ensures engine.defaults == Scan(engine.stored, old(engine.defaults), keys, prefix, declared, skip)
  {
    ghost var d0 := engine.defaults;
    var i := 0;
    while i < |keys|
      invariant 0 <= i <= |keys|
      invariant engine.defaults == Scan(engine.stored, d0, keys[..i], prefix, declared, skip)
    {
      assert keys[..i + 1][..i] == keys[..i];
      ghost var before := engine.defaults;
      var key := keys[i];
      if key !in skip {
        var value := engine.Get(key);
        var envKey := EnvFileKey(key);
        var cut := KeyCut(key, prefix);
        if key != envKey {
          if value.None? {
            var envValue := engine.Get(envKey);
            if envValue.Some? {
              engine.defaults := engine.defaults[key := envValue.value];
              if cut.Some? {
                engine.defaults := engine.defaults[cut.value := envValue.value];
              }
            } else if key in declared {
              engine.defaults := engine.defaults[key := declared[key]];
              if cut.Some? {
                engine.defaults := engine.defaults[cut.value := declared[key]];
              }
            }
          } else if cut.Some? {
            engine.defaults := engine.defaults[cut.value := value.value];
          }
        }
        assert engine.defaults == Step(engine.stored, before, key, prefix, declared);
      }
      i := i + 1;
    }
    assert keys[..i] == keys;
  }
}

=== FILE: db_query.dfy ===
// The query-string loop that libraries/db/sql/sql.go and
// libraries/db/mongo/mongo.go both write out: one "key=escaped value" piece
// per attribute, in Go's map iteration order. `escape` stands for
// url.QueryEscape.
module DbQuery {
  import opened Text

  function Pair(key: string, value: string, escape: string -> string): string {
    key + "=" + escape(value)
  }

  /** The pieces for the attributes visited in `order`. */
  function Pairs(order: seq<string>, attrs: map<string, string>, escape: string -> string): (r: seq<string>)
    requires forall i :: 0 <= i < |order| ==> order[i] in attrs
    ensures |r| == |order|
    ensures forall i :: 0 <= i < |order| ==> r[i] == Pair(order[i], attrs[order[i]], escape)
  {
    if order == [] then [] else Pairs(order[..|order| - 1], attrs, escape) + [Pair(order[|order| - 1], attrs[order[|order| - 1]], escape)]
  }

  /** `order` visits every key of `keys` exactly once. */
  predicate IsOrder(order: seq<string>, keys: set<string>) {
    (forall i :: 0 <= i < |order| ==> order[i] in keys) &&
    (forall k :: k in keys ==> k in order) &&
    (forall i, j :: 0 <= i < j < |order| ==> order[i] != order[j])
  }

  /** The range loop: one piece per attribute, in some order that visits
      each key once. */
  method QueryPairs(attrs: map<string, string>, escape: string -> string)
    returns (parts: seq<string>, ghost order: seq<string>)
    ensures IsOrder(order, attrs.Keys)
    ensures parts == Pairs(order, attrs, escape)
    ensures |parts| == |attrs.Keys|
  {
    parts := [];
    order := [];
    var remaining := attrs.Keys;
    while remaining != {}
      invariant remaining <= attrs.Keys
      invariant forall i :: 0 <= i < |order| ==> order[i] in attrs && order[i] !in remaining
      invariant forall k :: k in attrs && k !in remaining ==> k in order
      invariant forall i, j :: 0 <= i < j < |order| ==> order[i] != order[j]
      invariant |order| + |remaining| == |attrs.Keys|
      invariant parts == Pairs(order, attrs, escape)
      decreases remaining
    {
      var key :| key in remaining;
      parts := parts + [Pair(key, attrs[key], escape)];
      order := order + [key];
      remaining := remaining - {key};
    }
  }

  /** The query suffix: "?" and the pieces joined with '&', or nothing when
      there are none. */
  function Query(parts: seq<string>): string {
    if |parts| > 0 then "?" + Join(parts, '&') else ""
  }
}

=== FILE: eventbus.dfy ===
// The subscriber table of app/core/eventbus.go. Handlers are values of a
// type H; calling one is recorded in the list Publish returns.
module Events {
  /** The handlers subscribed to `event`, in subscription order, in a log
      of Subscribe calls. */
  function HandlersIn<H>(log: seq<(string, H)>, event: string): seq<H> {
    if log == [] then []
    else HandlersIn(log[..|log| - 1], event) + (if log[|log| - 1].0 == event then [log[|log| - 1].1] else [])
  }

  class EventBus<H> {
    var subscribers: map<string, seq<H>>
    /** Every Subscribe call so far, in order. */
    ghost var log: seq<(string, H)>

    /** The table replays the log: each event's list is its subscriptions,
        in order. */
    ghost predicate Valid()
      reads this
    {
      forall event :: Subscribers(event) == HandlersIn(log, event)
    }

    /** The list of an event; a missing entry reads as empty. */
    function Subscribers(event: string): seq<H>
      reads this
    {
      if event in subscribers then subscribers[event] else []
    }

    /** NewEventBus: no subscribers. */
    constructor ()
      ensures subscribers == map[] && log == []
      ensures Valid()
    {
      subscribers := map[];
      log := [];
    }

    /** Subscribe: the handler goes to the end of the event's list; other
        events keep theirs. */
    method Subscribe(event: string, handler: H)
      requires Valid()
      modifies this
      ensures Valid()
      ensures log == old(log) + [(event, handler)]
      ensures subscribers == old(subscribers)[event := old(Subscribers(event)) + [handler]]
    {
      subscribers := subscribers[event := Subscribers(event) + [handler]];
      log := log + [(event, handler)];
      forall e
        ensures Subscribers(e) == HandlersIn(log, e)
      {
        assert log[..|log| - 1] == old(log);
      }
    }

    /** Publish: every handler of the event is called once with the data,
        in subscription order; the table does not change. */
    method Publish<D>(event: string, data: D) returns (calls: seq<(H, D)>)
      ensures |calls| == |Subscribers(event)|
      ensures forall i :: 0 <= i < |calls| ==> calls[i] == (Subscribers(event)[i], data)
    {
      calls := [];
      if event in subscribers {
        var handlers := subscribers[event];
        var i := 0;
        while i < |handlers|
          invariant 0 <= i <= |handlers|
          invariant |calls| == i
          invariant forall k :: 0 <= k < i ==> calls[k] == (handlers[k], data)
        {
          calls := calls + [(handlers[i], data)];
          i := i + 1;
        }
      }
    }

    /** GetSubscribers: the number of Subscribe calls for the event. */
    function GetSubscribers(event: string): (n: nat)
      reads this
      requires Valid()
      ensures n == |HandlersIn(log, event)|
    {
      |Subscribers(event)|
    }
  }

  /** Subscribing to one event does not change the count of another. */
  lemma OtherEventsKeepCount<H>(log: seq<(string, H)>, event: string, handler: H, other: string)
    requires other != event
    ensures HandlersIn(log + [(event, handler)], other) == HandlersIn(log, other)
    ensures |HandlersIn(log + [(event, handler)], event)| == |HandlersIn(log, event)| + 1
  {
    assert (log + [(event, handler)])[..|log|] == log;
  }
}

=== FILE: http.dfy ===
// The parts of an incoming HTTP request that the handlers read.
module Http {
  /** Method, path, request headers and the connection's remote address.
      Header names are matched exactly; a header that is absent reads as "". */
  datatype Request = Request(httpMethod: string, path: string, headers: map<string, string>, remoteIp: string)

  /** ctx.Get(name): the header's value, or "" when it is absent. */
  function Header(req: Request, name: string): (r: string)
    ensures name !in req.headers ==> r == ""
    ensures name in req.headers ==> r == req.headers[name]
  {
    if name in req.headers then req.headers[name] else ""
  }
}

=== FILE: jwt_auth.dfy ===
// The bearer-token validator of libraries/authn/jwt/loader.go (the
// "Bearer" scheme of section 2.1 of RFC 6750).
module JwtAuth {
  import opened Wrappers
  import opened Text
  import opened Http
  import opened AuthInfo

  /** What parsing and checking a token with the secret yields: a parse or
      signature failure, or a parsed token whose claims are valid or not. */
  datatype TokenCheck = ParseFailed | Parsed(claimsValid: bool)

  class JwtAuthValidator {
    const secretKey: string
    var key: string

    constructor (secret: string)
      ensures secretKey == secret && key == ""
    {
      secretKey := secret;
      key := "";
    }

    /** The key ValidateKey extracts: the Authorization header after
        "Bearer ". */
    function ExtractKey(req: Request): (r: Result<string, string>)
      ensures r.Success? <==> HasPrefix(Header(req, "Authorization"), "Bearer ")
      ensures r.Success? ==> "Bearer " + r.value == Header(req, "Authorization")
      ensures Header(req, "Authorization") == "" ==> r == Failure("Authorization header required")
      ensures r.Failure? && Header(req, "Authorization") != "" ==>
        r == Failure("Required prefix in Authorization header is missing")
    {
      var auth := Header(req, "Authorization");
      if auth == "" then Failure("Authorization header required")
      else if HasPrefix(auth, "Bearer ") then Success(TrimPrefix(auth, "Bearer "))
      else Failure("Required prefix in Authorization header is missing")
    }

    /** ValidateKey: stores the extracted token; on error the key is kept. */
    method ValidateKey(req: Request) returns (err: Outcome)
      modifies this`key
      ensures ExtractKey(req).Success? ==> err == Pass && key == ExtractKey(req).value
      ensures ExtractKey(req).Failure? ==> err == Fail(ExtractKey(req).error) && key == old(key)
    {
      var authHeader := Header(req, "Authorization");
      if authHeader == "" {
        return Fail("Authorization header required");
      }
      var tokenString: string;
      if HasPrefix(authHeader, "Bearer ") {
        tokenString := TrimPrefix(authHeader, "Bearer ");
      } else {
        return Fail("Required prefix in Authorization header is missing");
      }
      key := tokenString;
      return Pass;
    }

    /** VerifyUser: an empty token never matches. A token that does not parse,
        or whose claims are invalid, is a match with an error; a valid token
        matches the RBAC or ABAC record whose user id is the token itself.
        `check` is the token library. */
    function VerifyUser(userKey: string, user: User, check: (string, string) -> TokenCheck): (v: Verdict)
      ensures userKey == "" ==> v == Verdict(false, None)
      ensures userKey != "" && check(userKey, secretKey).ParseFailed? ==>
        v == Verdict(true, Some("Invalid or expired token"))
      ensures userKey != "" && check(userKey, secretKey) == Parsed(false) ==>
        v == Verdict(true, Some("Invalid token claims"))
      ensures userKey != "" && check(userKey, secretKey) == Parsed(true) ==>
        v.err == None && (v.ok <==> !user.OtherUser? && userKey == user.userId)
    {
      if userKey == "" then Verdict(false, None)
      else match check(userKey, secretKey)
        case ParseFailed => Verdict(true, Some("Invalid or expired token"))
        case Parsed(valid) =>
          if valid then
            match user
            case RbacUser(id, _, _, _, _) => Verdict(userKey == id, None)
            case AbacUser(id, _, _, _, _) => Verdict(userKey == id, None)
            case OtherUser(_) => Verdict(false, None)
          else Verdict(true, Some("Invalid token claims"))
    }
  }
}

=== FILE: library_manager.dfy ===
// The library manager of webcore/app/core/library.go: a two-level cache
// loader name -> instance key -> library instance, filled on a miss and
// emptied by teardown.
module Libraries {
  import opened Wrappers

  /** A library instance (the Library interface, plus Connector when
      `connector` holds). The outcomes of its Disconnect and Uninstall calls
      are part of the value; `payload` is whatever else the instance offers
      (an auth store, say). */
  datatype Library<P> = Library(
    id: nat,
    connector: bool,
    disconnectError: Option<string>,
    uninstallError: Option<string>,
    payload: P)

  /** A LibraryLoader; the result of its Init call is given per call. */
  datatype Loader = Loader(name: string, id: nat)

  /** A reflect.Type handed to LoadLibrary/UnloadLibrary: the name of its
      package, its type name and, when the type implements Library, the
      zero-valued instance that reflect.New produces. */
  datatype LibType<P> = LibType(pkg: string, name: string, instance: Option<Library<P>>)

  /** The error for a type that does not implement Library; `%T` of the
      pointer reflect.New returns prints "*pkg.Name". */
  function NotALibrary<P>(libType: LibType<P>): string {
    "type *" + libType.pkg + "." + libType.name + " does not implement Library interface"
  }

  /** The Go runtime's message for dereferencing a nil pointer. */
  const NilDereference := "runtime error: invalid memory address or nil pointer dereference"

  /** LoadLibrary dereferences a nil key when an instance (not a singleton)
      of an already registered type name is asked for without a key. */
  predicate NilKeyDereference<P>(libraries: map<string, map<string, Library<P>>>, name: string,
                                 singleton: bool, key: Option<string>) {
    !singleton && key.None? && name in libraries
  }

  /** The instance key used for a call: "default" for singletons and for a
      nil key. */
  function SlotKey(singleton: bool, key: Option<string>): string {
    if singleton || key.None? then "default" else key.value
  }

  /** The inner map of `name`, empty when there is none. */
  function Slot<P>(libs: map<string, map<string, Library<P>>>, name: string): map<string, Library<P>> {
    if name in libs then libs[name] else map[]
  }

  /** The table after storing `lib` under (name, key). */
  function Stored<P>(libs: map<string, map<string, Library<P>>>, name: string, key: string, lib: Library<P>)
    : (r: map<string, map<string, Library<P>>>)
    ensures r.Keys == libs.Keys + {name}
    ensures r[name] == Slot(libs, name)[key := lib]
    ensures forall n :: n in libs && n != name ==> r[n] == libs[n]
  {
    libs[name := Slot(libs, name)[key := lib]]
  }

  /** The table after removing (name, key), dropping an inner map that
      becomes empty. */
  function Removed<P>(libs: map<string, map<string, Library<P>>>, name: string, key: string)
    : (r: map<string, map<string, Library<P>>>)
    ensures Slot(r, name) == Slot(libs, name) - {key}
    ensures forall n :: n != name ==> Slot(r, n) == Slot(libs, n)
    ensures (forall n :: n in libs ==> libs[n] != map[]) ==> forall n :: n in r ==> r[n] != map[]
    ensures r.Keys <= libs.Keys
  {
    var inner := Slot(libs, name) - {key};
    if inner == map[] then libs - {name} else libs[name := inner]
  }

  /** Disconnect (for connectors) and then Uninstall both succeed. */
  predicate TeardownOk<P>(lib: Library<P>) {
    !(lib.connector && lib.disconnectError.Some?) && lib.uninstallError.None?
  }

  /** The instances of one inner map whose teardown fails. */
  function Survivors<P>(m: map<string, Library<P>>): map<string, Library<P>> {
    map k | k in m && !TeardownOk(m[k]) :: m[k]
  }

  /** The table after tearing down every instance: exactly the failures are
      left, and emptied inner maps are gone. */
  function AfterTeardown<P>(libs: map<string, map<string, Library<P>>>): map<string, map<string, Library<P>>> {
    map n | n in libs && Survivors(libs[n]) != map[] :: Survivors(libs[n])
  }

  class LibraryManager<P> {
    const loaders: map<string, Loader>
    var libraries: map<string, map<string, Library<P>>>

    /** Each loader is named after its key, and no inner map is empty. */
    ghost predicate Valid()
      reads this
    {
      (forall n :: n in loaders ==> loaders[n].name == n) &&
      (forall n :: n in libraries ==> libraries[n] != map[])
    }

    /** CreateLibraryManager: SetName(k) on every loader, empty cache. */
    constructor (given: map<string, Loader>)
      ensures Valid()
      ensures loaders.Keys == given.Keys
      ensures forall k :: k in given ==> loaders[k] == given[k].(name := k)
      ensures libraries == map[]
    {
      loaders := map k | k in given :: given[k].(name := k);
      libraries := map[];
    }

    /** GetLoader. */
    function GetLoader(name: string): (r: Option<Loader>)
      reads this
      requires Valid()
      ensures r.Some? <==> name in loaders
      ensures r.Some? ==> r.value == loaders[name] && r.value.name == name
    {
      if name in loaders then Some(loaders[name]) else None
    }

    /** GetLibrary (and GetSingletonInstance/GetInstance): a lookup at
        (name, "default") for singletons and (name, key) otherwise. The
        source dereferences a nil key when `name` is present. */
    function GetLibrary(name: string, singleton: bool, key: Option<string>): (r: Option<Library<P>>)
      reads this
      requires singleton || key.Some? || name !in libraries
      ensures r.Some? <==> SlotKey(singleton, key) in Slot(libraries, name)
      ensures r.Some? ==> r.value == libraries[name][SlotKey(singleton, key)]
    {
      if name in libraries && SlotKey(singleton, key) in libraries[name] then
        Some(libraries[name][SlotKey(singleton, key)])
      else None
    }

    /** LoadFromLoader: returns the cached instance at (name, key) if any;
        otherwise calls Init (whose result is `init`) and caches a success.
        `initCalled` tells whether Init ran. */
    method LoadFromLoader(load: Loader, name: string, singleton: bool, key: Option<string>,
                          init: Result<Library<P>, string>)
      returns (r: Result<Library<P>, string>, initCalled: bool)
      requires Valid()
      requires singleton || key.Some? || name !in libraries
      modifies this`libraries
      ensures Valid()
      ensures SlotKey(singleton, key) in Slot(old(libraries), name) ==>
        !initCalled && r == Success(old(libraries)[name][SlotKey(singleton, key)]) &&
        libraries == old(libraries)
      ensures SlotKey(singleton, key) !in Slot(old(libraries), name) ==>
        initCalled && r == init &&
        libraries == (if init.Success? then Stored(old(libraries), name, SlotKey(singleton, key), init.value)
                      else old(libraries))
      ensures r.Success? && (singleton || key.Some?) ==> GetLibrary(name, singleton, key) == Some(r.value)
    {
      if name !in libraries {
        initCalled := true;
        if init.Failure? {
          return init, initCalled;
        }
        var libMap: map<string, Library<P>> := map[];
        if singleton {
          libMap := libMap["default" := init.value];
          assert "default" in libMap;
        } else {
          var k := if key.None? then "default" else key.value;
          libMap := libMap[k := init.value];
          assert k in libMap;
        }
        libraries := libraries[name := libMap];
        return init, initCalled;
      }
      var libMap := libraries[name];
      if singleton {
        if "default" in libMap {
          return Success(libMap["default"]), false;
        }
      } else {
        if key.value in libMap {
          return Success(libMap[key.value]), false;
        }
      }
      initCalled := true;
      if init.Failure? {
        return init, initCalled;
      }
      if singleton {
        libraries := libraries[name := libraries[name]["default" := init.value]];
      } else {
        libraries := libraries[name := libraries[name][key.value := init.value]];
      }
      return init, initCalled;
    }

    /** LoadSingletonFromLoader: the loader's own name, key "default". */
    method LoadSingletonFromLoader(load: Loader, init: Result<Library<P>, string>)
      returns (r: Result<Library<P>, string>, initCalled: bool)
      requires Valid()
      modifies this`libraries
      ensures Valid()
      ensures "default" in Slot(old(libraries), load.name) ==>
        !initCalled && r == Success(old(libraries)[load.name]["default"]) && libraries == old(libraries)
      ensures "default" !in Slot(old(libraries), load.name) ==>
        initCalled && r == init &&
        libraries == (if init.Success? then Stored(old(libraries), load.name, "default", init.value)
                      else old(libraries))
    {
      r, initCalled := LoadFromLoader(load, load.name, true, None, init);
    }

    /** LoadLibrary (LoadSingleton/LoadInstance): like LoadFromLoader, but the
        instance is built by reflection, installed with Install (outcome
        `installError`) and, only for the first instance of a type name,
        connected with Connect (outcome `connectError`). */
    method LoadLibrary(libType: LibType<P>, singleton: bool, key: Option<string>,
                       installError: Option<string>, connectError: Option<string>)
      returns (r: Result<Library<P>, string>, installed: bool, connected: bool, panicked: bool)
      requires Valid()
      modifies this`libraries
      ensures Valid()
      ensures panicked <==> NilKeyDereference(old(libraries), libType.name, singleton, key)
      ensures panicked ==>
        r == Failure(NilDereference) && !installed && !connected && libraries == old(libraries)
      ensures var k := SlotKey(singleton, key);
        !panicked && k in Slot(old(libraries), libType.name) ==>
          r == Success(old(libraries)[libType.name][k]) && !installed && !connected &&
          libraries == old(libraries)
      ensures var k := SlotKey(singleton, key);
        !panicked && k !in Slot(old(libraries), libType.name) && libType.instance.None? ==>
          r == Failure(NotALibrary(libType)) &&
          !installed && !connected && libraries == old(libraries)
      ensures var k := SlotKey(singleton, key);
        !panicked && k !in Slot(old(libraries), libType.name) && libType.instance.Some? ==>
          installed &&
          (connected <==> installError.None? && libType.name !in old(libraries) && libType.instance.value.connector) &&
          (if installError.Some? then r == Failure(installError.value) && libraries == old(libraries)
           else if connected && connectError.Some? then r == Failure(connectError.value) && libraries == old(libraries)
           else r == Success(libType.instance.value) &&
                libraries == Stored(old(libraries), libType.name, k, libType.instance.value))
    {
      var name := libType.name;
      installed, connected, panicked := false, false, false;
      if name !in libraries {
        if libType.instance.Some? {
          var library := libType.instance.value;
          installed := true;
          if installError.Some? {
            return Failure(installError.value), installed, connected, panicked;
          }
          if library.connector {
            connected := true;
            if connectError.Some? {
              return Failure(connectError.value), installed, connected, panicked;
            }
          }
          var libMap: map<string, Library<P>> := map[];
          if singleton {
            libMap := libMap["default" := library];
            assert "default" in libMap;
          } else {
            var k := if key.None? then "default" else key.value;
            libMap := libMap[k := library];
            assert k in libMap;
          }
          libraries := libraries[name := libMap];
          return Success(library), installed, connected, panicked;
        }
        return Failure(NotALibrary(libType)), installed, connected, panicked;
      }
      var libMap := libraries[name];
      if singleton {
        if "default" in libMap {
          return Success(libMap["default"]), installed, connected, panicked;
        }
      } else {
        if key.None? {
          panicked := true;
          return Failure(NilDereference), installed, connected, panicked;
        }
        if key.value in libMap {
          return Success(libMap[key.value]), installed, connected, panicked;
        }
      }
      if libType.instance.Some? {
        var library := libType.instance.value;
        installed := true;
        if installError.Some? {
          return Failure(installError.value), installed, connected, panicked;
        }
        var k := if singleton then "default" else key.value;
        libraries := libraries[name := libMap[k := library]];
        return Success(library), installed, connected, panicked;
      }
      return Failure(NotALibrary(libType)), installed, connected, panicked;
    }

    /** unload: Disconnect (connectors only), then Uninstall; the entry is
        removed only when both succeed. */
    method Unload(name: string, libKey: string) returns (r: Result<Library<P>, string>)
      requires Valid()
      requires name in libraries && libKey in libraries[name]
      modifies this`libraries
      ensures Valid()
      ensures var lib := old(libraries)[name][libKey];
        if lib.connector && lib.disconnectError.Some? then
          r == Failure("failed to close connector: " + lib.disconnectError.value) && libraries == old(libraries)
        else if lib.uninstallError.Some? then
          r == Failure("failed to destroy library: " + lib.uninstallError.value) && libraries == old(libraries)
        else
          r == Success(lib) && libraries == Removed(old(libraries), name, libKey)
    {
      var library := libraries[name][libKey];
      if library.connector && library.disconnectError.Some? {
        return Failure("failed to close connector: " + library.disconnectError.value);
      }
      if library.uninstallError.Some? {
        return Failure("failed to destroy library: " + library.uninstallError.value);
      }
      ghost var before := libraries;
      var libMap := libraries[name] - {libKey};
      if |libMap| == 0 {
        assert libMap == map[];
        libraries := libraries - {name};
      } else {
        assert libMap != map[];
        libraries := libraries[name := libMap];
      }
      assert libraries == Removed(before, name, libKey);
      return Success(library);
    }

    /** UnloadLibrary (UnloadSingleton/UnloadInstance). */
    method UnloadLibrary(name: string, singleton: bool, key: Option<string>) returns (r: Result<Library<P>, string>)
      requires Valid()
      modifies this`libraries
      ensures Valid()
      ensures name !in old(libraries) ==>
        r == Failure("library type " + name + " not found") && libraries == old(libraries)
      ensures name in old(libraries) && !singleton && key.None? ==>
        r == Failure("key is required for non-singleton libraries") && libraries == old(libraries)
      ensures name in old(libraries) && (singleton || key.Some?) &&
              SlotKey(singleton, key) !in old(libraries)[name] ==>
        r == Failure("library instance with key " + SlotKey(singleton, key) + " not found") &&
        libraries == old(libraries)
      ensures name in old(libraries) && (singleton || key.Some?) &&
              SlotKey(singleton, key) in old(libraries)[name] ==>
        var lib := old(libraries)[name][SlotKey(singleton, key)];
        if lib.connector && lib.disconnectError.Some? then
          r == Failure("failed to close connector: " + lib.disconnectError.value) && libraries == old(libraries)
        else if lib.uninstallError.Some? then
          r == Failure("failed to destroy library: " + lib.uninstallError.value) && libraries == old(libraries)
        else
          r == Success(lib) && libraries == Removed(old(libraries), name, SlotKey(singleton, key))
      ensures r.Success? ==>
        name in old(libraries) && SlotKey(singleton, key) in old(libraries)[name] &&
        r.value == old(libraries)[name][SlotKey(singleton, key)] && TeardownOk(r.value) &&
        libraries == Removed(old(libraries), name, SlotKey(singleton, key))
      ensures r.Failure? ==> libraries == old(libraries)
    {
      if name !in libraries {
        return Failure("library type " + name + " not found");
      }
      var libKey := "default";
      if !singleton {
        if key.None? {
          return Failure("key is required for non-singleton libraries");
        }
        libKey := key.value;
      }
      if libKey !in libraries[name] {
        return Failure("library instance with key " + libKey + " not found");
      }
      r := Unload(name, libKey);
    }

    /** The inner loop of Destroy: tears down every instance of type
        `name`, in Go's arbitrary map order; exactly the failures stay. */
    method TeardownType(name: string)
      requires Valid() && name in libraries
      modifies this`libraries
      ensures Valid()
      ensures libraries.Keys <= old(libraries).Keys
      ensures Slot(libraries, name) == Survivors(old(libraries)[name])
      ensures forall n :: n != name ==> Slot(libraries, n) == Slot(old(libraries), n)
    {
      ghost var orig := libraries[name];
      var keys := libraries[name].Keys;
      while keys != {}
        invariant Valid()
        invariant keys <= orig.Keys && libraries.Keys <= old(libraries).Keys
        invariant forall n :: n != name ==> Slot(libraries, n) == Slot(old(libraries), n)
        invariant Slot(libraries, name) == Pending(orig, keys)
        decreases keys
      {
        var key :| key in keys;
        assert key in Slot(libraries, name);
        var r := Unload(name, key);
        PendingStep(orig, keys, key);
        keys := keys - {key};
      }
      PendingDone(orig);
    }

    /** Destroy: tears down every instance, in Go's arbitrary map order,
        logging failures; always returns nil. */
    method Destroy() returns (err: Outcome)
      requires Valid()
      modifies this`libraries
      ensures Valid()
      ensures err == Pass
      ensures libraries == AfterTeardown(old(libraries))
    {
      ghost var orig := libraries;
      var names := libraries.Keys;
      while names != {}
        invariant Valid()
        invariant names <= orig.Keys && libraries.Keys <= orig.Keys
        invariant forall n :: n in names ==> Slot(libraries, n) == orig[n]
        invariant forall n :: n in orig && n !in names ==> Slot(libraries, n) == Survivors(orig[n])
        decreases names
      {
        var name :| name in names;
        assert Slot(libraries, name) == orig[name] != map[];
        TeardownType(name);
        names := names - {name};
      }
      SlotsDetermine(libraries, AfterTeardown(orig));
      return Pass;
    }
  }

  /** The instances of `m` still present while the keys in `keys` have not
      been torn down yet. */
  ghost function Pending<P>(m: map<string, Library<P>>, keys: set<string>): map<string, Library<P>> {
    map k | k in m && (k in keys || !TeardownOk(m[k])) :: m[k]
  }

  lemma PendingStep<P>(m: map<string, Library<P>>, keys: set<string>, key: string)
    requires key in keys && key in m
    ensures TeardownOk(m[key]) ==> Pending(m, keys) - {key} == Pending(m, keys - {key})
    ensures !TeardownOk(m[key]) ==> Pending(m, keys) == Pending(m, keys - {key})
  {
  }

  lemma PendingDone<P>(m: map<string, Library<P>>)
    ensures Pending(m, {}) == Survivors(m)
  {
  }

  /** Two tables without empty inner maps are equal when all their slots are. */
  lemma SlotsDetermine<P>(a: map<string, map<string, Library<P>>>, b: map<string, map<string, Library<P>>>)
    requires forall n :: n in a ==> a[n] != map[]
    requires forall n :: n in b ==> b[n] != map[]
    requires forall n :: Slot(a, n) == Slot(b, n)
    ensures a == b
  {
    forall n ensures n in a <==> n in b {
      assert Slot(a, n) == Slot(b, n);
    }
    forall n | n in a ensures a[n] == b[n] {
      assert Slot(a, n) == Slot(b, n);
    }
  }
}

=== FILE: log_helper.dfy ===
// The logging helpers of app/helper/log.go.
module LogHelper {
  import opened Wrappers
  import opened Text

  /** ErrToString: "nil" for a nil error, else its message. */
  function ErrToString(err: Option<string>): (s: string)
    ensures err.None? ==> s == "nil"
    ensures err.Some? ==> s == err.value
  {
    match err
    case None => "nil"
    case Some(message) => message
  }

  datatype Stream = Stdout | Stderr

  /** FiberLoggerOutput: standard error for "stderr" in any letter case;
      standard output for everything else, "file" included. */
  function FiberLoggerOutput(name: string): (w: Stream)
    ensures w == Stderr <==> ToLower(name) == "stderr"
  {
    var lowered := ToLower(name);
    if lowered == "stdout" then Stdout
    else if lowered == "stderr" then Stderr
    else if lowered == "file" then Stdout
    else Stdout
  }

  /** The letter case of the name does not matter. */
  lemma OutputIgnoresCase(name: string)
    ensures FiberLoggerOutput(name) == FiberLoggerOutput(ToLower(name))
  {
    assert ToLower(ToLower(name)) == ToLower(name);
  }
}

=== FILE: logging.dfy ===
// The path and request-id middleware of app/middleware/logging.go.
module Logging {
  import opened Http
  import opened Text

  datatype SlashAnswer = Redirect(location: string, status: int) | Continue

  /** RemoveTrailingSlash: a path other than "/" that ends in '/' is
      redirected permanently to itself without that one '/'; every other
      path goes on unchanged. */
  function RemoveTrailingSlash(path: string): (a: SlashAnswer)
    ensures a.Redirect? <==> HasSuffix(path, "/") && path != "/"
    ensures a.Redirect? ==> a.status == 301 && a.location + "/" == path
  {
    if HasSuffix(path, "/") && path != "/" then Redirect(TrimSuffix(path, "/"), 301) else Continue
  }

  /** The root is never redirected, and a redirect target is never the
      path itself. */
  lemma RootStays()
    ensures RemoveTrailingSlash("/") == Continue
    ensures forall p :: RemoveTrailingSlash(p).Redirect? ==> RemoveTrailingSlash(p).location != p
  {
    forall p | RemoveTrailingSlash(p).Redirect?
      ensures RemoveTrailingSlash(p).location != p
    {
      assert |RemoveTrailingSlash(p).location| + 1 == |p|;
    }
  }

  /** What RequestID leaves behind: the X-Request-ID response header and
      the request_id local. */
  datatype Tagged = Tagged(responseHeader: string, local: string)

  /** RequestID: a non-empty incoming X-Request-ID is reused; otherwise
      "req-" and the time stamp `stamp`. Header and local agree. */
  function RequestId(req: Request, stamp: string): (t: Tagged)
    ensures t.responseHeader == t.local
    ensures Header(req, "X-Request-ID") != "" ==> t.local == Header(req, "X-Request-ID")
    ensures Header(req, "X-Request-ID") == "" ==> t.local == "req-" + stamp
  {
    var id := Header(req, "X-Request-ID");
    var requestId := if id == "" then "req-" + stamp else id;
    Tagged(requestId, requestId)
  }
}

=== FILE: module_graph.dfy ===
// The dependency graph of loaded modules and the depth-first traversal that
// turns it into an initialisation order (app/core/module.go,
// buildDependencyOrder).
module ModuleGraph {
  import opened Wrappers

  /** Module name -> names of the modules it depends on. */
  type Graph = map<string, seq<string>>

  /** Traversal colours: absent from the state map is "unvisited" (0),
      `Visiting` is 1 and `Done` is 2. */
  datatype Mark = Visiting | Done

  datatype OrderError = MissingDependency(name: string) | CircularDependency(name: string)

  function ErrorMessage(e: OrderError): string {
    match e
    case MissingDependency(n) => "dependency '" + n + "' tidak ditemukan dalam daftar plugin"
    case CircularDependency(n) => "circular dependency detected pada plugin: " + n
  }

  predicate Distinct<T(==)>(s: seq<T>) {
    forall i, j :: 0 <= i < j < |s| ==> s[i] != s[j]
  }

  /** Position of `x` in `s`. */
  function Pos(s: seq<string>, x: string): (i: nat)
    requires x in s
    ensures i < |s| && s[i] == x && x !in s[..i]
  {
    if s[0] == x then 0
    else
      var j := Pos(s[1..], x);
      assert s[..j + 1] == [s[0]] + s[1..][..j];
      j + 1
  }

  /** Every node of `order` is a graph node listed after all its dependencies. */
  ghost predicate DepsFirst(g: Graph, order: seq<string>) {
    forall i :: 0 <= i < |order| ==>
      order[i] in g && forall d :: d in g[order[i]] ==> d in order[..i]
  }

  /** A valid initialisation order: each graph node exactly once, dependencies first. */
  ghost predicate IsInitOrder(g: Graph, order: seq<string>) {
    Distinct(order) && (forall n :: n in g <==> n in order) && DepsFirst(g, order)
  }

  /** Each step of `p` goes from a module to one of its dependencies. */
  ghost predicate IsPath(g: Graph, p: seq<string>) {
    (forall i :: 0 <= i < |p| ==> p[i] in g) &&
    (forall i :: 0 <= i < |p| - 1 ==> p[i + 1] in g[p[i]])
  }

  /** A path whose last module depends on its first one. */
  ghost predicate IsCycle(g: Graph, c: seq<string>) {
    |c| >= 1 && IsPath(g, c) && c[0] in g[c[|c| - 1]]
  }

  ghost predicate Acyclic(g: Graph) {
    forall c :: !IsCycle(g, c)
  }

  /** Every dependency names a node of the graph. */
  ghost predicate Closed(g: Graph) {
    forall n, d :: n in g && d in g[n] ==> d in g
  }

  /** What a failed traversal can point at: the module declaring a missing
      dependency, or a cycle through the module found twice on the stack. */
  ghost predicate Justified(g: Graph, e: OrderError, evidence: seq<string>) {
    match e
    case MissingDependency(d) =>
      |evidence| == 1 && evidence[0] in g && d in g[evidence[0]] && d !in g
    case CircularDependency(n) =>
      IsCycle(g, evidence) && evidence[0] == n
  }

  /** Traversal state: finished modules are exactly those in `result`,
      which is itself a valid prefix of an initialisation order. */
  ghost predicate Inv(g: Graph, state: map<string, Mark>, result: seq<string>) {
    state.Keys <= g.Keys &&
    Distinct(result) &&
    (forall n :: n in result <==> n in state && state[n] == Done) &&
    DepsFirst(g, result)
  }

  /** The modules marked `Visiting` are exactly those on the DFS stack. */
  ghost predicate StackOk(g: Graph, state: map<string, Mark>, stack: seq<string>) {
    IsPath(g, stack) &&
    forall n :: (n in state && state[n] == Visiting) <==> n in stack
  }

  lemma DepsFirstExtend(g: Graph, result: seq<string>, name: string)
    requires DepsFirst(g, result)
    requires name in g && forall d :: d in g[name] ==> d in result
    ensures DepsFirst(g, result + [name])
  {
    var r := result + [name];
    forall i | 0 <= i < |r|
      ensures r[i] in g && forall d :: d in g[r[i]] ==> d in r[..i]
    {
      if i < |result| {
        assert r[..i] == result[..i];
      } else {
        assert r[..i] == result;
      }
    }
  }

  /** Marking a module done once all its dependencies are finished keeps
      the traversal state valid and pops it off the stack. */
  lemma FinishVisit(g: Graph, st: map<string, Mark>, res: seq<string>, stack: seq<string>, name: string,
                    deps: seq<string>)
    requires Inv(g, st, res) && StackOk(g, st, stack + [name])
    requires name in g && deps == g[name] && name !in stack
    requires forall j :: 0 <= j < |deps| ==> deps[j] in res
    ensures Inv(g, st[name := Done], res + [name]) && StackOk(g, st[name := Done], stack)
  {
    assert name !in res;
    DepsFirstExtend(g, res, name);
    assert IsPath(g, stack) by {
      assert forall i :: 0 <= i < |stack| ==> stack[i] == (stack + [name])[i];
    }
  }

  /** Meeting a module already on the stack closes a cycle: from its
      position to the top, and back to it. */
  lemma CycleOnStack(g: Graph, stack: seq<string>, k: nat, name: string)
    requires IsPath(g, stack) && k < |stack| && stack[k] == name
    requires name in g[stack[|stack| - 1]]
    ensures IsCycle(g, stack[k..]) && stack[k..][0] == name
  {
    var c := stack[k..];
    assert forall i :: 0 <= i < |c| ==> c[i] == stack[k + i];
  }

  /** Finished dependencies stay finished as the result grows. */
  lemma StillFinished(before: seq<string>, res: seq<string>, deps: seq<string>, i: nat)
    requires before <= res && i < |deps| && deps[i] in res
    requires forall j :: 0 <= j < i ==> deps[j] in before
    ensures forall j :: 0 <= j <= i ==> deps[j] in res
  {
    forall j | 0 <= j < i ensures deps[j] in res {
      assert before == res[..|before|];
    }
  }

  /** The body of `visit`: depth-first search from `name`, appending each
      module to `result` once all its dependencies are there. */
  method Visit(g: Graph, name: string, state: map<string, Mark>, result: seq<string>,
               ghost stack: seq<string>)
    returns (state': map<string, Mark>, result': seq<string>, err: Option<OrderError>,
             ghost evidence: seq<string>)
    requires Inv(g, state, result) && StackOk(g, state, stack)
    requires stack == [] ==> name in g
    requires stack != [] ==> name in g[stack[|stack| - 1]]
    ensures err.None? ==>
      Inv(g, state', result') && StackOk(g, state', stack) &&
      state.Keys <= state'.Keys && result <= result' &&
      name in state' && state'[name] == Done
    ensures err.Some? ==> Justified(g, err.value, evidence)
    decreases g.Keys - state.Keys
  {
    if name !in g {
      return state, result, Some(MissingDependency(name)), [stack[|stack| - 1]];
    }
    if name in state && state[name] == Visiting {
      ghost var k :| 0 <= k < |stack| && stack[k] == name;
      evidence := stack[k..];
      CycleOnStack(g, stack, k, name);
      return state, result, Some(CircularDependency(name)), evidence;
    }
    if name in state && state[name] == Done {
      return state, result, None, [];
    }
    var st := state[name := Visiting];
    var res := result;
    var deps := g[name];
    ghost var inner := stack + [name];
    assert IsPath(g, inner);
    var i := 0;
    while i < |deps|
      invariant 0 <= i <= |deps|
      invariant Inv(g, st, res) && StackOk(g, st, inner)
      invariant state.Keys + {name} <= st.Keys && result <= res
      invariant forall j :: 0 <= j < i ==> deps[j] in res
    {
      assert g.Keys - st.Keys < g.Keys - state.Keys by {
        assert name in g.Keys - state.Keys && name !in g.Keys - st.Keys;
      }
      var e;
      ghost var w;
      ghost var before := res;
      st, res, e, w := Visit(g, deps[i], st, res, inner);
      if e.Some? {
        return st, res, e, w;
      }
      StillFinished(before, res, deps, i);
      i := i + 1;
    }
    FinishVisit(g, st, res, stack, name, deps);
    state' := st[name := Done];
    result' := res + [name];
    evidence := [];
    err := None;
  }

  /** buildDependencyOrder: visits every unvisited module, in the arbitrary
      order in which Go iterates over the map. */
  method BuildDependencyOrder(g: Graph) returns (r: Result<seq<string>, OrderError>, ghost evidence: seq<string>)
    ensures r.Success? ==> IsInitOrder(g, r.value)
    ensures r.Failure? ==> Justified(g, r.error, evidence)
  {
    var state: map<string, Mark> := map[];
    var result: seq<string> := [];
    var todo := g.Keys;
    while todo != {}
      invariant todo <= g.Keys
      invariant Inv(g, state, result) && StackOk(g, state, [])
      invariant forall n :: n in g && n !in todo ==> n in state
      decreases todo
    {
      var p :| p in todo;
      if p !in state {
        var e;
        state, result, e, evidence := Visit(g, p, state, result, []);
        if e.Some? {
          return Failure(e.value), evidence;
        }
      }
      todo := todo - {p};
    }
    return Success(result), [];
  }

  lemma EdgeGoesBack(g: Graph, order: seq<string>, n: string, d: string)
    requires IsInitOrder(g, order) && n in g && d in g[n]
    ensures n in order && d in order && Pos(order, d) < Pos(order, n)
  {
    var i := Pos(order, n);
    assert d in order[..i];
    var j :| 0 <= j < i && order[..i][j] == d;
    assert order[j] == d;
  }

  lemma {:induction false} PathDescends(g: Graph, order: seq<string>, c: seq<string>, k: nat)
    requires IsInitOrder(g, order) && IsPath(g, c) && k < |c|
    ensures c[0] in order && c[k] in order && Pos(order, c[k]) + k <= Pos(order, c[0])
    decreases k
  {
    if k > 0 {
      PathDescends(g, order, c, k - 1);
      EdgeGoesBack(g, order, c[k - 1], c[k]);
    }
  }

  /** A graph that has an initialisation order has no cycle and no dangling
      dependency. */
  lemma InitOrderOnlyForClosedAcyclic(g: Graph, order: seq<string>)
    requires IsInitOrder(g, order)
    ensures Closed(g) && Acyclic(g)
  {
    forall c | IsCycle(g, c) ensures false {
      PathDescends(g, order, c, |c| - 1);
      EdgeGoesBack(g, order, c[|c| - 1], c[0]);
    }
    forall n, d | n in g && d in g[n] ensures d in g {
      EdgeGoesBack(g, order, n, d);
    }
  }

  /** A failure is only ever reported for a graph with a cycle or a dangling
      dependency. */
  lemma JustifiedMeansBroken(g: Graph, e: OrderError, evidence: seq<string>)
    requires Justified(g, e, evidence)
    ensures !Closed(g) || !Acyclic(g)
  {
    if e.CircularDependency? {
      assert IsCycle(g, evidence);
    }
  }
}

=== FILE: module_manager.dfy ===
// The module manager of app/core/module.go: registration, dependency
// de-duplication, the dependency graph, ordered initialisation, service and
// repository collection, unloading and teardown.
module ModuleManagement {
  import opened Wrappers
  import opened Text
  import opened ModuleGraph

  /** An opaque service or repository object handed out by a module. */
  datatype Handle = Handle(id: nat)

  /** A module as the manager sees it through the Module interface. The
      outcome of its Init and Destroy calls and its concrete Go type name
      are part of the value. */
  datatype Module = Module(
    name: string,
    version: string,
    dependencies: seq<string>,
    services: map<string, Handle>,
    repositories: map<string, Handle>,
    initError: Option<string>,
    destroyError: Option<string>,
    typeName: string)

  /** LoadedModule: the registered module and its de-duplicated dependencies. */
  datatype LoadedModule = LoadedModule(name: string, path: string, instance: Module, dependsOn: seq<string>)

  /** `r` lists each element of `deps` exactly once. */
  ghost predicate IsDedup(r: seq<string>, deps: seq<string>) {
    Distinct(r) && forall d :: d in r <==> d in deps
  }

  /** extractDependencies: the distinct dependencies, in the arbitrary order
      in which Go iterates over the `uniqueDeps` map. */
  method ExtractDependencies(deps: seq<string>) returns (r: seq<string>)
    ensures IsDedup(r, deps)
    ensures |r| <= |deps|
  {
    var unique: set<string> := {};
    var i := 0;
    while i < |deps|
      invariant 0 <= i <= |deps|
      invariant unique == set j | 0 <= j < i :: deps[j]
      invariant |unique| <= i
    {
      assert unique + {deps[i]} == set j | 0 <= j < i + 1 :: deps[j];
      unique := unique + {deps[i]};
      i := i + 1;
    }
    assert forall d :: d in unique <==> d in deps by {
      forall d | d in deps ensures d in unique {
        var j :| 0 <= j < |deps| && deps[j] == d;
      }
    }
    r := [];
    var rest := unique;
    while rest != {}
      invariant rest <= unique
      invariant Distinct(r)
      invariant forall d :: d in r <==> d in unique && d !in rest
      invariant |r| + |rest| == |unique|
      decreases rest
    {
      var d :| d in rest;
      r := r + [d];
      rest := rest - {d};
    }
  }

  /** validateModule: the name and version checks. */
  function ValidateModule(m: Module): (r: Outcome)
    ensures r.Pass? <==> m.name != "" && m.version != ""
  {
    if m.name == "" then Fail("module name cannot be empty")
    else if m.version == "" then Fail("module version cannot be empty")
    else Pass
  }

  /** Every module is stored under its own name, and every loaded entry
      carries the de-duplicated dependencies of its module. */
  ghost predicate WellFormed(modules: map<string, Module>, loaded: map<string, LoadedModule>) {
    (forall n :: n in modules ==> modules[n].name == n) &&
    (forall n :: n in loaded ==>
       loaded[n].name == n && loaded[n].instance.name == n &&
       IsDedup(loaded[n].dependsOn, loaded[n].instance.dependencies))
  }

  /** The dependency graph: each loaded module's name -> its DependsOn. */
  ghost function DepGraph(loaded: map<string, LoadedModule>): Graph {
    map n | n in loaded :: loaded[n].dependsOn
  }

  /** Some loaded module lists itself as a dependency. */
  ghost predicate SelfDependent(loaded: map<string, LoadedModule>) {
    exists n :: n in loaded && n in loaded[n].dependsOn
  }

  function Qualified(p: (string, string)): string {
    p.0 + "." + p.1
  }

  /** Every (module name, key) pair of a table of per-module maps. */
  function Pairs(tables: map<string, map<string, Handle>>): set<(string, string)> {
    set n, k | n in tables && k in tables[n] :: (n, k)
  }

  /** The loop shared by GetServices and GetRepositories: every entry of
      every module's map, re-keyed as `moduleName + "." + key`. When two pairs
      give the same key, the one visited last wins. */
  method Qualify(tables: map<string, map<string, Handle>>) returns (out: map<string, Handle>)
    ensures forall n, k :: n in tables && k in tables[n] ==> n + "." + k in out
    ensures forall q :: q in out ==>
      exists n, k :: n in tables && k in tables[n] && q == n + "." + k && out[q] == tables[n][k]
  {
    out := map[];
    var rest := Pairs(tables);
    ghost var done: set<(string, string)> := {};
    while rest != {}
      invariant rest + done == Pairs(tables) && rest !! done
      invariant forall p :: p in done ==> Qualified(p) in out
      invariant forall q :: q in out ==>
        exists n, k :: n in tables && k in tables[n] && q == n + "." + k && out[q] == tables[n][k]
      decreases rest
    {
      var p :| p in rest;
      var key := p.0 + "." + p.1;
      out := out[key := tables[p.0][p.1]];
      rest := rest - {p};
      done := done + {p};
    }
    forall n, k | n in tables && k in tables[n] ensures n + "." + k in out {
      assert (n, k) in Pairs(tables);
      assert Qualified((n, k)) in out;
    }
  }

  class ModuleManager {
    var modules: map<string, Module>
    var loadedModules: map<string, LoadedModule>
    var loaded: bool
    /** config.Disabled */
    const disabled: seq<string>

    ghost predicate Valid()
      reads this
    {
      WellFormed(modules, loadedModules)
    }

    /** CreateModuleManager's allocation: empty tables, nothing initialised. */
    constructor (disabled: seq<string>)
      ensures Valid()
      ensures modules == map[] && loadedModules == map[] && !loaded
      ensures this.disabled == disabled
    {
      modules := map[];
      loadedModules := map[];
      loaded := false;
      this.disabled := disabled;
    }

    /** isModuleDisabled: a linear scan of config.Disabled. */
    method IsModuleDisabled(name: string) returns (b: bool)
      ensures b <==> name in disabled
    {
      var i := 0;
      while i < |disabled|
        invariant 0 <= i <= |disabled|
        invariant name !in disabled[..i]
      {
        if disabled[i] == name {
          return true;
        }
        assert disabled[..i + 1] == disabled[..i] + [disabled[i]];
        i := i + 1;
      }
      assert disabled[..i] == disabled;
      return false;
    }

    /** Register (registerModuleInstance with an empty path). */
    method Register(m: Module) returns (err: Outcome)
      requires Valid()
      modifies this`modules, this`loadedModules
      ensures Valid()
      ensures m.name in disabled ==>
        err == Pass && modules == old(modules) && loadedModules == old(loadedModules)
      ensures m.name !in disabled && ValidateModule(m).Fail? ==>
        err == Fail("module validation failed: " + ValidateModule(m).error) &&
        modules == old(modules) && loadedModules == old(loadedModules)
      ensures m.name !in disabled && ValidateModule(m).Pass? ==>
        err == Pass &&
        modules == old(modules)[m.name := m] &&
        loadedModules.Keys == old(loadedModules).Keys + {m.name} &&
        (forall n :: n in old(loadedModules) && n != m.name ==> loadedModules[n] == old(loadedModules)[n]) &&
        loadedModules[m.name].instance == m && loadedModules[m.name].path == "" &&
        IsDedup(loadedModules[m.name].dependsOn, m.dependencies)
    {
      var off := IsModuleDisabled(m.name);
      if off {
        return Pass;
      }
      var v := ValidateModule(m);
      if v.Fail? {
        return Fail("module validation failed: " + v.error);
      }
      var deps := ExtractDependencies(m.dependencies);
      loadedModules := loadedModules[m.name := LoadedModule(m.name, "", m, deps)];
      modules := modules[m.name := m];
      return Pass;
    }

    /** GetModule: the registered module of that name, or an error. */
    function GetModule(name: string): (r: Result<Module, string>)
      reads this
      ensures r.Success? <==> name in modules
      ensures r.Success? ==> r.value == modules[name]
      ensures r.Failure? ==> r.error == "module '" + name + "' not found"
    {
      if name in modules then Success(modules[name])
      else Failure("module '" + name + "' not found")
    }

    /** buildDependencyGraph: fails on a self-reference, found in Go's
        arbitrary map order. */
    method BuildDependencyGraph() returns (r: Result<Graph, string>)
      ensures r.Success? <==> !SelfDependent(loadedModules)
      ensures r.Success? ==> r.value == DepGraph(loadedModules)
      ensures r.Failure? ==>
        exists n :: n in loadedModules && n in loadedModules[n].dependsOn &&
                    r.error == "plugin '" + n + "' merefer ke dirinya sendiri"
    {
      var graph: Graph := map[];
      var rest := loadedModules.Keys;
      while rest != {}
        invariant rest <= loadedModules.Keys
        invariant graph.Keys == loadedModules.Keys - rest
        invariant forall n :: n in graph ==> graph[n] == loadedModules[n].dependsOn
        invariant forall n :: n in graph ==> n !in graph[n]
        decreases rest
      {
        var name :| name in rest;
        if name in loadedModules[name].dependsOn {
          return Failure("plugin '" + name + "' merefer ke dirinya sendiri");
        }
        graph := graph[name := loadedModules[name].dependsOn];
        rest := rest - {name};
      }
      return Success(graph);
    }

    /** InitializeModulesWithDependencies: build the graph and the order,
        then call Init module by module, stopping at the first failure.
        `inits` lists the modules whose Init was called, in call order. */
    method InitializeModulesWithDependencies() returns (err: Outcome, inits: seq<string>, ghost order: seq<string>)
      requires Valid()
      ensures SelfDependent(loadedModules) || !Closed(DepGraph(loadedModules)) || !Acyclic(DepGraph(loadedModules))
              ==> err.Fail? && inits == []
      ensures err.Fail? && inits == [] ==>
        SelfDependent(loadedModules) || !Closed(DepGraph(loadedModules)) || !Acyclic(DepGraph(loadedModules))
      ensures err.Pass? || inits != [] ==>
        IsInitOrder(DepGraph(loadedModules), order) && inits <= order
      ensures forall i :: 0 <= i < |inits| - 1 ==> loadedModules[inits[i]].instance.initError.None?
      ensures err.Pass? ==> inits == order && forall n :: n in inits ==> loadedModules[n].instance.initError.None?
      ensures err.Fail? && inits != [] ==>
        var last := inits[|inits| - 1];
        loadedModules[last].instance.initError.Some? &&
        err == Fail("initialize module '" + last + "': " + loadedModules[last].instance.initError.value)
    {
      var graph := BuildDependencyGraph();
      if graph.Failure? {
        assert SelfDependent(loadedModules);
        return Fail(graph.error), [], [];
      }
      var built;
      ghost var evidence;
      built, evidence := BuildDependencyOrder(graph.value);
      if built.Failure? {
        JustifiedMeansBroken(graph.value, built.error, evidence);
        return Fail(ErrorMessage(built.error)), [], [];
      }
      var sequence := built.value;
      order := sequence;
      InitOrderOnlyForClosedAcyclic(graph.value, order);
      err, inits := InitializeInOrder(sequence);
    }

    /** The loop of InitializeModulesWithDependencies: Init each module in
        `sequence`, stopping at the first error. `inits` are the modules
        whose Init ran. */
    method InitializeInOrder(sequence: seq<string>) returns (err: Outcome, inits: seq<string>)
      requires forall n :: n in sequence ==> n in loadedModules
      ensures inits <= sequence
      ensures forall i :: 0 <= i < |inits| - 1 ==> loadedModules[inits[i]].instance.initError.None?
      ensures err.Pass? ==> inits == sequence && forall n :: n in inits ==> loadedModules[n].instance.initError.None?
      ensures err.Fail? ==>
        inits != [] &&
        var last := inits[|inits| - 1];
        loadedModules[last].instance.initError.Some? &&
        err == Fail("initialize module '" + last + "': " + loadedModules[last].instance.initError.value)
    {
      inits := [];
      var i := 0;
      while i < |sequence|
        invariant 0 <= i <= |sequence|
        invariant inits == sequence[..i]
        invariant forall n :: n in inits ==> loadedModules[n].instance.initError.None?
      {
        var name := sequence[i];
        var lm := loadedModules[name];
        inits := inits + [name];
        if lm.instance.initError.Some? {
          assert forall j :: 0 <= j < |inits| - 1 ==> inits[j] in sequence[..i];
          return Fail("initialize module '" + name + "': " + lm.instance.initError.value), inits;
        }
        i := i + 1;
      }
      assert inits == sequence;
      return Pass, inits;
    }

    function ServiceTables(): map<string, map<string, Handle>>
      reads this
    {
      map n | n in modules :: modules[n].services
    }

    function RepositoryTables(): map<string, map<string, Handle>>
      reads this
    {
      map n | n in modules :: modules[n].repositories
    }

    /** GetServices: every module's services keyed `moduleName + "." + key`. */
    method GetServices() returns (services: map<string, Handle>)
      requires Valid()
      ensures forall n, k :: n in modules && k in modules[n].services ==> modules[n].name + "." + k in services
      ensures forall q :: q in services ==>
        exists n, k :: n in modules && k in modules[n].services &&
                       q == modules[n].name + "." + k && services[q] == modules[n].services[k]
    {
      services := Qualify(ServiceTables());
    }

    /** GetRepositories: every module's repositories keyed `moduleName + "." + key`. */
    method GetRepositories() returns (repositories: map<string, Handle>)
      requires Valid()
      ensures forall n, k :: n in modules && k in modules[n].repositories ==> modules[n].name + "." + k in repositories
      ensures forall q :: q in repositories ==>
        exists n, k :: n in modules && k in modules[n].repositories &&
                       q == modules[n].name + "." + k && repositories[q] == modules[n].repositories[k]
    {
      repositories := Qualify(RepositoryTables());
    }

    /** UnloadModule: drops the loadedModules entry only. */
    method UnloadModule(name: string) returns (err: Outcome)
      requires Valid()
      modifies this`loadedModules
      ensures Valid()
      ensures name !in old(loadedModules) ==>
        err == Fail("module '" + name + "' is not loaded") && loadedModules == old(loadedModules)
      ensures name in old(loadedModules) ==>
        err == Pass && loadedModules == old(loadedModules) - {name}
    {
      if name !in loadedModules {
        return Fail("module '" + name + "' is not loaded");
      }
      loadedModules := loadedModules - {name};
      return Pass;
    }

    /** Destroy: calls every module's Destroy, logging (not returning) its
        errors, then forgets the modules; loadedModules is kept. */
    method Destroy() returns (err: Outcome, warnings: seq<string>)
      requires Valid()
      modifies this`modules, this`loaded
      ensures Valid()
      ensures err == Pass && modules == map[] && !loaded
      ensures forall w :: w in warnings ==>
        exists n :: n in old(modules) && old(modules)[n].destroyError == Some(w)
      ensures forall n :: n in old(modules) && old(modules)[n].destroyError.Some? ==>
        old(modules)[n].destroyError.value in warnings
      ensures |warnings| <= |old(modules)|
    {
      warnings := [];
      var rest := modules.Keys;
      while rest != {}
        invariant rest <= modules.Keys
        invariant |warnings| + |rest| <= |modules.Keys|
        invariant forall w :: w in warnings ==>
          exists n :: n in modules && modules[n].destroyError == Some(w)
        invariant forall n :: n in modules && n !in rest && modules[n].destroyError.Some? ==>
          modules[n].destroyError.value in warnings
        decreases rest
      {
        var n :| n in rest;
        if modules[n].destroyError.Some? {
          warnings := warnings + [modules[n].destroyError.value];
        }
        rest := rest - {n};
      }
      modules := map[];
      loaded := false;
      return Pass, warnings;
    }
  }

  /** getRepoName: the text after the last '/' of a URL. */
  function GetRepoName(url: string): (r: string)
    ensures '/' !in r
    ensures HasSuffix(url, r)
    ensures |r| < |url| ==> url[|url| - |r| - 1] == '/'
  {
    var parts := Split(url, '/');
    JoinLast(parts, '/');
    parts[|parts| - 1]
  }

  /** The last piece of a join sits after the last separator. */
  lemma {:induction false} JoinLast(parts: seq<string>, sep: char)
    requires |parts| >= 1
    ensures HasSuffix(Join(parts, sep), parts[|parts| - 1])
    ensures |parts| >= 2 ==> |parts[|parts| - 1]| < |Join(parts, sep)|
    ensures |parts| >= 2 ==>
      var j := Join(parts, sep);
      j[|j| - |parts[|parts| - 1]| - 1] == sep
    decreases |parts|
  {
    if |parts| >= 2 {
      var rest := parts[1..];
      JoinLast(rest, sep);
      assert Join(parts, sep) == parts[0] + [sep] + Join(rest, sep);
      if |rest| >= 2 {
        assert rest[|rest| - 1] == parts[|parts| - 1];
      } else {
        assert Join(rest, sep) == parts[|parts| - 1];
      }
    }
  }

  /** Go type names of the loaders are pairwise different. */
  predicate DistinctTypeNames(loaders: seq<Module>) {
    forall i, j :: 0 <= i < j < |loaders| ==> loaders[i].typeName != loaders[j].typeName
  }

  /** checkSingleLoader as written: the list of seen type names is never
      extended, so the duplicate check never fires and every loader passes. */
  method CheckSingleLoaderAsWritten(loaders: seq<Module>) returns (r: seq<Module>)
    ensures r == loaders
  {
    r := [];
    var i := 0;
    while i < |loaders|
      invariant 0 <= i <= |loaders|
      invariant r == loaders[..i]
    {
      r := r + [loaders[i]];
      i := i + 1;
    }
    assert loaders[..i] == loaders;
  }

  /** checkSingleLoader as intended: remember each type name and stop
      (logger.Fatal) at the first repeat. */
  method CheckSingleLoader(loaders: seq<Module>) returns (r: Result<seq<Module>, string>)
    ensures r.Success? <==> DistinctTypeNames(loaders)
    ensures r.Success? ==> r.value == loaders
  {
    var kept: seq<Module> := [];
    var list: seq<string> := [];
    var i := 0;
    while i < |loaders|
      invariant 0 <= i <= |loaders|
      invariant kept == loaders[..i]
      invariant |list| == i && forall j :: 0 <= j < i ==> list[j] == loaders[j].typeName
      invariant DistinctTypeNames(loaders[..i])
    {
      var lName := loaders[i].typeName;
      if lName in list {
        var j :| 0 <= j < |list| && list[j] == lName;
        assert loaders[j].typeName == loaders[i].typeName;
        return Failure("Module is registered multiple times: " + lName);
      }
      list := list + [lName];
      kept := kept + [loaders[i]];
      i := i + 1;
    }
    assert loaders[..i] == loaders;
    return Success(kept);
  }

  /** Two loaders of one Go type: the intended check rejects the list that
      the as-written check passes through. */
  lemma DuplicateTypeSlipsThrough(m: Module)
    ensures !DistinctTypeNames([m, m])
  {
    var l := [m, m];
    assert l[0].typeName == l[1].typeName;
  }
}

=== FILE: mongo.dfy ===
// The MongoDB library of libraries/db/mongo/mongo.go: Install, the
// connection string and connection of Connect, GetCollection, and the sort
// normalisation of Find and FindOne. Clients and collections are opaque
// handles; `escape` stands for url.QueryEscape.
module Mongo {
  import opened Wrappers
  import opened Text
  import opened Settings
  import opened DbQuery

  /** A collection handle: one already cached, or one asked of the client
      for the configured database. */
  datatype Collection = Cached(id: nat) | FromClient(client: nat, database: string, name: string)

  /** The host part: the host alone for a list of hosts or a zero port, else
      host:port. */
  function HostPart(c: DatabaseConfig): (h: string)
    ensures (Index(c.host, ",") != -1 || c.port == 0) ==> h == c.host
    ensures !(Index(c.host, ",") != -1 || c.port == 0) ==> h == c.host + ":" + IntToString(c.port)
  {
    if Index(c.host, ",") != -1 || c.port == 0 then c.host else c.host + ":" + IntToString(c.port)
  }

  /** The URI up to the query: credentials only when both user and password
      are set. */
  function UriBase(c: DatabaseConfig): string {
    if c.user != "" && c.password != "" then c.driver + "://" + c.user + ":" + c.password + "@" + HostPart(c) + "/"
    else c.driver + "://" + HostPart(c) + "/"
  }

  /** The connection string: the base, then "?" and the attribute pieces
      only when there are attributes. */
  method ConnectionString(c: DatabaseConfig, escape: string -> string) returns (uri: string, ghost order: seq<string>)
    ensures IsOrder(order, c.Attrs().Keys)
    ensures uri == UriBase(c) + Query(Pairs(order, c.Attrs(), escape))
    ensures |c.Attrs()| == 0 ==> uri == UriBase(c)
  {
    uri := UriBase(c);
    order := [];
    if |c.Attrs()| > 0 {
      var parts;
      parts, order := QueryPairs(c.Attrs(), escape);
      if |parts| > 0 {
        uri := uri + ("?" + Join(parts, '&'));
      }
    } else {
      assert uri + Query(Pairs(order, c.Attrs(), escape)) == uri;
    }
  }

  /** The outcome of the driver's connect call and of the ping. */
  datatype Dial = Dial(connect: Result<nat, string>, pingError: Option<string>)

  class MongoDatabase {
    var conn: Option<nat>
    var config: DatabaseConfig
    var collections: map<string, nat>

    constructor ()
      ensures conn == None && collections == map[]
    {
      conn := None;
      config := DatabaseConfig("", "", 0, "", "", "", "", None);
      collections := map[];
    }

    /** Install: store the configuration, wrap a given non-nil client, and
        start with no cached collections. */
    method Install(cfg: DatabaseConfig, client: Option<nat>) returns (err: Outcome)
      modifies this
      ensures err == Pass
      ensures config == cfg && collections == map[]
      ensures client.Some? ==> conn == client
      ensures client.None? ==> conn == old(conn)
    {
      config := cfg;
      if client.Some? {
        conn := client;
      }
      collections := map[];
      return Pass;
    }

    /** Connect: nothing to do when a client is set; otherwise dial the
        connection string. A failed dial is swallowed (nil, still no
        client); a failed ping is returned; otherwise the client is kept. */
    method Connect(escape: string -> string, dial: string -> Dial) returns (err: Option<string>, uri: string, ghost order: seq<string>)
      modifies this`conn
      ensures old(conn).Some? ==> err == None && conn == old(conn)
      ensures old(conn).None? ==>
        IsOrder(order, config.Attrs().Keys) &&
        uri == UriBase(config) + Query(Pairs(order, config.Attrs(), escape)) &&
        (dial(uri).connect.Failure? ==> err == None && conn == None) &&
        (dial(uri).connect.Success? && dial(uri).pingError.Some? ==> err == dial(uri).pingError && conn == None) &&
        (dial(uri).connect.Success? && dial(uri).pingError.None? ==> err == None && conn == Some(dial(uri).connect.value))
    {
      uri, order := "", [];
      if conn.Some? {
        return None, uri, order;
      }
      uri, order := ConnectionString(config, escape);
      var outcome := dial(uri);
      if outcome.connect.Failure? {
        return None, uri, order;
      }
      if outcome.pingError.Some? {
        return outcome.pingError, uri, order;
      }
      conn := Some(outcome.connect.value);
      return None, uri, order;
    }

    /** GetCollection: the cached handle, else one from the client; the
        cache is only read. Without a client the Go code dereferences nil. */
    function GetCollection(name: string): (c: Collection)
      reads this
      requires name in collections || conn.Some?
      ensures name in collections ==> c == Cached(collections[name])
      ensures name !in collections ==> c == FromClient(conn.value, config.name, name)
    {
      if name in collections then Cached(collections[name]) else FromClient(conn.value, config.name, name)
    }
  }

  /** The sort normalisation: exactly 1 stays 1, everything else becomes -1. */
  function SortOrder(order: int): (r: int)
    ensures r == 1 <==> order == 1
    ensures r == 1 || r == -1
  {
    if order == 1 then 1 else -1
  }

  /** The sort document: the same fields, each normalised. */
  function SortDocument(sort: map<string, int>): (r: map<string, int>)
    ensures r.Keys == sort.Keys
    ensures forall f :: f in r ==> r[f] == SortOrder(sort[f])
  {
    map f | f in sort :: SortOrder(sort[f])
  }
}

=== FILE: out.dfy ===
// The standard API response of webcore/app/out/app.go.
module Out {
  import opened Wrappers

  /** A response body. `data` is the payload rendered as text; `stackTrace`
      is empty when the field is not set. */
  datatype Response = Response(
    httpCode: int,
    errorCode: int,
    errorName: string,
    message: string,
    data: Option<string>,
    stackTrace: seq<string>,
    details: Option<string>)

  /** An error code and name are set and the package environment is
      "development": the case in which a stack trace is attached. */
  predicate WantsStack(r: Response, environment: string) {
    r.errorCode != 0 && r.errorName != "" && environment == "development"
  }

  /** newResponse: a zero status becomes 200, and the lines of the current
      stack (`stack`, supplied by the runtime) are attached when WantsStack
      holds; nothing else changes. `environment` is the package variable set
      by SetEnvironment. */
  function NewResponse(r: Response, environment: string, stack: seq<string>): (out: Response)
    ensures out.httpCode == (if r.httpCode == 0 then 200 else r.httpCode)
    ensures out.httpCode != 0
    ensures out.stackTrace == (if WantsStack(r, environment) then stack else r.stackTrace)
    ensures out.(httpCode := r.httpCode, stackTrace := r.stackTrace) == r
  {
    var withCode := if r.httpCode == 0 then r.(httpCode := 200) else r;
    if WantsStack(r, environment) then withCode.(stackTrace := stack) else withCode
  }

  /** Response.Error: the error text is the message. */
  function ErrorText(r: Response): (s: string)
    ensures s == r.message
  {
    r.message
  }

  const Empty := Response(0, 0, "", "", None, [], None)

  /** SuccessData, SuccessMessage and SuccessDataMessage build the response
      directly, without newResponse, so the status stays 0. */
  function SuccessData(data: string): (r: Response)
    ensures r.httpCode == 0 && r.errorCode == 0 && r.data == Some(data) && r.message == ""
  {
    Empty.(data := Some(data))
  }

  function SuccessMessage(msg: string): (r: Response)
    ensures r.httpCode == 0 && r.errorCode == 0 && r.data == None && r.message == msg
  {
    Empty.(message := msg)
  }

  function SuccessDataMessage(data: string, msg: string): (r: Response)
    ensures r.httpCode == 0 && r.errorCode == 0 && r.data == Some(data) && r.message == msg
  {
    Empty.(data := Some(data), message := msg)
  }

  /** Error: the four given fields, passed through newResponse. */
  function Error(httpCode: int, errorCode: int, errorName: string, message: string,
                 environment: string, stack: seq<string>): (r: Response)
    ensures httpCode != 0 ==> r.httpCode == httpCode
    ensures httpCode == 0 ==> r.httpCode == 200
    ensures r.errorCode == errorCode && r.errorName == errorName && r.message == message
    ensures r.details == None && r.data == None
    ensures r.stackTrace == (if errorCode != 0 && errorName != "" && environment == "development" then stack else [])
  {
    NewResponse(Response(httpCode, errorCode, errorName, message, None, [], None), environment, stack)
  }

  /** ErrorDetail: as Error, with `details` set to the message of a non-nil
      `detail` error. */
  function ErrorDetail(httpCode: int, errorCode: int, errorName: string, message: string,
                       detail: Option<string>, environment: string, stack: seq<string>): (r: Response)
    ensures r.details == detail
    ensures r == Error(httpCode, errorCode, errorName, message, environment, stack).(details := detail)
  {
    NewResponse(Response(httpCode, errorCode, errorName, message, None, [], detail), environment, stack)
  }
}

=== FILE: pagination.dfy ===
// The slice pagination of webcore/app/helper/api.go.
module Pagination {
  /** Go's integer division, which truncates toward zero. */
  function GoDiv(a: int, b: int): (q: int)
    requires b != 0
    ensures a >= 0 && b > 0 ==> q == a / b
  {
    var q := (if a < 0 then -a else a) / (if b < 0 then -b else b);
    if (a < 0) == (b < 0) then q else -q
  }

  datatype Page = Page(page: int, pageSize: int, total: int, totalPages: int)

  const NoPage := Page(0, 0, 0, 0)

  /** The `any` argument: a slice or something else. */
  datatype Data<T> = Slice(items: seq<T>) | NotSlice(value: T)

  function Min(a: int, b: int): int { if a < b then a else b }

  /** Where a page starts and ends in a slice of `total` elements, with
      page and size already clamped. */
  function Start(page: int, pageSize: int, total: nat): (s: nat)
    requires page >= 1 && pageSize >= 1
    ensures s <= total
  {
    Min((page - 1) * pageSize, total)
  }

  function End(page: int, pageSize: int, total: nat): (e: nat)
    requires page >= 1 && pageSize >= 1
    ensures Start(page, pageSize, total) <= e <= total
  {
    Min(Start(page, pageSize, total) + pageSize, total)
  }

  /** Paginate: a non-slice comes back unchanged and an empty slice empty,
      both with a zero Pagination; otherwise the page count is taken with
      the size as given (a zero size divides by zero), the page is clamped
      to at least 1 and the size to 10 when below 1, and the elements from
      the page's start to its end come back. */
  function Paginate<T>(data: Data<T>, page: int, pageSize: int): (r: (Data<T>, Page))
    requires data.Slice? && data.items != [] ==> pageSize != 0
    ensures data.NotSlice? ==> r == (data, NoPage)
    ensures data.Slice? && data.items == [] ==> r == (Slice([]), NoPage)
    ensures data.Slice? && data.items != [] ==>
      var p := if page < 1 then 1 else page;
      var size := if pageSize < 1 then 10 else pageSize;
      var total := |data.items|;
      r.1 == Page(p, size, total, GoDiv(total + pageSize - 1, pageSize)) &&
      r.0 == Slice(data.items[Start(p, size, total)..End(p, size, total)]) &&
      |r.0.items| <= size
  {
    match data
    case NotSlice(_) => (data, NoPage)
    case Slice(items) =>
      if |items| == 0 then (Slice([]), NoPage)
      else
        var total := |items|;
        var totalPages := GoDiv(total + pageSize - 1, pageSize);
        var p := if page < 1 then 1 else page;
        var size := if pageSize < 1 then 10 else pageSize;
        var start := Start(p, size, total);
        var end := End(p, size, total);
        (Slice(items[start..end]), Page(p, size, total, totalPages))
  }

  /** For a positive size the page count is the rounded-up quotient. */
  lemma TotalPagesIsCeiling(total: nat, pageSize: int)
    requires total > 0 && pageSize >= 1
    ensures var n := GoDiv(total + pageSize - 1, pageSize);
      (n - 1) * pageSize < total <= n * pageSize
  {
  }

  /** Pages 1 .. k, one after the other. */
  function FirstPages<T>(items: seq<T>, pageSize: int, k: nat): seq<T>
    requires items != [] && pageSize >= 1
  {
    if k == 0 then [] else FirstPages(items, pageSize, k - 1) + Paginate(Slice(items), k, pageSize).0.items
  }

  /** The first k pages are exactly the first k * size elements (or all of
      them). */
  lemma {:induction false} FirstPagesArePrefix<T>(items: seq<T>, pageSize: int, k: nat)
    requires items != [] && pageSize >= 1
    ensures FirstPages(items, pageSize, k) == items[..Min(k * pageSize, |items|)]
  {
    if k > 0 {
      FirstPagesArePrefix(items, pageSize, k - 1);
      var total := |items|;
      assert Start(k, pageSize, total) == Min((k - 1) * pageSize, total);
      assert items[..Min(k * pageSize, total)] ==
        items[..Min((k - 1) * pageSize, total)] + items[Start(k, pageSize, total)..End(k, pageSize, total)];
    }
  }

  /** Read one after the other, pages 1 to TotalPages give back the whole
      slice. */
  lemma PagesCoverData<T>(items: seq<T>, pageSize: int)
    requires items != [] && pageSize >= 1
    ensures FirstPages(items, pageSize, Paginate(Slice(items), 1, pageSize).1.totalPages) == items
  {
    var n := GoDiv(|items| + pageSize - 1, pageSize);
    TotalPagesIsCeiling(|items|, pageSize);
    FirstPagesArePrefix(items, pageSize, n);
    assert items[..|items|] == items;
  }
}

=== FILE: rate_limit.dfy ===
// The fixed-window rate limiter of app/middleware/rate_limit.go. Times and
// durations are integers (nanoseconds); the clock is a parameter.
module RateLimit {
  import opened Http
  import opened Text

  /** A client's request count in the window that started at `windowStart`. */
  datatype ClientData = ClientData(count: int, windowStart: int)

  /** A client's window has run out when more than `window` has passed. */
  predicate Expired(d: ClientData, now: int, window: int) {
    now - d.windowStart > window
  }

  /** The outcome of one Allow call on a table, as a value: whether the
      request may pass, when the window resets, and the new table. */
  datatype Decision = Decision(allowed: bool, reset: int, clients: map<string, ClientData>)

  function AllowStep(clients: map<string, ClientData>, limit: int, window: int, id: string, now: int): Decision {
    if limit == 0 then Decision(false, now + window, clients)
    else if id !in clients || Expired(clients[id], now, window) then
      Decision(true, now + window, clients[id := ClientData(1, now)])
    else if clients[id].count >= limit then
      Decision(false, clients[id].windowStart + window, clients)
    else
      Decision(true, clients[id].windowStart + window, clients[id := clients[id].(count := clients[id].count + 1)])
  }

  /** The table's invariant: every count is at least 1 and at most the limit
      (or 1, for a limit below 1). */
  predicate Bounded(clients: map<string, ClientData>, limit: int) {
    forall c :: c in clients ==> 1 <= clients[c].count && (clients[c].count <= limit || clients[c].count == 1)
  }

  /** One step keeps the invariant, changes no other client, and only the
      client's own entry decides it. */
  lemma AllowStepKeepsBounded(clients: map<string, ClientData>, limit: int, window: int, id: string, now: int)
    requires Bounded(clients, limit)
    ensures var d := AllowStep(clients, limit, window, id, now);
      Bounded(d.clients, limit) &&
      (forall c :: c != id ==> (c in d.clients <==> c in clients)) &&
      (forall c :: c != id && c in clients ==> d.clients[c] == clients[c]) &&
      (d.allowed ==> id in d.clients && d.clients[id].count <= (if limit >= 1 then limit else 1))
  {
  }

  /** How many of the requests at `times` (made by `id`, in order) pass. */
  function AllowedCount(clients: map<string, ClientData>, limit: int, window: int, id: string, times: seq<int>): nat
    decreases |times|
  {
    if times == [] then 0
    else
      var d := AllowStep(clients, limit, window, id, times[0]);
      (if d.allowed then 1 else 0) + AllowedCount(d.clients, limit, window, id, times[1..])
  }

  /** Within one running window a client gets at most `limit` minus its
      count so far. */
  lemma {:induction false} WithinWindowBound(clients: map<string, ClientData>, limit: int, window: int, id: string,
                                             times: seq<int>)
    requires limit >= 1 && Bounded(clients, limit) && id in clients
    requires forall i :: 0 <= i < |times| ==> !Expired(clients[id], times[i], window)
    ensures AllowedCount(clients, limit, window, id, times) <= limit - clients[id].count
    decreases |times|
  {
    if times != [] {
      var d := AllowStep(clients, limit, window, id, times[0]);
      AllowStepKeepsBounded(clients, limit, window, id, times[0]);
      assert d.clients[id].windowStart == clients[id].windowStart;
      assert forall i :: 0 <= i < |times[1..]| ==> times[1..][i] == times[i + 1];
      WithinWindowBound(d.clients, limit, window, id, times[1..]);
    }
  }

  /** A client unseen so far gets at most `limit` requests through while
      the window its first request opens lasts. */
  lemma AtMostLimitPerWindow(clients: map<string, ClientData>, limit: int, window: int, id: string, times: seq<int>)
    requires limit >= 1 && Bounded(clients, limit) && id !in clients && times != []
    requires forall i :: 0 <= i < |times| ==> times[i] - times[0] <= window
    ensures AllowedCount(clients, limit, window, id, times) <= limit
  {
    var d := AllowStep(clients, limit, window, id, times[0]);
    AllowStepKeepsBounded(clients, limit, window, id, times[0]);
    assert forall i :: 0 <= i < |times[1..]| ==> times[1..][i] == times[i + 1];
    WithinWindowBound(d.clients, limit, window, id, times[1..]);
  }

  /** The client identifier: the X-API-Key header, else a Bearer token from
      Authorization, else the remote IP. */
  function ClientId(req: Request): (id: string)
    ensures Header(req, "X-API-Key") != "" ==> id == Header(req, "X-API-Key")
    ensures Header(req, "X-API-Key") == "" && HasPrefix(Header(req, "Authorization"), "Bearer ") ==>
      "Bearer " + id == Header(req, "Authorization")
    ensures Header(req, "X-API-Key") == "" && !HasPrefix(Header(req, "Authorization"), "Bearer ") ==>
      id == req.remoteIp
  {
    var apiKey := Header(req, "X-API-Key");
    if apiKey != "" then apiKey
    else
      var authorization := Header(req, "Authorization");
      if authorization != "" && HasPrefix(authorization, "Bearer ") then TrimPrefix(authorization, "Bearer ")
      else req.remoteIp
  }

  /** The X-RateLimit-Remaining value: the limit less the count, never
      negative. */
  function Remaining(limit: int, count: int): (r: int)
    ensures r >= 0 && r >= limit - count
    ensures r == 0 || r == limit - count
  {
    if limit - count < 0 then 0 else limit - count
  }

  /** The middleware's answer: 429 with the reset time, or passed on with
      the remaining count and reset time. */
  datatype Answer = TooManyRequests(limit: int, reset: int) | Passed(limit: int, remaining: int, reset: int)

  class RateLimiter {
    const window: int
    const limit: int
    var clients: map<string, ClientData>

    ghost predicate Valid()
      reads this
    {
      Bounded(clients, limit)
    }

    /** NewRateLimiter: an empty table. */
    constructor (window: int, limit: int)
      ensures this.window == window && this.limit == limit && clients == map[]
      ensures Valid()
    {
      this.window := window;
      this.limit := limit;
      clients := map[];
    }

    /** Allow: a zero limit denies and changes nothing; a new or expired
        client starts a window with count 1; a full window denies and
        changes nothing; otherwise the count goes up by one. */
    method Allow(id: string, now: int) returns (allowed: bool, reset: int)
      requires Valid()
      modifies this`clients
      ensures Valid()
      ensures limit == 0 ==> !allowed && reset == now + window && clients == old(clients)
      ensures limit != 0 && (id !in old(clients) || Expired(old(clients)[id], now, window)) ==>
        allowed && reset == now + window && clients == old(clients)[id := ClientData(1, now)]
      ensures limit != 0 && id in old(clients) && !Expired(old(clients)[id], now, window) ==>
        var d := old(clients)[id];
        reset == d.windowStart + window &&
        (d.count >= limit ==> !allowed && clients == old(clients)) &&
        (d.count < limit ==> allowed && clients == old(clients)[id := d.(count := d.count + 1)])
      ensures Decision(allowed, reset, clients) == AllowStep(old(clients), limit, window, id, now)
    {
      if limit == 0 {
        return false, now + window;
      }
      if id !in clients || now - clients[id].windowStart > window {
        clients := clients[id := ClientData(1, now)];
        return true, now + window;
      }
      var data := clients[id];
      if data.count >= limit {
        return false, data.windowStart + window;
      }
      clients := clients[id := data.(count := data.count + 1)];
      return true, data.windowStart + window;
    }

    /** getClientCount: 0 for an unknown client. */
    function ClientCount(id: string): (n: int)
      reads this
      ensures id !in clients ==> n == 0
      ensures id in clients ==> n == clients[id].count
    {
      if id in clients then clients[id].count else 0
    }

    /** Reset: an empty table. */
    method Reset()
      modifies this`clients
      ensures clients == map[]
      ensures Valid()
    {
      clients := map[];
    }

    /** Cleanup: exactly the expired entries are removed. */
    method Cleanup(now: int)
      requires Valid()
      modifies this`clients
      ensures Valid()
      ensures clients == map c | c in old(clients) && !Expired(old(clients)[c], now, window) :: old(clients)[c]
    {
      ghost var orig := clients;
      var pending := clients.Keys;
      while pending != {}
        invariant pending <= orig.Keys
        invariant clients == map c | c in orig && (c in pending || !Expired(orig[c], now, window)) :: orig[c]
        decreases pending
      {
        var c :| c in pending;
        if now - clients[c].windowStart > window {
          clients := clients - {c};
        }
        pending := pending - {c};
      }
    }

    /** The middleware: pick the client id, ask Allow, and report the
        remaining count of the client's entry on success. */
    method Middleware(req: Request, now: int) returns (answer: Answer)
      requires Valid()
      modifies this`clients
      ensures Valid()
      ensures var d := AllowStep(old(clients), limit, window, ClientId(req), now);
        clients == d.clients &&
        (!d.allowed ==> answer == TooManyRequests(limit, d.reset)) &&
        (d.allowed ==> answer == Passed(limit, Remaining(limit, d.clients[ClientId(req)].count), d.reset))
      ensures answer.Passed? && limit >= 1 ==> 0 <= answer.remaining < limit
    {
      var id := ClientId(req);
      var allowed, reset := Allow(id, now);
      if !allowed {
        return TooManyRequests(limit, reset);
      }
      var count := clients[id].count;
      return Passed(limit, Remaining(limit, count), reset);
    }
  }
}

=== FILE: settings.dfy ===
// The configuration records of webcore/app/config/config.go that the
// modelled code reads.
module Settings {
  import opened Wrappers

  /** A database section; `attributes` is None when no attributes are
      configured, for the map is then nil. */
  datatype DatabaseConfig = DatabaseConfig(
    driver: string,
    host: string,
    port: int,
    user: string,
    password: string,
    name: string,
    sslMode: string,
    attributes: Option<map<string, string>>)
  {
    /** The attributes as a read sees them: a nil map reads as empty. */
    function Attrs(): map<string, string> {
      if attributes.Some? then attributes.value else map[]
    }
  }

  datatype RedisConfig = RedisConfig(host: string, port: int, password: string, db: int)

  datatype PubSubConfig = PubSubConfig(projectId: string, subscription: string, topic: string)

  /** Auth settings: access-control type, store name, validator type, JWT
      secret, and the API key header and prefix. */
  datatype AuthConfig = AuthConfig(
    control: string,
    store: string,
    authType: string,
    secretKey: string,
    apiKeyHeader: string,
    apiKeyPrefix: string)

  datatype Config = Config(
    database: DatabaseConfig,
    redis: RedisConfig,
    pubsub: PubSubConfig,
    auth: AuthConfig)
}

=== FILE: sql.dfy ===
// The SQL database library of libraries/db/sql/sql.go: the Install checks,
// the connection-string builder and the sort-direction mapping. `escape`
// stands for url.QueryEscape and `encode` for url.Values.Encode.
module Sql {
  import opened Wrappers
  import opened Text
  import opened Settings
  import opened DbQuery

  const DialectMissingMessage := "Gorm Dialect is not set"

  function DriverMismatchMessage(driver: string, dialect: string): string {
    "Driver(" + driver + ") and Dialect(" + dialect + ") does not match"
  }

  class SqlDatabase {
    var config: DatabaseConfig
    /** The name of the gorm dialect, when one is set. */
    var dialect: Option<string>

    constructor (config: DatabaseConfig, dialect: Option<string>)
      ensures this.config == config && this.dialect == dialect
    {
      this.config := config;
      this.dialect := dialect;
    }

    method SetDialect(name: string)
      modifies this`dialect
      ensures dialect == Some(name)
    {
      dialect := Some(name);
    }

    /** Install: the configuration is stored first; then a missing dialect,
        or a driver that is not the dialect's name, is an error. */
    method Install(cfg: DatabaseConfig) returns (err: Outcome)
      modifies this`config
      ensures config == cfg
      ensures dialect.None? ==> err == Fail(DialectMissingMessage)
      ensures dialect.Some? && cfg.driver != dialect.value ==> err == Fail(DriverMismatchMessage(cfg.driver, dialect.value))
      ensures err == Pass <==> dialect.Some? && cfg.driver == dialect.value
    {
      config := cfg;
      if dialect.None? {
        return Fail(DialectMissingMessage);
      }
      if config.driver != dialect.value {
        return Fail(DriverMismatchMessage(config.driver, dialect.value));
      }
      return Pass;
    }
  }

  /** The MySQL attributes after defaulting: charset, parseTime and loc are
      added only when absent. */
  function MysqlDefaults(attrs: map<string, string>): (r: map<string, string>)
    ensures r.Keys == attrs.Keys + {"charset", "parseTime", "loc"}
    ensures forall k :: k in attrs ==> r[k] == attrs[k]
    ensures "charset" !in attrs ==> r["charset"] == "utf8mb4"
    ensures "parseTime" !in attrs ==> r["parseTime"] == "True"
    ensures "loc" !in attrs ==> r["loc"] == "Local"
  {
    var a := if "charset" in attrs then attrs else attrs["charset" := "utf8mb4"];
    var b := if "parseTime" in a then a else a["parseTime" := "True"];
    if "loc" in b then b else b["loc" := "Local"]
  }

  function PostgresBase(c: DatabaseConfig): string {
    "host=" + c.host + " user=" + c.user + " password=" + c.password + " dbname=" + c.name +
    " port=" + IntToString(c.port) + " sslmode=" + c.sslMode
  }

  function MysqlBase(c: DatabaseConfig): string {
    c.user + ":" + c.password + "@tcp(" + c.host + ":" + IntToString(c.port) + ")/" + c.name
  }

  /** The Go runtime's message for a write into a nil map. */
  const NilMapAssignment := "assignment to entry in nil map"

  /** The MySQL branch of BuildDSN as written: the defaults are written
      straight into the configuration's attribute map, so a configuration
      without attributes (a nil map) panics on the first write. Otherwise
      the caller's map ends defaulted and the query always carries it. */
  method MysqlDSNAsWritten(c: DatabaseConfig, escape: string -> string)
    returns (r: Result<string, string>, attributes: Option<map<string, string>>, ghost order: seq<string>)
    ensures c.attributes.None? <==> r == Failure(NilMapAssignment)
    ensures c.attributes.None? ==> attributes == None
    ensures c.attributes.Some? ==>
      attributes == Some(MysqlDefaults(c.attributes.value)) && IsOrder(order, attributes.value.Keys) &&
      r == Success(MysqlBase(c) + "?" + Join(Pairs(order, attributes.value, escape), '&'))
  {
    attributes := c.attributes;
    order := [];
    if attributes.None? {
      return Failure(NilMapAssignment), attributes, order;
    }
    var dsn := MysqlBase(c);
    attributes := Some(MysqlDefaults(attributes.value));
    var parts;
    parts, order := QueryPairs(attributes.value, escape);
    assert "charset" in attributes.value.Keys;
    if |parts| > 0 {
      dsn := dsn + "?" + Join(parts, '&');
    }
    return Success(dsn), attributes, order;
  }

  /** The MySQL branch of BuildDSN, with a nil attribute map read as empty:
      the query always carries the defaulted attributes, at least charset,
      parseTime and loc. A configured map ends defaulted; a nil one stays
      nil. */
  method MysqlDSN(c: DatabaseConfig, escape: string -> string)
    returns (dsn: string, attributes: Option<map<string, string>>, ghost order: seq<string>)
    ensures attributes == (if c.attributes.Some? then Some(MysqlDefaults(c.attributes.value)) else None)
    ensures IsOrder(order, MysqlDefaults(c.Attrs()).Keys)
    ensures dsn == MysqlBase(c) + "?" + Join(Pairs(order, MysqlDefaults(c.Attrs()), escape), '&')
  {
    dsn := MysqlBase(c);
    var defaulted := MysqlDefaults(c.Attrs());
    attributes := if c.attributes.Some? then Some(defaulted) else None;
    var parts;
    parts, order := QueryPairs(defaulted, escape);
    assert "charset" in defaulted.Keys;
    if |parts| > 0 {
      dsn := dsn + "?" + Join(parts, '&');
    }
  }

  /** Where the attribute map is set, the corrected branch builds the
      string the written one does; where it is nil, the query carries just
      the three defaults. */
  lemma MysqlDefaultsOfNil(c: DatabaseConfig)
    ensures c.attributes.Some? ==> MysqlDefaults(c.Attrs()) == MysqlDefaults(c.attributes.value)
    ensures c.attributes.None? ==>
      MysqlDefaults(c.Attrs()) == map["charset" := "utf8mb4", "parseTime" := "True", "loc" := "Local"]
  {
  }

  /** The SQLite branch of BuildDSN: the database name, with a query only
      when there are attributes. */
  method SqliteDSN(c: DatabaseConfig, escape: string -> string) returns (dsn: string, ghost order: seq<string>)
    ensures IsOrder(order, c.Attrs().Keys)
    ensures dsn == c.name + Query(Pairs(order, c.Attrs(), escape))
    ensures |c.Attrs()| == 0 ==> dsn == c.name
    ensures |c.Attrs()| > 0 ==> HasPrefix(dsn, c.name + "?")
  {
    var attrs := c.Attrs();
    dsn := c.name;
    order := [];
    if |attrs| > 0 {
      var parts;
      parts, order := QueryPairs(attrs, escape);
      if |parts| > 0 {
        dsn := dsn + ("?" + Join(parts, '&'));
      }
    } else {
      assert dsn + Query(Pairs(order, attrs, escape)) == dsn;
    }
  }

  /** BuildDSN, with the MySQL branch corrected. The defaults MySQL writes
      into the caller's attribute map come back as `attributes`. */
  method BuildDSN(c: DatabaseConfig, escape: string -> string, encode: map<string, string> -> string)
    returns (dsn: string, attributes: Option<map<string, string>>, ghost order: seq<string>)
    ensures c.driver != "mysql" ==> attributes == c.attributes
    ensures c.driver == "postgres" ==>
      dsn == PostgresBase(c) + (if |c.Attrs()| > 0 then "?" + encode(c.Attrs()) else "")
    ensures c.driver == "mysql" ==>
      attributes == (if c.attributes.Some? then Some(MysqlDefaults(c.attributes.value)) else None) &&
      IsOrder(order, MysqlDefaults(c.Attrs()).Keys) &&
      dsn == MysqlBase(c) + "?" + Join(Pairs(order, MysqlDefaults(c.Attrs()), escape), '&')
    ensures c.driver == "sqlite" ==>
      IsOrder(order, c.Attrs().Keys) && dsn == c.name + Query(Pairs(order, c.Attrs(), escape))
    ensures c.driver != "postgres" && c.driver != "mysql" && c.driver != "sqlite" ==> dsn == ""
  {
    dsn := "";
    attributes := c.attributes;
    order := [];
    if c.driver == "postgres" {
      dsn := PostgresBase(c);
      if |c.Attrs()| > 0 {
        dsn := dsn + "?" + encode(c.Attrs());
      }
    } else if c.driver == "mysql" {
      dsn, attributes, order := MysqlDSN(c, escape);
    } else if c.driver == "sqlite" {
      dsn, order := SqliteDSN(c, escape);
    }
  }

  /** The ORDER BY term of Find and FindOne: ascending for a positive
      direction, descending for anything else. */
  function OrderTerm(field: string, direction: int): (t: string)
    ensures direction > 0 ==> t == field + " ASC"
    ensures direction <= 0 ==> t == field + " DESC"
  {
    if direction > 0 then field + " ASC" else field + " DESC"
  }
}

=== FILE: string_helper.dfy ===
// The string helpers of app/helper/string.go. Go strings are byte strings;
// here every character stands for one byte.
module StringHelper {
  import opened Text
  import opened Http

  /** Truncate: the string itself when it fits, else its first `length`
      characters and "...". */
  function Truncate(s: string, length: int): (r: string)
    requires length >= 0
    ensures |s| <= length ==> r == s
    ensures |s| > length ==> |r| == length + 3 && HasPrefix(s, r[..length]) && HasSuffix(r, "...")
  {
    if |s| <= length then s else s[..length] + "..."
  }

  /** Capitalize: the first character upper-cased, the rest kept. */
  function Capitalize(s: string): (r: string)
    ensures |r| == |s|
    ensures |s| > 0 ==> r[0] == UpperChar(s[0]) && r[1..] == s[1..]
  {
    if |s| == 0 then s else [UpperChar(s[0])] + s[1..]
  }

  /** The `result +=` loop of ToCamelCase: each word capitalised and
      appended. */
  function CapitalizeAll(words: seq<string>): string
    decreases |words|
  {
    if words == [] then "" else Capitalize(words[0]) + CapitalizeAll(words[1..])
  }

  /** ToCamelCase: split at '_', keep the first word, capitalise the others.
      The first word is the text before the first '_' (all of `s` without
      one), and the result starts with it unchanged. */
  function ToCamelCase(s: string): (r: string)
    ensures var first := Split(s, '_')[0];
      HasPrefix(s, first) && '_' !in first && (|first| < |s| ==> s[|first|] == '_') && HasPrefix(r, first)
  {
    var words := Split(s, '_');
    assert |words| > 1 ==> s == words[0] + ['_'] + Join(words[1..], '_');
    words[0] + CapitalizeAll(words[1..])
  }

  lemma {:induction false} CapitalizeAllShape(words: seq<string>)
    requires forall i :: 0 <= i < |words| ==> '_' !in words[i]
    ensures '_' !in CapitalizeAll(words)
    ensures |CapitalizeAll(words)| == |Join(words, '_')| - (if words == [] then 0 else |words| - 1)
    decreases |words|
  {
    if words != [] {
      CapitalizeAllShape(words[1..]);
      var c := Capitalize(words[0]);
      assert '_' !in c by {
        if |words[0]| > 0 {
          assert UpperChar(words[0][0]) != '_';
          assert c == [c[0]] + words[0][1..];
        }
      }
    }
  }

  /** ToCamelCase drops exactly the underscores: the result has none, and is
      shorter than the input by their number; input without '_' comes back
      unchanged. */
  lemma CamelCaseShape(s: string)
    ensures '_' !in ToCamelCase(s)
    ensures |ToCamelCase(s)| == |s| - Count(s, '_')
    ensures '_' !in s ==> ToCamelCase(s) == s
  {
    var words := Split(s, '_');
    CapitalizeAllShape(words[1..]);
    JoinLength(words);
    if '_' !in s {
      assert words == [s];
    }
  }

  /** Camel-casing read one character at a time: a '_' is dropped and makes
      the next character upper case; every other character is kept,
      upper-cased when `up` holds (it follows a '_'). */
  function CamelRef(s: string, up: bool): string
    decreases |s|
  {
    if s == [] then ""
    else if s[0] == '_' then CamelRef(s[1..], true)
    else [if up then UpperChar(s[0]) else s[0]] + CamelRef(s[1..], false)
  }

  /** A word without '_' at the head of the input: it comes out whole
      (capitalised when `up` holds), and an empty word passes `up` on. */
  lemma {:induction false} WordThen(w: string, rest: string, up: bool)
    requires '_' !in w
    ensures CamelRef(w + rest, up) ==
      (if up then Capitalize(w) else w) + CamelRef(rest, if w == [] then up else false)
    decreases |w|
  {
    if w != [] {
      var c := if up then UpperChar(w[0]) else w[0];
      assert w[0] != '_';
      assert (w + rest)[0] == w[0] && (w + rest)[1..] == w[1..] + rest;
      assert '_' !in w[1..];
      WordThen(w[1..], rest, false);
      assert CamelRef(w + rest, up) == [c] + (w[1..] + CamelRef(rest, false));
      assert (if up then Capitalize(w) else w) == [c] + w[1..];
    } else {
      assert w + rest == rest;
    }
  }

  /** The words of the split, read by the reference: the first whole (or
      capitalised when `up` holds), every later one capitalised. */
  lemma {:induction false} SplitRef(s: string, up: bool)
    ensures CamelRef(s, up) ==
      (if up then Capitalize(Split(s, '_')[0]) else Split(s, '_')[0]) + CapitalizeAll(Split(s, '_')[1..])
    decreases |s|
  {
    var words := Split(s, '_');
    if '_' !in s {
      assert words == [s];
      assert s + [] == s;
      WordThen(s, [], up);
    } else {
      var i := CharIndex(s, '_');
      var w, rest := s[..i], s[i + 1..];
      var tail := Split(rest, '_');
      assert words == [w] + tail;
      assert s == w + (['_'] + rest);
      WordThen(w, ['_'] + rest, up);
      WrapUnderscore(rest, if w == [] then up else false);
      SplitRef(rest, true);
      assert words[1..] == tail;
      assert CapitalizeAll(tail) == Capitalize(tail[0]) + CapitalizeAll(tail[1..]);
    }
  }

  /** A '_' at the head is dropped and turns the next character upper case. */
  lemma WrapUnderscore(rest: string, up: bool)
    ensures CamelRef(['_'] + rest, up) == CamelRef(rest, true)
  {
    assert (['_'] + rest)[1..] == rest;
  }

  /** ToCamelCase capitalises every word after the first: it is the
      character-by-character reference started outside a word break. */
  lemma CamelCaseMeaning(s: string)
    ensures ToCamelCase(s) == CamelRef(s, false)
  {
    SplitRef(s, false);
  }

  /** A join with a one-character separator is as long as its parts plus
      one separator between each two, and the separator count is that
      number. */
  lemma {:induction false} JoinLength(words: seq<string>)
    requires |words| >= 1
    requires forall i :: 0 <= i < |words| ==> '_' !in words[i]
    ensures Count(Join(words, '_'), '_') == |words| - 1
    ensures |Join(words, '_')| == |words[0]| + |Join(words[1..], '_')| + (if |words| > 1 then 1 else 0)
    decreases |words|
  {
    CountZero(words[0], '_');
    if |words| > 1 {
      JoinLength(words[1..]);
      CountAppend(words[0], ['_'], '_');
      CountAppend(words[0] + ['_'], Join(words[1..], '_'), '_');
      assert Count(['_'], '_') == 1;
    }
  }

  /** The positions of the four dashes of a UUID. */
  predicate DashAt(i: int) {
    i == 8 || i == 13 || i == 18 || i == 23
  }

  /** Characters `from` up to `to` are hexadecimal digits. */
  predicate HexRun(u: string, from: nat, to: nat)
    requires from <= to <= |u|
  {
    forall i :: from <= i < to ==> IsHexDigit(u[i])
  }

  /** IsValidUUID: five groups of 8, 4, 4, 4 and 12 hexadecimal digits
      separated by dashes, as in section 3 of RFC 4122 (either letter
      case). */
  function IsValidUUID(u: string): (b: bool)
    ensures b <==> |u| == 36 && forall i :: 0 <= i < 36 ==> if DashAt(i) then u[i] == '-' else IsHexDigit(u[i])
  {
    |u| == 36 && HexRun(u, 0, 8) && u[8] == '-' && HexRun(u, 9, 13) && u[13] == '-' &&
    HexRun(u, 14, 18) && u[18] == '-' && HexRun(u, 19, 23) && u[23] == '-' && HexRun(u, 24, 36)
  }

  predicate Harmful(c: char) {
    c == '<' || c == '>' || c == '\'' || c == '"' || c == '&'
  }

  /** SanitizeString: every `<`, `>`, `'`, `"` and `&` removed. */
  function SanitizeString(input: string): (r: string)
    ensures forall i :: 0 <= i < |r| ==> !Harmful(r[i])
    ensures |r| <= |input|
  {
    if input == [] then []
    else (if Harmful(input[0]) then [] else [input[0]]) + SanitizeString(input[1..])
  }

  /** The other characters are kept, in order: sanitising distributes over
      concatenation, so each character is kept or dropped on its own. */
  lemma {:induction false} SanitizeConcat(a: string, b: string)
    ensures SanitizeString(a + b) == SanitizeString(a) + SanitizeString(b)
    decreases |a|
  {
    if a != [] {
      assert (a + b)[1..] == a[1..] + b;
      SanitizeConcat(a[1..], b);
    } else {
      assert a + b == b;
    }
  }

  /** A string without harmful characters is left alone. */
  lemma {:induction false} SanitizeKeepsClean(s: string)
    requires forall i :: 0 <= i < |s| ==> !Harmful(s[i])
    ensures SanitizeString(s) == s
    decreases |s|
  {
    if s != [] {
      SanitizeKeepsClean(s[1..]);
    }
  }

  /** The text before the first ',' (all of it when there is none). */
  function FirstItem(s: string): (r: string)
    ensures ',' !in r && HasPrefix(s, r)
    ensures ',' in s ==> s[|r|] == ','
    ensures ',' !in s ==> r == s
  {
    if ',' in s then s[..CharIndex(s, ',')] else s
  }

  /** GetClientIP: the first X-Forwarded-For item, trimmed; else X-Real-IP;
      else the remote address. */
  function GetClientIP(req: Request): (r: string)
    ensures Header(req, "X-Forwarded-For") != "" ==> r == TrimSpace(FirstItem(Header(req, "X-Forwarded-For")))
    ensures Header(req, "X-Forwarded-For") == "" && Header(req, "X-Real-IP") != "" ==> r == Header(req, "X-Real-IP")
    ensures Header(req, "X-Forwarded-For") == "" && Header(req, "X-Real-IP") == "" ==> r == req.remoteIp
  {
    var forwarded := Header(req, "X-Forwarded-For");
    if forwarded != "" then
      var ips := Split(forwarded, ',');
      TrimSpace(ips[0])
    else if Header(req, "X-Real-IP") != "" then Header(req, "X-Real-IP")
    else req.remoteIp
  }

  /** The part of the phone pattern after the optional '+': a digit 1-9 and
      at most fifteen more digits. */
  predicate PhoneDigits(d: string) {
    1 <= |d| <= 16 && '1' <= d[0] <= '9' && forall i :: 1 <= i < |d| ==> IsDigit(d[i])
  }

  /** ValidatePhone: the pattern ^[+]?[1-9][0-9]{0,15}$. */
  function ValidatePhone(phone: string): (b: bool)
    ensures b <==> PhoneDigits(phone) || (|phone| > 0 && phone[0] == '+' && PhoneDigits(phone[1..]))
    ensures b ==> 1 <= |phone| <= 17
  {
    var d := if |phone| > 0 && phone[0] == '+' then phone[1..] else phone;
    PhoneDigits(d)
  }
}

=== FILE: task.dfy ===
// The retry loop of app/helper/task.go. The calls of `fn` are given by
// their outcomes, call by call; sleeping is recorded as the list of delays.
module Task {
  import opened Wrappers

  function Pow2(k: nat): nat {
    if k == 0 then 1 else 2 * Pow2(k - 1)
  }

  /** The delays slept before calls 1 .. n-1: initialDelay, twice that, and
      so on. */
  function Backoff(initialDelay: int, n: nat): (d: seq<int>)
    ensures |d| == n
    ensures forall k :: 0 <= k < n ==> d[k] == initialDelay * Pow2(k)
  {
    if n == 0 then [] else Backoff(initialDelay, n - 1) + [initialDelay * Pow2(n - 1)]
  }

  /** Retry: call `fn` until it succeeds, at most `maxRetries` times,
      sleeping between attempts with a doubling delay; the result is nil
      after a success or when nothing was tried, else the last error. */
  method Retry(fn: nat -> Outcome, maxRetries: int, initialDelay: int)
    returns (err: Outcome, calls: nat, sleeps: seq<int>)
    ensures calls <= (if maxRetries > 0 then maxRetries else 0)
    ensures forall k :: 0 <= k < calls - 1 ==> fn(k).Fail?
    ensures maxRetries <= 0 ==> calls == 0 && err == Pass && sleeps == []
    ensures err == Pass && calls > 0 ==> fn(calls - 1) == Pass
    ensures err.Fail? ==> calls == maxRetries && fn(calls - 1) == err
    ensures calls < maxRetries ==> err == Pass
    ensures sleeps == Backoff(initialDelay, if calls > 0 then calls - 1 else 0)
  {
    err := Pass;
    var delay := initialDelay;
    sleeps := [];
    calls := 0;
    var i := 0;
    while i < maxRetries
      invariant 0 <= i <= (if maxRetries > 0 then maxRetries else 0)
      invariant calls == i
      invariant forall k :: 0 <= k < i ==> fn(k).Fail?
      invariant i > 0 ==> err == fn(i - 1)
      invariant i == 0 ==> err == Pass
      invariant delay == initialDelay * Pow2(if i > 0 && i < maxRetries then i else if i > 0 then i - 1 else 0)
      invariant sleeps == Backoff(initialDelay, if i > 0 && i < maxRetries then i else if i > 0 then i - 1 else 0)
    {
      err := fn(i);
      calls := calls + 1;
      if err == Pass {
        return Pass, calls, sleeps;
      }
      if i < maxRetries - 1 {
        sleeps := sleeps + [delay];
        delay := delay * 2;
      }
      i := i + 1;
    }
  }
}

=== FILE: text.dfy ===
// String operations from Go's `strings` package that the rest of the model
// relies on. Strings are sequences of characters; where Go counts bytes the
// model counts characters, which agrees on ASCII text.
module Text {
  predicate HasPrefix(s: string, p: string) {
    |p| <= |s| && s[..|p|] == p
  }

  predicate HasSuffix(s: string, p: string) {
    |p| <= |s| && s[|s| - |p|..] == p
  }

  /** strings.TrimPrefix: removes `p` once when `s` starts with it. */
  function TrimPrefix(s: string, p: string): (r: string)
    ensures HasPrefix(s, p) ==> p + r == s
    ensures !HasPrefix(s, p) ==> r == s
  {
    if HasPrefix(s, p) then
      assert s == s[..|p|] + s[|p|..];
      s[|p|..]
    else s
  }

  /** Starting with `a + b` is starting with `a` and then, once `a` is
      trimmed, with `b`. */
  lemma PrefixConcat(s: string, a: string, b: string)
    ensures HasPrefix(s, a + b) <==> HasPrefix(s, a) && HasPrefix(TrimPrefix(s, a), b)
  {
    if HasPrefix(s, a + b) {
      assert s[..|a|] == (a + b)[..|a|] == a;
      assert TrimPrefix(s, a)[..|b|] == s[|a|..|a| + |b|] == (a + b)[|a|..] == b;
    }
    if HasPrefix(s, a) && HasPrefix(TrimPrefix(s, a), b) {
      assert s[..|a| + |b|] == s[..|a|] + s[|a|..|a| + |b|];
    }
  }

  /** strings.TrimSuffix: removes `p` once when `s` ends with it. */
  function TrimSuffix(s: string, p: string): (r: string)
    ensures HasSuffix(s, p) ==> r + p == s
    ensures !HasSuffix(s, p) ==> r == s
  {
    if HasSuffix(s, p) then
      assert s == s[..|s| - |p|] + s[|s| - |p|..];
      s[..|s| - |p|]
    else s
  }

  /** `sub` occurs in `s` starting at index `j`. */
  predicate OccursAt(s: string, sub: string, j: int) {
    0 <= j && j + |sub| <= |s| && s[j..j + |sub|] == sub
  }

  /** Index of the first occurrence of `sub` at or after `i`, or -1. */
  function IndexFrom(s: string, sub: string, i: nat): (r: int)
    requires i <= |s|
    ensures r == -1 || (i <= r && OccursAt(s, sub, r))
    ensures r == -1 ==> forall j :: i <= j <= |s| ==> !OccursAt(s, sub, j)
    ensures r != -1 ==> forall j :: i <= j < r ==> !OccursAt(s, sub, j)
    decreases |s| - i
  {
    if OccursAt(s, sub, i) then i
    else if i == |s| then -1
    else IndexFrom(s, sub, i + 1)
  }

  /** strings.Index: the first occurrence of `sub` in `s`, or -1. */
  function Index(s: string, sub: string): (r: int)
    ensures r == -1 || OccursAt(s, sub, r)
    ensures r == -1 <==> forall j :: 0 <= j <= |s| ==> !OccursAt(s, sub, j)
    ensures forall j :: 0 <= j < r ==> !OccursAt(s, sub, j)
  {
    IndexFrom(s, sub, 0)
  }

  /** `sub` occurs somewhere in `s` (strings.Contains). */
  predicate ContainsSub(s: string, sub: string) {
    exists j :: 0 <= j <= |s| && OccursAt(s, sub, j)
  }

  lemma IndexFindsOccurrence(s: string, sub: string)
    ensures ContainsSub(s, sub) <==> Index(s, sub) != -1
  {
    if Index(s, sub) != -1 {
      assert OccursAt(s, sub, Index(s, sub));
    }
  }

  /** A string without `sub` keeps that property in every prefix. */
  lemma NoOccurrenceInPrefix(s: string, sub: string, n: nat)
    requires n <= |s|
    requires !ContainsSub(s, sub)
    ensures !ContainsSub(s[..n], sub)
  {
    forall j | 0 <= j <= n && OccursAt(s[..n], sub, j)
      ensures false
    {
      assert s[..n][j..j + |sub|] == s[j..j + |sub|];
      assert OccursAt(s, sub, j);
    }
  }

  /** Cutting `s` just before the first occurrence of a non-empty `sub`
      leaves a string without `sub`. */
  lemma NoOccurrenceBeforeFirst(s: string, sub: string)
    requires |sub| > 0 && Index(s, sub) != -1
    ensures !ContainsSub(s[..Index(s, sub)], sub)
  {
    var n := Index(s, sub);
    forall j | 0 <= j <= n && OccursAt(s[..n], sub, j)
      ensures false
    {
      assert s[..n][j..j + |sub|] == s[j..j + |sub|];
      assert OccursAt(s, sub, j);
    }
  }

  /** Index of the first `c` in `s`. */
  function CharIndex(s: string, c: char): (i: nat)
    requires c in s
    ensures i < |s| && s[i] == c && c !in s[..i]
  {
    if s[0] == c then 0
    else
      assert c in s[1..] by {
        var k :| 0 <= k < |s| && s[k] == c;
        assert s[1..][k - 1] == c;
      }
      var j := CharIndex(s[1..], c);
      assert s[..j + 1] == [s[0]] + s[1..][..j];
      j + 1
  }

  /** strings.Join with a one-character separator. */
  function Join(parts: seq<string>, sep: char): string
    decreases |parts|
  {
    if |parts| == 0 then ""
    else if |parts| == 1 then parts[0]
    else parts[0] + [sep] + Join(parts[1..], sep)
  }

  /** strings.Split with a one-character separator: the pieces between
      separators, at least one piece, none containing the separator. */
  function Split(s: string, sep: char): (r: seq<string>)
    ensures |r| >= 1
    ensures forall i :: 0 <= i < |r| ==> sep !in r[i]
    ensures Join(r, sep) == s
    decreases |s|
  {
    if sep !in s then [s]
    else
      var i := CharIndex(s, sep);
      var rest := Split(s[i + 1..], sep);
      var r := [s[..i]] + rest;
      assert r[1..] == rest;
      assert s == s[..i] + [sep] + s[i + 1..];
      r
  }

  /** Number of occurrences of `c` in `s`. */
  function Count(s: string, c: char): nat
  {
    if |s| == 0 then 0
    else (if s[0] == c then 1 else 0) + Count(s[1..], c)
  }

  lemma CountZero(s: string, c: char)
    ensures Count(s, c) == 0 <==> c !in s
  {
    if |s| > 0 {
      CountZero(s[1..], c);
      assert c in s <==> s[0] == c || c in s[1..];
    }
  }

  lemma CountAppend(a: string, b: string, c: char)
    ensures Count(a + b, c) == Count(a, c) + Count(b, c)
  {
    if |a| > 0 {
      assert (a + b)[1..] == a[1..] + b;
      CountAppend(a[1..], b, c);
    } else {
      assert a + b == b;
    }
  }

  /** strings.ReplaceAll for single characters. */
  function ReplaceChar(s: string, from: char, to: char): (r: string)
    ensures |r| == |s|
    ensures forall i :: 0 <= i < |s| ==> r[i] == if s[i] == from then to else s[i]
  {
    if |s| == 0 then ""
    else [if s[0] == from then to else s[0]] + ReplaceChar(s[1..], from, to)
  }

  predicate IsDigit(c: char) { '0' <= c <= '9' }

  predicate IsHexDigit(c: char) {
    IsDigit(c) || 'a' <= c <= 'f' || 'A' <= c <= 'F'
  }

  /** unicode.IsSpace. */
  predicate IsSpace(c: char) {
    var n := c as int;
    (0x09 <= n <= 0x0D) || n == 0x20 || n == 0x85 || n == 0xA0 || n == 0x1680
    || (0x2000 <= n <= 0x200A) || n == 0x2028 || n == 0x2029 || n == 0x202F
    || n == 0x205F || n == 0x3000
  }

  function TrimLeftSpace(s: string): (r: string)
    ensures |r| <= |s| && r == s[|s| - |r|..]
    ensures |r| > 0 ==> !IsSpace(r[0])
    ensures forall i :: 0 <= i < |s| - |r| ==> IsSpace(s[i])
  {
    if |s| > 0 && IsSpace(s[0]) then TrimLeftSpace(s[1..]) else s
  }

  function TrimRightSpace(s: string): (r: string)
    ensures |r| <= |s| && r == s[..|r|]
    ensures |r| > 0 ==> !IsSpace(r[|r| - 1])
    ensures forall i :: |r| <= i < |s| ==> IsSpace(s[i])
  {
    if |s| > 0 && IsSpace(s[|s| - 1]) then TrimRightSpace(s[..|s| - 1]) else s
  }

  /** strings.TrimSpace: drops leading and trailing white space. */
  function TrimSpace(s: string): (r: string)
  {
    TrimRightSpace(TrimLeftSpace(s))
  }

  /** unicode.ToUpper restricted to ASCII letters. */
  function UpperChar(c: char): char {
    if 'a' <= c <= 'z' then (c as int - 32) as char else c
  }

  /** unicode.ToLower restricted to ASCII letters. */
  function LowerChar(c: char): char {
    if 'A' <= c <= 'Z' then (c as int + 32) as char else c
  }

  function ToLower(s: string): (r: string)
    ensures |r| == |s|
    ensures forall i :: 0 <= i < |s| ==> r[i] == LowerChar(s[i])
  {
    if |s| == 0 then "" else [LowerChar(s[0])] + ToLower(s[1..])
  }

  /** strconv.Itoa / fmt's %d: the decimal digits of n, with '-' when
      negative. */
  function NatToString(n: nat): (r: string)
    ensures |r| >= 1 && forall i :: 0 <= i < |r| ==> IsDigit(r[i])
  {
    if n < 10 then [Digit(n)] else NatToString(n / 10) + [Digit(n % 10)]
  }

  function Digit(d: nat): (c: char)
    requires d < 10
    ensures IsDigit(c)
  {
    ('0' as int + d) as char
  }

  function IntToString(n: int): string {
    if n < 0 then "-" + NatToString(-n) else NatToString(n)
  }
}

=== FILE: utils.dfy ===
// Slice membership and de-duplication of app/helper/utils.go. An argument
// of type `any` is either a slice (or array) or some other value.
module Utils {
  datatype Any<T> = List(items: seq<T>) | Single(value: T)

  /** The index search of Contains, from position `i` on. */
  function ContainsFrom<T(==)>(s: seq<T>, item: T, i: nat): (b: bool)
    requires i <= |s|
    ensures b <==> exists k :: i <= k < |s| && s[k] == item
    decreases |s| - i
  {
    if i == |s| then false
    else if s[i] == item then true
    else ContainsFrom(s, item, i + 1)
  }

  /** Contains: false for a non-slice, else whether some element equals
      `item`. */
  function Contains<T(==)>(slice: Any<T>, item: T): (b: bool)
    ensures slice.Single? ==> !b
    ensures slice.List? ==> (b <==> item in slice.items)
  {
    match slice
    case Single(_) => false
    case List(s) => ContainsFrom(s, item, 0)
  }

  /** The first occurrence of each value, in order: the reference for
      RemoveDuplicates. */
  function Distinct<T(==)>(s: seq<T>): seq<T>
    decreases |s|
  {
    if s == [] then []
    else
      var init := s[..|s| - 1];
      var last := s[|s| - 1];
      Distinct(init) + (if last in init then [] else [last])
  }

  predicate NoRepeats<T(==)>(s: seq<T>) {
    forall i, j :: 0 <= i < j < |s| ==> s[i] != s[j]
  }

  /** Distinct keeps exactly the values of its input, once each, and is no
      longer than it. */
  lemma {:induction false} DistinctMeaning<T>(s: seq<T>)
    ensures NoRepeats(Distinct(s))
    ensures forall x :: x in Distinct(s) <==> x in s
    ensures |Distinct(s)| <= |s|
    decreases |s|
  {
    if s != [] {
      var init := s[..|s| - 1];
      DistinctMeaning(init);
      assert s == init + [s[|s| - 1]];
    }
  }

  /** Distinct of a sequence with one more element. */
  lemma DistinctSnoc<T>(s: seq<T>, x: T)
    ensures Distinct(s + [x]) == Distinct(s) + (if x in s then [] else [x])
  {
    assert (s + [x])[..|s + [x]| - 1] == s;
  }

  /** Order is kept: a value that comes first in the input comes first in
      the output. */
  lemma {:induction false} DistinctKeepsOrder<T>(s: seq<T>, i: nat, j: nat)
    requires i < j < |s| && s[i] !in s[..i] && s[j] !in s[..j]
    ensures exists a, b :: 0 <= a < b < |Distinct(s)| && Distinct(s)[a] == s[i] && Distinct(s)[b] == s[j]
    decreases |s|
  {
    var init := s[..|s| - 1];
    assert s == init + [s[|s| - 1]];
    if j < |s| - 1 {
      assert init[..i] == s[..i] && init[..j] == s[..j];
      DistinctKeepsOrder(init, i, j);
      var a, b :| 0 <= a < b < |Distinct(init)| && Distinct(init)[a] == s[i] && Distinct(init)[b] == s[j];
      assert Distinct(s)[a] == s[i] && Distinct(s)[b] == s[j];
    } else {
      assert s[..j] == init;
      DistinctMeaning(init);
      assert s[i] in init;
      var a :| 0 <= a < |Distinct(init)| && Distinct(init)[a] == s[i];
      assert Distinct(s)[a] == s[i] && Distinct(s)[|Distinct(init)|] == s[j];
    }
  }

  /** RemoveDuplicates: a non-slice comes back unchanged; a slice yields its
      distinct values in first-occurrence order. */
  method RemoveDuplicates<T(==)>(slice: Any<T>) returns (r: Any<T>)
    ensures slice.Single? ==> r == slice
    ensures slice.List? ==> r == List(Distinct(slice.items))
  {
    if slice.Single? {
      return slice;
    }
    var s := slice.items;
    var result: seq<T> := [];
    var seen: set<T> := {};
    var i := 0;
    while i < |s|
      invariant 0 <= i <= |s|
      invariant result == Distinct(s[..i])
      invariant forall x :: x in seen <==> x in s[..i]
    {
      ghost var done := s[..i];
      assert s[..i + 1] == done + [s[i]];
      DistinctSnoc(done, s[i]);
      assert s[i] in seen <==> s[i] in done;
      if s[i] !in seen {
        seen := seen + {s[i]};
        result := result + [s[i]];
      }
      i := i + 1;
    }
    assert s[..i] == s;
    return List(result);
  }
}

=== FILE: validators.dfy ===
// The IAuthValidator interface of app/loader/auth/authn.go, dispatched over
// the three validators.
module Validators {
  import opened Wrappers
  import opened Http
  import opened AuthInfo
  import ApiKeyAuth
  import BasicAuth
  import JwtAuth

  /** The outside libraries validators call: base64 decoding of a Basic
      credential, and token parsing and checking with a secret. */
  datatype Externals = Externals(
    base64Decode: string -> string,
    tokenCheck: (string, string) -> JwtAuth.TokenCheck)

  /** A validator value: the interface holding one of its implementations. */
  datatype Validator =
    | ApiKey(apiKey: ApiKeyAuth.ApiKeyValidator)
    | Basic(basic: BasicAuth.BasicAuthValidator)
    | Jwt(jwt: JwtAuth.JwtAuthValidator)
  {
    /** Name: "apikey" and "basic"; the bearer-token validator also says
        "basic". */
    function Name(): (n: string)
      ensures ApiKey? ==> n == "apikey"
      ensures Basic? || Jwt? ==> n == "basic"
    {
      match this
      case ApiKey(_) => "apikey"
      case Basic(_) => "basic"
      case Jwt(_) => "basic"
    }

    /** The object behind the interface. */
    function Obj(): object {
      match this
      case ApiKey(a) => a
      case Basic(b) => b
      case Jwt(j) => j
    }

    /** GetValue: the key stored by the last successful ValidateKey. */
    function GetValue(): string
      reads Obj()
    {
      match this
      case ApiKey(a) => a.key
      case Basic(b) => b.key
      case Jwt(j) => j.key
    }

    function ExtractKey(req: Request): Result<string, string> {
      match this
      case ApiKey(a) => a.ExtractKey(req)
      case Basic(b) => b.ExtractKey(req)
      case Jwt(j) => j.ExtractKey(req)
    }

    /** VerifyUser: no validator matches an empty key, and only the
        bearer-token validator ever reports an error. */
    function VerifyUser(ext: Externals, userKey: string, user: User): (v: Verdict)
      ensures userKey == "" ==> v == Verdict(false, None)
      ensures !Jwt? ==> v.err == None
    {
      match this
      case ApiKey(a) => a.VerifyUser(userKey, user)
      case Basic(b) => b.VerifyUser(userKey, user, ext.base64Decode)
      case Jwt(j) => j.VerifyUser(userKey, user, ext.tokenCheck)
    }

    /** ValidateKey: only the validator's own key changes, and only on
        success. */
    method ValidateKey(req: Request) returns (err: Outcome)
      modifies Obj()
      ensures ExtractKey(req).Success? ==> err == Pass && GetValue() == ExtractKey(req).value
      ensures ExtractKey(req).Failure? ==> err == Fail(ExtractKey(req).error) && GetValue() == old(GetValue())
    {
      match this
      case ApiKey(a) => err := a.ValidateKey(req);
      case Basic(b) => err := b.ValidateKey(req);
      case Jwt(j) => err := j.ValidateKey(req);
    }
  }
}

=== FILE: webcore_config.dfy ===
// Configuration loading of webcore/app/config/interface.go: the module
// prefix and a registry of one engine per file.
module WebcoreConfig {
  import opened Wrappers
  import opened Text
  import opened ConfigScan
  import AppConfig

  /** modPrefix: empty for no prefix, "module.<p>." in module mode, else
      "<p>.". */
  function ModPrefix(prefix: string, isModule: bool): (r: string)
    ensures prefix == "" ==> r == ""
    ensures prefix != "" && isModule ==> r == "module." + prefix + "."
    ensures prefix != "" && !isModule ==> r == prefix + "."
  {
    if prefix != "" then (if isModule then "module." + prefix + "." else prefix + ".") else ""
  }

  /** A key is cut only when a prefix is given and the key starts with the
      module prefix. */
  function CutPrefix(prefix: string, isModule: bool): (r: Option<string>)
    ensures r.Some? <==> prefix != ""
    ensures r.Some? ==> r.value == ModPrefix(prefix, isModule) && r.value != ""
  {
    if prefix != "" then Some(ModPrefix(prefix, isModule)) else None
  }

  /** setPriorityDefaults: scan all of the engine's keys. */
  method SetPriorityDefaults(engine: Engine, keys: seq<string>, declared: map<string, string>,
                             prefix: string, isModule: bool)
    modifies engine`defaults
    ensures engine.defaults == Scan(engine.stored, old(engine.defaults), keys, CutPrefix(prefix, isModule), declared, {})
  {
    ScanKeys(engine, keys, CutPrefix(prefix, isModule), declared, {});
  }

  /** The InstanceViper registry: one engine per "file.ext". */
  class Registry {
    var instances: map<string, Engine>

    constructor ()
      ensures instances == map[]
    {
      instances := map[];
    }

    /** LoadConfig: create the file's engine on first use (a read error
        other than a missing file aborts and stores nothing), then set the
        defaults and unmarshal (outcome `unmarshal`). */
    method LoadConfig(prefix: string, file: string, ext: string, source: AppConfig.Source, keys: seq<string>,
                      declared: map<string, string>, isModule: bool, unmarshal: Outcome)
      returns (err: Outcome)
      modifies this`instances
      modifies if file + "." + ext in instances then {instances[file + "." + ext]} else {}
      ensures var name := file + "." + ext;
        name !in old(instances) && source.readError.Some? && source.readError.value.ReadFailed? ==>
        err == Fail(source.readError.value.message) && instances == old(instances)
      ensures var name := file + "." + ext;
        name in old(instances) ==>
        instances == old(instances) && err == unmarshal &&
        instances[name].defaults ==
          Scan(instances[name].stored, old(instances[name].defaults), keys, CutPrefix(prefix, isModule), declared, {})
      ensures var name := file + "." + ext;
        name !in old(instances) && (source.readError.None? || source.readError.value.NotFound?) ==>
        name in instances && instances == old(instances)[name := instances[name]] && err == unmarshal &&
        fresh(instances[name]) && instances[name].stored == source.stored &&
        instances[name].defaults == Scan(source.stored, map[], keys, CutPrefix(prefix, isModule), declared, {})
    {
      var name := file + "." + ext;
      var engine: Engine;
      if name !in instances {
        if source.readError.Some? && source.readError.value.ReadFailed? {
          return Fail(source.readError.value.message);
        }
        engine := new Engine(source.stored);
        instances := instances[name := engine];
      } else {
        engine := instances[name];
      }
      SetPriorityDefaults(engine, keys, declared, prefix, isModule);
      return unmarshal;
    }
  }
}

=== FILE: wrappers.dfy ===
// Small value types shared by every module of the model.
module Wrappers {
  /** A Go pointer or interface that may be nil. */
  datatype Option<+T> = None | Some(value: T)

  /** A Go `(value, error)` pair where exactly one side is meaningful. */
  datatype Result<+T, +E> = Success(value: T) | Failure(error: E)

  /** A Go `error` return: nil (`Pass`) or an error carrying its message. */
  datatype Outcome = Pass | Fail(error: string)
}

=== FILE: yaml_store.dfy ===
// The YAML-backed auth store of libraries/authstore/yaml/loader.go: a
// linear scan for the user a validator accepts, and a first-match scan for
// the resource guarding a request.
module YamlStore {
  import opened Wrappers
  import opened Text
  import opened AuthInfo
  import opened Validators

  const NotLoadedMessage := "File access.yaml gagal dimuat"

  /** AuthStoreYAML: the access-control type, the users and resources in file
      order, and whether access.yaml was loaded. */
  datatype AuthStoreYaml = AuthStoreYaml(controlType: string, users: seq<User>, resources: seq<Resource>, loaded: bool)

  /** The verdict a validator gives for the user at index i. */
  function VerdictAt(users: seq<User>, v: Validator, ext: Externals, key: string, i: nat): Verdict
    requires i < |users|
  {
    v.VerifyUser(ext, key, users[i])
  }

  /** A clean match: (true, nil). */
  predicate CleanAt(users: seq<User>, v: Validator, ext: Externals, key: string, i: nat)
    requires i < |users|
  {
    VerdictAt(users, v, ext, key, i).ok && VerdictAt(users, v, ext, key, i).err.None?
  }

  /** User i is the first clean match. */
  predicate FirstCleanAt(users: seq<User>, v: Validator, ext: Externals, key: string, i: nat) {
    i < |users| && CleanAt(users, v, ext, key, i) &&
    forall j :: 0 <= j < i ==> !CleanAt(users, v, ext, key, j)
  }

  /** The error of the last user that matched with an error, if any. */
  function LastSoftError(users: seq<User>, v: Validator, ext: Externals, key: string): Option<string> {
    if users == [] then None
    else
      var last := v.VerifyUser(ext, key, users[|users| - 1]);
      if last.ok && last.err.Some? then last.err
      else LastSoftError(users[..|users| - 1], v, ext, key)
  }

  /** The loop of GetUserAuthInfo over `users`, entered with `err1` as the
      last error seen so far. */
  function Scan(users: seq<User>, v: Validator, ext: Externals, key: string, err1: Option<string>): Result<User, string>
    decreases |users|
  {
    if users == [] then
      if err1.Some? then Failure(err1.value) else Failure("Invalid or expired token " + key)
    else
      var vd := v.VerifyUser(ext, key, users[0]);
      if vd.ok && vd.err.None? then Success(users[0])
      else Scan(users[1..], v, ext, key, if vd.ok then vd.err else err1)
  }

  /** What GetUserAuthInfo answers for the key `key`. */
  function UserLookup(y: AuthStoreYaml, v: Validator, ext: Externals, key: string): Result<User, string> {
    if !y.loaded then Failure(NotLoadedMessage) else Scan(y.users, v, ext, key, None)
  }

  /** GetUserAuthInfo: reads the validator's key, then verifies every user in
      order, returning the first clean match and remembering the last error
      of a match that came with one. */
  method GetUserAuthInfo(y: AuthStoreYaml, v: Validator, ext: Externals) returns (r: Result<User, string>)
    ensures r == UserLookup(y, v, ext, v.GetValue())
  {
    if !y.loaded {
      return Failure(NotLoadedMessage);
    }
    var userKey := v.GetValue();
    var err1: Option<string> := None;
    var i := 0;
    while i < |y.users|
      invariant 0 <= i <= |y.users|
      invariant Scan(y.users, v, ext, userKey, None) == Scan(y.users[i..], v, ext, userKey, err1)
    {
      var info := y.users[i];
      var vd := v.VerifyUser(ext, userKey, info);
      if vd.ok {
        if vd.err.None? {
          return Success(info);
        } else {
          err1 := vd.err;
        }
      }
      assert y.users[i..][1..] == y.users[i + 1..];
      i := i + 1;
    }
    if err1.Some? {
      return Failure(err1.value);
    }
    return Failure("Invalid or expired token " + userKey);
  }

  /** The scan from position i on answers the first clean match at or after
      i, whatever error it carries in. */
  lemma {:induction false} ScanFindsFirstClean(users: seq<User>, v: Validator, ext: Externals, key: string,
                                               err1: Option<string>, i: nat)
    requires FirstCleanAt(users, v, ext, key, i)
    ensures Scan(users, v, ext, key, err1) == Success(users[i])
    decreases i
  {
    if i > 0 {
      assert !CleanAt(users, v, ext, key, 0);
      var vd := v.VerifyUser(ext, key, users[0]);
      forall j | 0 <= j < i - 1 ensures !CleanAt(users[1..], v, ext, key, j) {
        assert !CleanAt(users, v, ext, key, j + 1);
      }
      assert CleanAt(users, v, ext, key, i);
      ScanFindsFirstClean(users[1..], v, ext, key, if vd.ok then vd.err else err1, i - 1);
    }
  }

  /** Without a clean match, the scan answers the last error of a match that
      came with one, or else the one carried in, or else the default. */
  lemma {:induction false} ScanWithoutClean(users: seq<User>, v: Validator, ext: Externals, key: string,
                                            err1: Option<string>)
    requires forall j :: 0 <= j < |users| ==> !CleanAt(users, v, ext, key, j)
    ensures var last := LastSoftError(users, v, ext, key);
      Scan(users, v, ext, key, err1) ==
        if last.Some? then Failure(last.value)
        else if err1.Some? then Failure(err1.value)
        else Failure("Invalid or expired token " + key)
    decreases |users|
  {
    if users != [] {
      var vd := v.VerifyUser(ext, key, users[0]);
      assert !CleanAt(users, v, ext, key, 0);
      forall j | 0 <= j < |users| - 1 ensures !CleanAt(users[1..], v, ext, key, j) {
        assert !CleanAt(users, v, ext, key, j + 1);
      }
      var next := if vd.ok then vd.err else err1;
      ScanWithoutClean(users[1..], v, ext, key, next);
      LastSoftSplit(users, v, ext, key);
    }
  }

  /** The last error of a match in `users` is the one in its tail, or else
      the one of its head. */
  lemma {:induction false} LastSoftSplit(users: seq<User>, v: Validator, ext: Externals, key: string)
    requires users != []
    ensures var head := v.VerifyUser(ext, key, users[0]);
      LastSoftError(users, v, ext, key) ==
        if LastSoftError(users[1..], v, ext, key).Some? then LastSoftError(users[1..], v, ext, key)
        else if head.ok && head.err.Some? then head.err
        else None
    decreases |users|
  {
    if |users| > 1 {
      var init := users[..|users| - 1];
      assert init[1..] == users[1..][..|users[1..]| - 1];
      assert users[1..][|users[1..]| - 1] == users[|users| - 1];
      LastSoftSplit(init, v, ext, key);
    }
  }

  /** GetUserAuthInfo, stated outright: the first user in file order that
      verifies cleanly; else the error of the last user that matched with an
      error; else "Invalid or expired token <key>". */
  lemma UserLookupMeaning(y: AuthStoreYaml, v: Validator, ext: Externals, key: string)
    requires y.loaded
    ensures forall i: nat :: FirstCleanAt(y.users, v, ext, key, i) ==> UserLookup(y, v, ext, key) == Success(y.users[i])
    ensures (forall j :: 0 <= j < |y.users| ==> !CleanAt(y.users, v, ext, key, j)) ==>
      UserLookup(y, v, ext, key) ==
        if LastSoftError(y.users, v, ext, key).Some? then Failure(LastSoftError(y.users, v, ext, key).value)
        else Failure("Invalid or expired token " + key)
  {
    forall i: nat | FirstCleanAt(y.users, v, ext, key, i) ensures UserLookup(y, v, ext, key) == Success(y.users[i]) {
      ScanFindsFirstClean(y.users, v, ext, key, None, i);
    }
    if forall j :: 0 <= j < |y.users| ==> !CleanAt(y.users, v, ext, key, j) {
      ScanWithoutClean(y.users, v, ext, key, None);
    }
  }

  /** cleanPath: cuts a resource path at the first "/:" (route parameters)
      and then at the first "?" (a query). */
  function CleanPath(infoPath: string): (r: string)
    ensures HasPrefix(infoPath, r)
    ensures !ContainsSub(r, "/:") && !ContainsSub(r, "?")
    ensures !ContainsSub(infoPath, "/:") && !ContainsSub(infoPath, "?") ==> r == infoPath
    // the cut falls on the end of the path, a "/:" or a "?"
    ensures |r| == |infoPath| || HasPrefix(infoPath[|r|..], "/:") || infoPath[|r|] == '?'
  {
    IndexFindsOccurrence(infoPath, "/:");
    var a :=
      if Index(infoPath, "/:") != -1 then
        NoOccurrenceBeforeFirst(infoPath, "/:");
        infoPath[..Index(infoPath, "/:")]
      else infoPath;
    IndexFindsOccurrence(a, "?");
    if Index(a, "?") != -1 then
      NoOccurrenceBeforeFirst(a, "?");
      NoOccurrenceInPrefix(a, "/:", Index(a, "?"));
      assert a[Index(a, "?")..Index(a, "?") + 1] == "?";
      a[..Index(a, "?")]
    else
      assert Index(infoPath, "/:") != -1 ==> infoPath[|a|..][..2] == infoPath[Index(infoPath, "/:")..Index(infoPath, "/:") + 2];
      a
  }

  /** Cleaning a cleaned path changes nothing. */
  lemma CleanPathIdempotent(p: string)
    ensures CleanPath(CleanPath(p)) == CleanPath(p)
  {
  }

  /** Resource `res` guards a request: same method, and the request path
      starts with the resource's cleaned path. */
  predicate Guards(res: Resource, httpMethod: string, path: string) {
    httpMethod == res.httpMethod && HasPrefix(path, CleanPath(res.path))
  }

  predicate GuardsAt(resources: seq<Resource>, i: nat, httpMethod: string, path: string)
    requires i < |resources|
  {
    Guards(resources[i], httpMethod, path)
  }

  /** Which resources guard the request, one flag per resource. */
  function GuardFlags(resources: seq<Resource>, httpMethod: string, path: string): (f: seq<bool>)
    ensures |f| == |resources|
    ensures forall i :: 0 <= i < |resources| ==> f[i] == GuardsAt(resources, i, httpMethod, path)
  {
    seq(|resources|, i requires 0 <= i < |resources| => GuardsAt(resources, i, httpMethod, path))
  }

  /** The index of the first set flag at or after k, or |flags| when there
      is none. */
  function FirstSetFrom(flags: seq<bool>, k: nat): (i: nat)
    requires k <= |flags|
    ensures k <= i <= |flags|
    ensures i < |flags| ==> flags[i]
    ensures forall j :: k <= j < i ==> !flags[j]
    decreases |flags| - k
  {
    if k == |flags| then k
    else if flags[k] then k
    else FirstSetFrom(flags, k + 1)
  }

  /** The first resource, in file order, guarding the request. */
  function FirstGuard(resources: seq<Resource>, httpMethod: string, path: string): (r: Option<Resource>)
    ensures r.None? <==> forall i :: 0 <= i < |resources| ==> !GuardsAt(resources, i, httpMethod, path)
    ensures r.Some? ==>
      exists i :: 0 <= i < |resources| && resources[i] == r.value &&
        GuardsAt(resources, i, httpMethod, path) &&
        (forall j :: 0 <= j < i ==> !GuardsAt(resources, j, httpMethod, path))
  {
    var flags := GuardFlags(resources, httpMethod, path);
    var i := FirstSetFrom(flags, 0);
    if i < |resources| then Some(resources[i]) else None
  }

  /** What GetResourceInfo answers: a nil resource when none guards the
      request. */
  function ResourceLookup(y: AuthStoreYaml, httpMethod: string, path: string): Result<Option<Resource>, string> {
    if !y.loaded then Failure(NotLoadedMessage) else Success(FirstGuard(y.resources, httpMethod, path))
  }

  /** GetResourceInfo: the first-match loop over the resources. */
  method GetResourceInfo(y: AuthStoreYaml, httpMethod: string, path: string) returns (r: Result<Option<Resource>, string>)
    ensures r == ResourceLookup(y, httpMethod, path)
  {
    if !y.loaded {
      return Failure(NotLoadedMessage);
    }
    ghost var flags := GuardFlags(y.resources, httpMethod, path);
    var i := 0;
    while i < |y.resources|
      invariant 0 <= i <= |y.resources|
      invariant FirstSetFrom(flags, 0) == FirstSetFrom(flags, i)
    {
      var info := y.resources[i];
      var cleanedInfoPath := CleanPath(info.path);
      if httpMethod == info.httpMethod && HasPrefix(path, cleanedInfoPath) {
        assert flags[i];
        return Success(Some(info));
      }
      assert !flags[i];
      i := i + 1;
    }
    return Success(None);
  }
}
